=== FILE: README.md ===
# analyze-drafter-site, modelled in Dafny

This project models two parts of `analyze_drafter_site`. Both read the syntax tree of a
Drafter web application.

The **site analyzer** (`Analyzer`, `analyze_drafter_site/details.py`) walks the tree once and
builds four things:

- a table of dataclasses, each with its fields, base names and dependency set;
- the list of routes, each with its signature, component counts, fields used and called names;
- a route-to-called-names map;
- a global tally of the Drafter components used.

Two Mermaid diagrams and four text summaries are then written from these.

The **complexity helpers** (`analyze_drafter_site/complexity/`) prepare source code for
complexity scoring:

- `StringLiteralLocation` and `StringWalker` locate string literals.
- `remove_user_text` blanks docstrings, expression-statement strings and comments with spaces, keeping every line's length.
- `ExtentGetter` folds the source extent of a subtree.
- `ASTCalculator` counts node kinds per score category and weights the counts.
- `calculate_complexity` cuts one scored section per top-level function.

Layout, one module per file:

- `ast.dfy` (`Ast`): the Python syntax tree as one closed datatype.
  - Children are listed in the order CPython's `generic_visit` visits them.
  - Expression contexts (`Load`, `Store`, `Del`) are child nodes.
  - Kinds the core never inspects are `Other`.
- `pystr.dfy` (`PyStr`): the Python string operations used. These are slicing with Python's bound rules, `split`, `join`, `strip`, `splitlines` and `index`.
- `dicts.dfy` (`Dicts`): an insertion-ordered Python `dict`, as a sequence of key/value pairs with unique keys.
- `details_rules.dfy` (`DetailsRules`): the pure rules of `details.py`.
  - `get_type_name`, dataclass and route recognition, and `get_dataclass_fields`.
  - The composition heuristic, the function signature, `get_function_name` and link targets.
- `details_walk.dfy` (`DetailsWalk`): the analyzer's state as a value, one step per visitor and the whole walk (`Walk`), with the invariants the walk keeps.
- `details_report.dfy` (`DetailsReport`): the lines the Mermaid generators and `save_as_string` emit, and which edges and entries they contain.
- `details.dfy` (`Details`): the `Analyzer` class.
  - Its fields are updated in place by the visitor methods.
  - Each visitor is proved to move the state exactly as `DetailsWalk.Walk` says.
  - The serialisers are loops proved against the line functions.
- `strings.dfy` (`Strings`): `StringLiteralLocation`, the `StringWalker` class, and `remove_user_text` as a method proved against a specification function.
- `extents.dfy` (`Extents`): the `ExtentGetter` class and `get_extents`.
- `complexity.dfy` (`Complexity`): the `ASTCalculator` class, `score_node`, `remove_blank_lines`, `select_node` and the section loop of `calculate_complexity`.

Several Python details are modelled explicitly:

- **Set iteration.** Python iterates sets in an unspecified order. Methods that iterate a set return a ghost enumeration order, and their results are stated for that order.
- **`current_route`.** It is always the route appended last, so the model keeps a flag `inRoute` instead of a second reference to the same record.
- **Foreign calls.** `ast.unparse` is a parameter, and so are the score tables of `score_loader`.

Two behaviours of the dependency rule are worth stating plainly:

- `visit_ClassDef` adds every comma-separated bracket part of a generic field type as a dependency, primitives such as `str` and `int` included (details.py:99-107).
- Dependencies are computed in one pass inside `visit_ClassDef`; there is no second resolution pass.

## Model

| member | source | states |
|---|---|---|
| DetailsRules.ParseRenderedGeneric | analyze_drafter_site/details.py:93-105 | for a rendered `base[x1, ..., xn]` the text before the first `[` is `base` and the stripped comma parts between the brackets are exactly x1 ... xn |
| DetailsRules.FieldsOfUnique | analyze_drafter_site/details.py:111-120 | the fields table has each field name at most once |
| DetailsRules.FieldsOfKeys | analyze_drafter_site/details.py:114-119 | a name is a field exactly when some body statement is an annotated assignment to that bare name |
| DetailsRules.FieldsOfLastWins | analyze_drafter_site/details.py:114-119 | a field's annotation is that of the last statement declaring it |
| DetailsRules.BaseNames | analyze_drafter_site/details.py:83-85 | a name is a base name exactly when some base is a bare name with that id; there are at most as many as bases |
| DetailsRules.ClassDepsSpec | analyze_drafter_site/details.py:89-107 | a class never depends on itself, and x is a dependency exactly when some field's type contributes it |
| DetailsRules.PlainFieldDeps | analyze_drafter_site/details.py:93-97 | a field typed by a plain name adds that name exactly when it is another dataclass recorded so far |
| DetailsRules.GenericFieldDeps | analyze_drafter_site/details.py:93-107 | a field typed `base[a1, ..., an]` with a tuple slice of one or more plain names adds the generic base and every argument name, recorded dataclass or not, except the owner |
| DetailsRules.SingleArgFieldDeps | analyze_drafter_site/details.py:127-129 | a field typed `base[a]` whose slice is a plain name renders as `base[a]` and adds `base` and `a`, except the owner (so `items: list[Item]` adds `list` and `Item`) |
| DetailsRules.OtherSliceRendersBase | analyze_drafter_site/details.py:137-138 | a subscript whose slice is neither a name nor a tuple renders as its base alone, and contributes the base exactly when it is another recorded dataclass |
| DetailsRules.NestedGenericGap | analyze_drafter_site/details.py:126-138 | `list[list[Tile]]` renders as `list`, so `Tile` never becomes a dependency, and nothing does unless a dataclass is named `list` |
| DetailsRules.SignatureReadsBack | analyze_drafter_site/details.py:246-249 | a function without parameters has the signature `name()`; otherwise the text before `(` is the name, and the parenthesised comma list, stripped, is the positional parameter names |
| DetailsRules.FunctionName | analyze_drafter_site/details.py:238-244 | a call has a name exactly when its callee is a bare name or an attribute |
| DetailsRules.LinkTarget | analyze_drafter_site/details.py:192-202 | a link target exists exactly when the argument is a bare name or a string constant |
| DetailsWalk.RecordCallEffect | analyze_drafter_site/details.py:209-213 | outside a route nothing changes; inside one the name joins the current route's calls and the map entry for that route, and every other route, map entry and the tally stay as they were |
| DetailsWalk.CallStepEffect | analyze_drafter_site/details.py:180-213 | a component call raises `components_used[f]` by one (and the current route's count when there is one) and, unless it links, records no call; a named non-component call inside a route joins the route's calls and `function_calls[route]`; a nameless call, or a non-component outside a route, changes nothing |
| DetailsWalk.ReturnStep | analyze_drafter_site/details.py:218-225 | `visit_Return` keeps the open route in place |
| DetailsWalk.AttributeStepEffect | analyze_drafter_site/details.py:229-235 | inside a route, `x.f` with x a bare name in a Load or Store context adds f to the current route's fields used and changes nothing else; every other attribute changes nothing |
| DetailsWalk.ClassDefStep | analyze_drafter_site/details.py:74-109 | `visit_ClassDef` keeps the open route in place |
| DetailsWalk.OpenRoute | analyze_drafter_site/details.py:164-169 | after a route is appended, a current route exists |
| DetailsWalk.WalkRoutes | analyze_drafter_site/details.py:164-176 | routes are appended in visit order with their names and signatures, and after a route body no route is current |
| DetailsWalk.WalkAllRoutes | analyze_drafter_site/details.py:164-176 | the same for a sequence of sibling nodes |
| DetailsWalk.RecordCallCovered | analyze_drafter_site/details.py:205-213 | recording a call keeps every route's calls inside the global map's entry for that route |
| DetailsWalk.StepCovered | analyze_drafter_site/details.py:178-225 | every visitor keeps each route's calls a subset of the global map's entry for it |
| DetailsWalk.WalkCovered | analyze_drafter_site/details.py:178-225 | the whole walk keeps each route's calls a subset of the global map's entry for it |
| DetailsWalk.RecordCallTally | analyze_drafter_site/details.py:205-208 | recording a call changes neither the global tally nor any route's component counts |
| DetailsWalk.StepTally | analyze_drafter_site/details.py:184-186 | every visitor keeps the summed per-route count of each component at most its global tally |
| DetailsWalk.OpenRouteTally | analyze_drafter_site/details.py:166-169 | opening a route leaves the summed per-route counts unchanged |
| DetailsWalk.WalkTally | analyze_drafter_site/details.py:184-186 | the whole walk keeps every route count within the global tally |
| DetailsWalk.StepDataclasses | analyze_drafter_site/details.py:86-97 | recording a dataclass keeps names unique, entries keyed by their own name, and no class depending on itself |
| DetailsWalk.WalkDataclasses | analyze_drafter_site/details.py:74-109 | the same after the whole walk |
| DetailsWalk.RecordCallGrows | analyze_drafter_site/details.py:205-208 | recording a call only adds: routes, their calls and fields and the global map only grow |
| DetailsWalk.StepGrowsOnce | analyze_drafter_site/details.py:178-236 | every visitor only adds to the collected routes, calls, fields and map entries |
| DetailsWalk.WalkGrows | analyze_drafter_site/details.py:151-236 | the whole walk only adds to what was collected |
| DetailsWalk.GrowsOnChildren | analyze_drafter_site/details.py:109 | walking a sequence of children only adds to what was collected |
| DetailsWalk.WalkOutsideRoutes | analyze_drafter_site/details.py:184-213 | with no current route and no route inside, the routes and the call map are unchanged |
| DetailsWalk.WalkAllOutsideRoutes | analyze_drafter_site/details.py:184-213 | the same for a sequence of siblings |
| DetailsWalk.RecordCallTwice | analyze_drafter_site/details.py:220-224 | recording the same call twice is the same as recording it once |
| DetailsWalk.ReturnOfCallAddsNothing | analyze_drafter_site/details.py:218-225 | `return f(...)` of a non-component call has the same effect as the call alone |
| DetailsWalk.ReturnedComponentIsRecordedAsCall | analyze_drafter_site/details.py:220-224 | `return Text(...)` (any component) inside a route records the component's name as a call of the current route |
| DetailsWalk.LinkTargetIsRecordedAsCall | analyze_drafter_site/details.py:189-208 | a linking component's second argument, when a name or string, is recorded as a call of the current route |
| DetailsWalk.ChainedAttributeRecordsFirst | analyze_drafter_site/details.py:229-235 | for any names and any outer context, walking `b.a.f` inside a route adds exactly `a` to the current route's fields used and leaves calls, the tally and the other routes alone |
| DetailsReport.EdgeLineInjective | analyze_drafter_site/details.py:268 | two edges from one class with the same text go to the same class |
| DetailsReport.FieldLines | analyze_drafter_site/details.py:261-263 | one field line per field |
| DetailsReport.ClassBlockText | analyze_drafter_site/details.py:259-268 | a class block's text is the header, the field lines, the closing brace, then the edges |
| DetailsReport.EdgeLinesSpec | analyze_drafter_site/details.py:265-268 | an edge to d is drawn exactly when d is a dependency and a recorded dataclass |
| DetailsReport.ClassDiagramEdges | analyze_drafter_site/details.py:256-269 | the class diagram draws exactly the edges to recorded dataclasses |
| DetailsReport.CallEdgesOf | analyze_drafter_site/details.py:276-278 | one edge line per called name, in enumeration order |
| DetailsReport.CallEdgesOfSpec | analyze_drafter_site/details.py:276-278 | a caller's edge lines are exactly one `func --> c` line for each called name c |
| DetailsReport.CallEdgesSpec | analyze_drafter_site/details.py:271-279 | the function diagram's edges are exactly the pairs in the call map |
| DetailsReport.RouteCallsAreDrawn | analyze_drafter_site/details.py:271-279 | every call a route records appears as an edge of the function diagram |
| DetailsReport.DataclassBlock | analyze_drafter_site/details.py:310-313 | a dataclass summary block is one name line plus one line per field |
| DetailsReport.DataclassBlockText | analyze_drafter_site/details.py:310-313 | its text is the name, then each field name indented by two spaces |
| DetailsReport.DataclassBlocksSize | analyze_drafter_site/details.py:309-313 | the summary has one line per dataclass plus one per field |
| DetailsReport.ComponentLines | analyze_drafter_site/details.py:318-319 | one line per component counted |
| DetailsReport.RouteBlockText | analyze_drafter_site/details.py:316-325 | a route block's text is the signature, then component counts, fields used and calls |
| DetailsReport.RouteBlockSpec | analyze_drafter_site/details.py:316-325 | a route block has one line per component, field and call, and lists every field and call |
| DetailsReport.RoutesListCalls | analyze_drafter_site/details.py:315-325 | every call of every route appears in the routes summary |
| Details.Analyzer.constructor | analyze_drafter_site/details.py:64-72 | a new analyzer has empty tables and no current route |
| Details.Analyzer.Analyze | analyze_drafter_site/details.py:251-254 | analysing a tree moves the state exactly as the walk over it says |
| Details.Analyzer.Visit | analyze_drafter_site/details.py:74-236 | `visit` dispatches to the node's visitor, and the new state is the walk of the node |
| Details.Analyzer.GenericVisit | analyze_drafter_site/details.py:109 | `generic_visit` walks the children in order |
| Details.Analyzer.VisitEach | analyze_drafter_site/details.py:171-172 | visiting statements one by one equals the walk of the sequence |
| Details.Analyzer.VisitClassDef | analyze_drafter_site/details.py:74-109 | `visit_ClassDef` records a dataclass, then visits the children |
| Details.Analyzer.IsDataclass | analyze_drafter_site/details.py:76-79 | true exactly when some decorator is the bare name `dataclass` |
| Details.Analyzer.GetDataclassFields | analyze_drafter_site/details.py:111-120 | the loop builds the field table the rule defines |
| Details.Analyzer.CompositionDependencies | analyze_drafter_site/details.py:89-107 | the loop over the fields collects the dependency set the rule defines |
| Details.Analyzer.FieldDependencies | analyze_drafter_site/details.py:91-107 | the dependencies contributed by one rendered field type |
| Details.Analyzer.InnerDependencies | analyze_drafter_site/details.py:99-107 | the stripped comma parts inside the brackets, minus the owner |
| Details.Analyzer.VisitFunctionDef | analyze_drafter_site/details.py:151-176 | a route opens a record, visits only its body and closes; other functions are visited generically |
| Details.Analyzer.IsRoute | analyze_drafter_site/details.py:153-162 | true exactly when a decorator is `route` or a call of `route` |
| Details.Analyzer.RecordRouteCall | analyze_drafter_site/details.py:211-213 | adds the name to the current route's calls and to the global map |
| Details.Analyzer.VisitCall | analyze_drafter_site/details.py:178-216 | `visit_Call` counts components, records link targets or calls, then visits the children |
| Details.Analyzer.CountComponent | analyze_drafter_site/details.py:182-208 | the component branch of `visit_Call` |
| Details.Analyzer.VisitReturn | analyze_drafter_site/details.py:218-225 | `visit_Return` records the returned call's name, then visits the children |
| Details.Analyzer.VisitAttribute | analyze_drafter_site/details.py:227-236 | `visit_Attribute` records the field used, then visits the children |
| Details.Analyzer.GenerateMermaidClassDiagram | analyze_drafter_site/details.py:256-269 | the text is the class diagram's lines for some enumeration of each dependency set |
| Details.Analyzer.ClassEntryText | analyze_drafter_site/details.py:259-268 | one loop turn appends the next dataclass's block after the blocks of the classes before it |
| Details.Analyzer.FieldLinesText | analyze_drafter_site/details.py:261-263 | the text of the field lines |
| Details.Analyzer.EdgeLinesText | analyze_drafter_site/details.py:265-268 | the edge lines for an enumeration of the dependency set |
| Details.Analyzer.GenerateMermaidFunctionDiagram | analyze_drafter_site/details.py:271-279 | the text is the function diagram's lines for some enumeration of each call set |
| Details.CallerEdgesText | analyze_drafter_site/details.py:276-278 | one loop turn appends the next caller's edges after the edges of the callers before it |
| Details.Analyzer.SaveAsString | analyze_drafter_site/details.py:307-330 | the four strings are the dataclass summary, the routes summary and the two diagrams |
| Details.Analyzer.DataclassesSummary | analyze_drafter_site/details.py:309-313 | the dataclass summary text |
| Details.Analyzer.RoutesSummary | analyze_drafter_site/details.py:315-325 | the routes summary text, for enumerations of each route's field and call sets |
| Details.RouteText | analyze_drafter_site/details.py:316-325 | one route's block text |
| Details.ComponentsText | analyze_drafter_site/details.py:318-319 | the component count lines |
| Details.AffixedSeqText | analyze_drafter_site/details.py:312-313 | one prefixed line per element, in order |
| Details.AffixedSetText | analyze_drafter_site/details.py:320-323 | one prefixed line per set element, in an enumeration order |
| Strings.HasPosition | analyze_drafter_site/complexity/strings.py:24-28 | true exactly when the line is in [start_line, end_line] and the column in [start_col, end_col], checked separately |
| Strings.Extract | analyze_drafter_site/complexity/strings.py:30-37 | the whole line, from start_col on the start line, up to end_col on the end line |
| Strings.ExtractOutside | analyze_drafter_site/complexity/strings.py:39-50 | with bounds inside the line, the same length, with [start, end) spaces and all else unchanged |
| Strings.ExtractOutsideBlanksExtract | analyze_drafter_site/complexity/strings.py:30-50 | `extract_outside` replaces exactly what `extract` returns by as many spaces |
| Strings.InitialWalker | analyze_drafter_site/complexity/strings.py:54-56 | both lists start empty and the flag false |
| Strings.Location | analyze_drafter_site/complexity/strings.py:58-68 | recorded lines are 0-based and columns as given |
| Strings.Track | analyze_drafter_site/complexity/strings.py:58-68 | a literal is appended to the list the flag selects, and the other list is unchanged |
| Strings.WalkClassified | analyze_drafter_site/complexity/strings.py:58-98 | every literal in the remove list has `is_expr` true and every kept one false |
| Strings.WalkAllClassified | analyze_drafter_site/complexity/strings.py:58-98 | the same over a sequence of siblings |
| Strings.TrackClassified | analyze_drafter_site/complexity/strings.py:58-68 | tracking files the literal under the current flag, so the lists stay classified |
| Strings.WalkKeepsClass | analyze_drafter_site/complexity/strings.py:93-98 | below no expression statement the flag and the other list are unchanged |
| Strings.WalkAllKeepsClass | analyze_drafter_site/complexity/strings.py:93-98 | the same over a sequence of siblings |
| Strings.ExprStatementClass | analyze_drafter_site/complexity/strings.py:93-98 | after an expression statement the flag is false; a string statement only adds removals, any other adds only keeps |
| Strings.StringConstantKept | analyze_drafter_site/complexity/strings.py:74-77 | a string constant outside an expression statement is appended to the kept list |
| Strings.StringWalker.constructor | analyze_drafter_site/complexity/strings.py:54-56 | the initial walker |
| Strings.StringWalker.TrackNode | analyze_drafter_site/complexity/strings.py:58-68 | `track_node` |
| Strings.StringWalker.Visit | analyze_drafter_site/complexity/strings.py:74-98 | the new state is the walk of the node |
| Strings.StringWalker.GenericVisit | analyze_drafter_site/complexity/strings.py:77 | the children are walked in order |
| Strings.StringWalker.VisitEach | analyze_drafter_site/complexity/strings.py:80-81 | visiting one by one equals the walk of the sequence |
| Strings.StringWalker.VisitConstant | analyze_drafter_site/complexity/strings.py:74-77 | a string constant is tracked with its value |
| Strings.StringWalker.VisitJoinedStr | analyze_drafter_site/complexity/strings.py:79-83 | the parts, then the f-string's label, then the parts again |
| Strings.StringWalker.VisitFormattedValue | analyze_drafter_site/complexity/strings.py:85-87 | the value is visited twice |
| Strings.StringWalker.VisitExpr | analyze_drafter_site/complexity/strings.py:93-98 | the flag is set from the value's kind for the statement, then reset |
| Strings.AnyCovers | analyze_drafter_site/complexity/strings.py:141-143 | true exactly when some kept literal has the position |
| Strings.HashSpansUpToNext | analyze_drafter_site/complexity/strings.py:116-123 | each line adds at most its own entry to the hash table |
| Strings.HashSpansAt | analyze_drafter_site/complexity/strings.py:117-123 | a line has an entry exactly when it has a `#`, and it spans from the first `#` to the end of the line |
| Strings.BlankSpanTail | analyze_drafter_site/complexity/strings.py:145 | blanking to the end keeps the length and spaces out the tail |
| Strings.CleanLines | analyze_drafter_site/complexity/strings.py:126-148 | one cleaned line per input line |
| Strings.BlankStringsBlanks | analyze_drafter_site/complexity/strings.py:132-135 | blanking removal literals that fit keeps the length and only writes spaces |
| Strings.BlankStringsChars | analyze_drafter_site/complexity/strings.py:132-135 | every character left is a space or one of the line's |
| Strings.BlankSpanChars | analyze_drafter_site/complexity/strings.py:145 | every character left is a space or one of the line's |
| Strings.BlankCommentsChars | analyze_drafter_site/complexity/strings.py:137-145 | every character left is a space or one of the line's |
| Strings.CleanLineChars | analyze_drafter_site/complexity/strings.py:128-146 | every character of a cleaned line is a space or one of the line's |
| Strings.CleanLineBlanks | analyze_drafter_site/complexity/strings.py:128-146 | with removal literals that fit, a cleaned line has the line's length and differs only by spaces |
| Strings.CommentBlanked | analyze_drafter_site/complexity/strings.py:137-145 | the first `#` is blanked to the end of the line unless a kept literal covers it |
| Strings.UntouchedLine | analyze_drafter_site/complexity/strings.py:128-146 | a line with no `#` and no removal literal is kept as is |
| Strings.BlankStringsOff | analyze_drafter_site/complexity/strings.py:132-135 | with no removal literal on the line, the line is unchanged |
| Strings.RemoveUserTextLines | analyze_drafter_site/complexity/strings.py:101-148 | the result joins one cleaned line per source line, and splitting it gives those lines back |
| Strings.CollectHashes | analyze_drafter_site/complexity/strings.py:116-123 | the loop builds the hash table the rule defines |
| Strings.BlankStringsText | analyze_drafter_site/complexity/strings.py:132-135 | the loop over the removal literals |
| Strings.BlankCommentsText | analyze_drafter_site/complexity/strings.py:137-145 | the loop over the comment spans |
| Strings.CleanLineText | analyze_drafter_site/complexity/strings.py:128-146 | one loop turn: the line with its removal literals and then its unprotected comments blanked |
| Strings.CleanLinesText | analyze_drafter_site/complexity/strings.py:126-146 | the loop builds exactly the cleaned lines the rule defines, one per source line |
| Strings.RemoveUserText | analyze_drafter_site/complexity/strings.py:101-148 | the result is the cleaned text the rules define |
| Extents.Widen | analyze_drafter_site/complexity/extents.py:36-47 | the lexicographically smaller start and larger end, each attained |
| Extents.ExtentWalkBounds | analyze_drafter_site/complexity/extents.py:18-53 | the walk's result bounds the start and every visited position, and is attained by one of them |
| Extents.ExtentWalkAllBounds | analyze_drafter_site/complexity/extents.py:18-53 | the same over a sequence of siblings |
| Extents.ExtentsAreMinMax | analyze_drafter_site/complexity/extents.py:9-53 | the extents are the lexicographic minimum start and maximum end over the root and every visited node |
| Extents.ExtentWalkMonotone | analyze_drafter_site/complexity/extents.py:36-47 | the first extent never grows and the third never shrinks |
| Extents.JoinedStrOwnPositionOnly | analyze_drafter_site/complexity/extents.py:52-53 | an f-string folds in its own position and nothing below it |
| Extents.NoPositionNoChange | analyze_drafter_site/complexity/extents.py:35-49 | a node without positions changes nothing by itself |
| Extents.ExtentGetter.constructor | analyze_drafter_site/complexity/extents.py:6-7 | no extents yet |
| Extents.ExtentGetter.CheckAll | analyze_drafter_site/complexity/extents.py:9-16 | the extents become those of the subtree |
| Extents.ExtentGetter.Update | analyze_drafter_site/complexity/extents.py:36-47 | the in-place comparisons widen the extents by one position |
| Extents.ExtentGetter.Visit | analyze_drafter_site/complexity/extents.py:18-50 | the new extents are the walk of the node |
| Extents.ExtentGetter.VisitEach | analyze_drafter_site/complexity/extents.py:50 | visiting children one by one equals the walk of the sequence |
| Extents.GetExtents | analyze_drafter_site/complexity/extents.py:56-63 | the subtree's extents, or none when the root has no position |
| Complexity.KindCategory | analyze_drafter_site/complexity/complexity.py:44-46 | a kind has a category exactly when some category lists it, and the last such one wins |
| Complexity.AllKinds | analyze_drafter_site/complexity/complexity.py:39-41 | exactly the kinds listed in some category |
| Complexity.ZeroCounts | analyze_drafter_site/complexity/complexity.py:39-42 | a counter for exactly the given keys, all zero |
| Complexity.InitialCounters | analyze_drafter_site/complexity/complexity.py:38-42 | a counter for every tabled kind and every category, all zero |
| Complexity.ScoreWalkKind | analyze_drafter_site/complexity/complexity.py:58-61 | each kind counter rises by the number of nodes of that kind in the subtree |
| Complexity.ScoreWalkAllKind | analyze_drafter_site/complexity/complexity.py:58-61 | the same over a sequence of siblings |
| Complexity.ScoreWalkCategory | analyze_drafter_site/complexity/complexity.py:58-69 | each category score rises by the number of subtree nodes in that category, names included |
| Complexity.ScoreWalkAllCategory | analyze_drafter_site/complexity/complexity.py:58-69 | the same over a sequence of siblings |
| Complexity.WeightedTotalOfCounts | analyze_drafter_site/complexity/complexity.py:71-78 | the weighted total equals the category counts of the tree times their weights |
| Complexity.ScoreOfCounts | analyze_drafter_site/complexity/complexity.py:81-84 | a node's score parts are its category counts, and the total is their weighted sum |
| Complexity.ASTCalculator.constructor | analyze_drafter_site/complexity/complexity.py:38-46 | the counters start at zero |
| Complexity.ASTCalculator.Visit | analyze_drafter_site/complexity/complexity.py:58-69 | the new counters are the scoring walk of the node |
| Complexity.ASTCalculator.ScoreChanger | analyze_drafter_site/complexity/complexity.py:58-61 | a tabled kind raises its category and kind counters, then visits the children |
| Complexity.ASTCalculator.VisitName | analyze_drafter_site/complexity/complexity.py:65-69 | a tabled name raises its category, then the children are visited |
| Complexity.ASTCalculator.GenericVisit | analyze_drafter_site/complexity/complexity.py:61 | the children are walked in order |
| Complexity.ASTCalculator.VisitEach | analyze_drafter_site/complexity/complexity.py:61 | visiting children one by one equals the walk of the sequence |
| Complexity.ASTCalculator.Finalize | analyze_drafter_site/complexity/complexity.py:71-78 | the total is the weighted sum of the scores in scoring order, and the parts are the scores |
| Complexity.ScoreNode | analyze_drafter_site/complexity/complexity.py:81-84 | a fresh calculator's score of the node, whose total is its weighted category counts |
| Complexity.NonBlankLines | analyze_drafter_site/complexity/complexity.py:13-14 | exactly the lines whose stripped text is non-empty |
| Complexity.NonBlankLinesAppend | analyze_drafter_site/complexity/complexity.py:14 | filtering keeps the order |
| Complexity.NonBlankLinesBlank | analyze_drafter_site/complexity/complexity.py:14 | a line is kept exactly when it is not all whitespace |
| Complexity.RemoveBlankLinesReadBack | analyze_drafter_site/complexity/complexity.py:13-14 | splitting the result on `\n` gives back exactly the non-blank lines |
| Complexity.SelectNode | analyze_drafter_site/complexity/complexity.py:17-32 | the section: non-blank lines of the span, start and end lines, score and name |
| Complexity.FunctionDefs | analyze_drafter_site/complexity/complexity.py:103-106 | exactly the function definitions of the body |
| Complexity.SectionsPerFunction | analyze_drafter_site/complexity/complexity.py:101-108 | one section per top-level function, in body order |
| Complexity.ModuleSections | analyze_drafter_site/complexity/complexity.py:102-108 | the loop over the module body builds exactly the sections the rule defines |
| Complexity.SectionSpan | analyze_drafter_site/complexity/complexity.py:26-31 | a section is named after its function, starts no later than one line above the function and ends no earlier than one line below it, and its score parts are the subtree's counts for every category with the weighted total |
| Complexity.CalculateComplexity | analyze_drafter_site/complexity/complexity.py:87-110 | the cleaned code and, for a module, the sections of its top-level functions |

## Left out

- Parsing (`ast.parse`) is not modelled: every operation takes the syntax tree as input. `calculate_complexity`'s parse step (complexity.py:91-97) is therefore outside the model.
- `ast.unparse`, the fallback branch of `get_type_name`, is a parameter `unparse: Node -> string`.
- `save_results` writes four files. It is left out as file I/O; `save_as_string` builds the same text and is modelled.
- `analyze_drafter_site/cli.py` and `setup.py` are left out: argument parsing, file reading, printing and packaging.
- `diagnostics.py` only records traceback text and is left out. An exception it would record becomes one of two things:
  - a precondition, for the score tables;
  - an `Option` result, for `get_extents` of a node without positions.
- The score tables of `score_loader` are not part of this model. They are a `Tables` parameter, and `Consistent` requires the categories they mention to exist; otherwise the source raises `KeyError`.
- The `sys.platform == "skulpt"` branch of `make_score_changer` is platform plumbing. It has the same effect as the branch that is modelled.
- `visit_Str` is left out: no parser in use produces `ast.Str` nodes.
- Complexity.ASTCalculator.Visit: dispatches a node only on its own kind name. On Python 3.8-3.13 the standard `NodeVisitor.visit_Constant` forwards a `Constant` to a `visit_Str`, `visit_Num`, `visit_NameConstant`, `visit_Bytes` or `visit_Ellipsis` that `__init__` installs for a tabled legacy kind, when "Constant" itself is not tabled. The model assumes the tables list "Constant" and no legacy kinds; under other tables it counts no constants, because the model's constants do not keep their Python type.
- Complexity.ASTCalculator.Finalize: returns the integer weighted sum and leaves out the division by 1000, which is floating point.
- Complexity.ScoreNode: its total is likewise the integer weighted sum, not that sum divided by 1000.
- Complexity.WeightedTotalOfCounts: states the integer weighted sum, without the division by 1000.
- Float weights in the score tables are not modelled: weights are integers.
- Some features have no code in `details.py`, so they are not modelled:
  - `attribute_usage`, the `_calculate_dataclass_complexity` scores, `variable_types` and warnings about unused fields;
  - a second pass that resolves unknown relationships.
- Some fields are never read or written after `__init__`, so they are not modelled: `current_class`, `class_dependencies` and the per-route `unknown_relationships` lists, which stay empty.
  - Details.Analyzer.RoutesSummary therefore emits no unknown-relationship lines.
  - Details.Analyzer.SaveAsString does the same.
- The order in which Python iterates a set is unspecified. The serialisers are stated for a ghost enumeration order of each set, not CPython's actual hash order.
- Column offsets in Python's syntax tree count UTF-8 bytes, while the model indexes characters. The two agree on ASCII source only.
- Positions are taken as whole: a node either has all four position attributes or none. The case where `end_lineno` is `None` while `lineno` is set is not modelled; there the source updates the start and then swallows the error.
- The `extents is None` branch at the top of `ExtentGetter.visit` is not modelled. It cannot be reached after `check_all`, which sets the extents before visiting.
- `calculate_complexity`'s `next_node` pairing is not modelled: the loop never uses it.
- `calculate_complexity` returns the tree and the sections. The model returns the cleaned code in place of the tree, which is its input.
- Aliasing of `current_route` with the last element of `routes` is not modelled as a reference: the current route is the last route while `inRoute` holds.

=== FILE: ast.dfy ===
/**
 * The Python abstract syntax tree that the analyzers walk, as one closed datatype.
 *
 * Only the node kinds the analyzers tell apart get their own constructor; every other
 * kind is `Other(kind, children, optPos)`. Expression contexts (`Load`, `Store`, `Del`)
 * are leaf nodes `Other("Load", [], None)`, because the generic visit reaches them too.
 * Parsing source text into this tree is not part of the model.
 */
module Ast {

  datatype Option<T> = None | Some(value: T)

  /** `lineno`, `col_offset`, `end_lineno`, `end_col_offset` of a node: 1-based lines, 0-based columns. */
  datatype Pos = Pos(line: int, col: int, endLine: int, endCol: int)

  /** A literal's value: a string, or any other value given by its printed form `str(value)`. */
  datatype Const = Str(s: string) | NonStr(text: string)

  datatype Node =
    | Module(body: seq<Node>)
    | ClassDef(name: string, bases: seq<Node>, keywords: seq<Node>, body: seq<Node>, decorators: seq<Node>, pos: Pos)
    | FunctionDef(name: string, params: Node, body: seq<Node>, decorators: seq<Node>, returnType: Option<Node>, pos: Pos)
      /** `arguments`: `posonlyargs`, `args`, then vararg, kwonlyargs, kw_defaults, kwarg and defaults in field order. */
    | Arguments(posonlyargs: seq<Node>, args: seq<Node>, rest: seq<Node>)
    | Arg(arg: string, argAnnotation: Option<Node>, pos: Pos)
    | AnnAssign(target: Node, annotation: Node, assignedValue: Option<Node>, pos: Pos)
    | Expr(value: Node, pos: Pos)
    | Return(result: Option<Node>, pos: Pos)
    | Call(func: Node, args: seq<Node>, keywords: seq<Node>, pos: Pos)
    | Attribute(value: Node, attr: string, ctx: Node, pos: Pos)
    | Name(id: string, ctx: Node, pos: Pos)
    | Constant(literal: Const, pos: Pos)
    | Subscript(value: Node, slice: Node, ctx: Node, pos: Pos)
    | Tuple(elts: seq<Node>, ctx: Node, pos: Pos)
    | JoinedStr(values: seq<Node>, pos: Pos)
    | FormattedValue(value: Node, formatSpec: Option<Node>, pos: Pos)
    | Other(kind: string, children: seq<Node>, optPos: Option<Pos>)

  function OptList(o: Option<Node>): (r: seq<Node>)
    ensures o.None? ==> r == []
    ensures o.Some? ==> r == [o.value]
  {
    if o.Some? then [o.value] else []
  }

  /** The child nodes `generic_visit` reaches, in the order of the node kind's fields. */
  function Children(n: Node): (r: seq<Node>)
    ensures forall c :: c in r ==> c < n
  {
    match n
    case Module(body) => body
    case ClassDef(_, bases, keywords, body, decorators, _) => bases + keywords + body + decorators
    case FunctionDef(_, params, body, decorators, returnType, _) => [params] + body + decorators + OptList(returnType)
    case Arguments(posonlyargs, args, rest) => posonlyargs + args + rest
    case Arg(_, argAnnotation, _) => OptList(argAnnotation)
    case AnnAssign(target, annotation, assignedValue, _) => [target, annotation] + OptList(assignedValue)
    case Expr(value, _) => [value]
    case Return(result, _) => OptList(result)
    case Call(func, args, keywords, _) => [func] + args + keywords
    case Attribute(value, _, ctx, _) => [value, ctx]
    case Name(_, ctx, _) => [ctx]
    case Constant(_, _) => []
    case Subscript(value, slice, ctx, _) => [value, slice, ctx]
    case Tuple(elts, ctx, _) => elts + [ctx]
    case JoinedStr(values, _) => values
    case FormattedValue(value, formatSpec, _) => [value] + OptList(formatSpec)
    case Other(_, children, _) => children
  }

  /** The node's class name, as the visitor dispatch and the complexity tables see it. */
  function KindName(n: Node): string
  {
    match n
    case Module(_) => "Module"
    case ClassDef(_, _, _, _, _, _) => "ClassDef"
    case FunctionDef(_, _, _, _, _, _) => "FunctionDef"
    case Arguments(_, _, _) => "arguments"
    case Arg(_, _, _) => "arg"
    case AnnAssign(_, _, _, _) => "AnnAssign"
    case Expr(_, _) => "Expr"
    case Return(_, _) => "Return"
    case Call(_, _, _, _) => "Call"
    case Attribute(_, _, _, _) => "Attribute"
    case Name(_, _, _) => "Name"
    case Constant(_, _) => "Constant"
    case Subscript(_, _, _, _) => "Subscript"
    case Tuple(_, _, _) => "Tuple"
    case JoinedStr(_, _) => "JoinedStr"
    case FormattedValue(_, _, _) => "FormattedValue"
    case Other(kind, _, _) => kind
  }

  /** The node's position attributes; `mod`, `arguments` and context nodes have none. */
  function PosOf(n: Node): Option<Pos>
  {
    match n
    case Module(_) => None
    case Arguments(_, _, _) => None
    case Other(_, _, optPos) => optPos
    case _ => Some(n.pos)
  }

  /** An expression-context leaf (`ast.Load()`, `ast.Store()`, `ast.Del()`). */
  function CtxNode(kind: string): Node
  {
    Other(kind, [], None)
  }

  /** `str(value)` of a constant. */
  function ConstText(c: Const): string
  {
    match c
    case Str(s) => s
    case NonStr(text) => text
  }
}

=== FILE: complexity.dfy ===
/**
 * Complexity scoring of the top-level functions of a program: each node whose kind a
 * category table lists raises that category's score, a `Name` whose identifier the name
 * table lists raises its category, and the total is the weighted sum of the category
 * scores. The tables are parameters; section selection cuts each function's cleaned,
 * non-blank source lines.
 */
module Complexity {
  import opened Ast
  import opened PyStr
  import opened Dicts
  import opened Strings
  import opened Extents

  /**
   * The score tables: node kinds listed per category, the category of some identifiers,
   * and the categories in scoring order with their weights.
   */
  datatype Tables = Tables(
    astCategories: Dict<string, seq<string>>,
    nameCategories: Dict<string, string>,
    categoryOrder: seq<(string, int)>)

  /**
   * Every category the name table or the scoring order mentions is a category of the node
   * table; otherwise the calculator raises `KeyError` on its `scores` dict.
   */
  predicate Consistent(t: Tables) {
    (forall i :: 0 <= i < |t.nameCategories| ==> HasKey(t.astCategories, t.nameCategories[i].1)) &&
    (forall i :: 0 <= i < |t.categoryOrder| ==> HasKey(t.astCategories, t.categoryOrder[i].0))
  }

  /**
   * The category whose counter the visitor of a node kind raises. When several categories
   * list the kind, the last one's visitor is installed last and wins.
   */
  function KindCategory(cats: Dict<string, seq<string>>, kind: string): (r: Option<string>)
    ensures r.Some? <==> exists i :: 0 <= i < |cats| && kind in cats[i].1
    ensures r.Some? ==>
      exists i :: 0 <= i < |cats| && kind in cats[i].1 && cats[i].0 == r.value && forall j :: i < j < |cats| ==> kind !in cats[j].1
  {
    if cats == [] then None
    else if kind in cats[|cats| - 1].1 then Some(cats[|cats| - 1].0)
    else
      var r := KindCategory(cats[..|cats| - 1], kind);
      assert forall i :: 0 <= i < |cats| - 1 ==> cats[..|cats| - 1][i] == cats[i];
      r
  }

  /** Every kind of every category, in table order. */
  function AllKinds(cats: Dict<string, seq<string>>): (ks: seq<string>)
    ensures forall k :: k in ks <==> exists i :: 0 <= i < |cats| && k in cats[i].1
  {
    if cats == [] then []
    else
      var front := cats[..|cats| - 1];
      assert forall i :: 0 <= i < |front| ==> front[i] == cats[i];
      AllKinds(front) + cats[|cats| - 1].1
  }

  /** `{k: 0 for k in ks}`. */
  function ZeroCounts(ks: seq<string>): (d: Dict<string, int>)
    ensures forall k :: HasKey(d, k) <==> k in ks
    ensures forall k :: GetOr(d, k, 0) == 0
  {
    if ks == [] then []
    else
      var front := ZeroCounts(ks[..|ks| - 1]);
      var k := ks[|ks| - 1];
      assert forall x :: x in ks <==> x in ks[..|ks| - 1] || x == k;
      forall x ensures GetOr(Put(front, k, 0), x, 0) == 0 {
        PutGetOr(front, k, 0, x, 0);
      }
      forall x ensures HasKey(Put(front, k, 0), x) <==> x in ks {
        if x != k {
          PutGetOther(front, k, 0, x);
        } else {
          PutGetSame(front, k, 0);
        }
      }
      Put(front, k, 0)
  }

  /** The calculator's `asts` (count per kind) and `scores` (count per category). */
  datatype Counters = Counters(asts: Dict<string, int>, scores: Dict<string, int>)

  /** A fresh calculator: every listed kind and every category present, all at zero. */
  function InitialCounters(t: Tables): (c: Counters)
    ensures forall k :: HasKey(c.asts, k) <==> exists i :: 0 <= i < |t.astCategories| && k in t.astCategories[i].1
    ensures forall cat :: HasKey(c.scores, cat) <==> HasKey(t.astCategories, cat)
    ensures forall k :: GetOr(c.asts, k, 0) == 0 && GetOr(c.scores, k, 0) == 0
  {
    Counters(ZeroCounts(AllKinds(t.astCategories)), ZeroCounts(Keys(t.astCategories)))
  }

  /** The category a visited node raises, if any. */
  function NodeCategory(t: Tables, n: Node): Option<string>
  {
    match KindCategory(t.astCategories, KindName(n))
    case Some(cat) => Some(cat)
    case None =>
      if n.Name? && HasKey(t.nameCategories, n.id) then Some(Get(t.nameCategories, n.id)) else None
  }

  /** What the visitor of one node does to the counters before it visits the children. */
  function Step(t: Tables, c: Counters, n: Node): Counters
  {
    var kind := KindName(n);
    match KindCategory(t.astCategories, kind)
    case Some(cat) => Counters(Increment(c.asts, kind), Increment(c.scores, cat))
    case None =>
      if n.Name? && HasKey(t.nameCategories, n.id) then
        c.(scores := Increment(c.scores, Get(t.nameCategories, n.id)))
      else c
  }

  /** `visit(n)` on an `ASTCalculator`: every visitor ends with `generic_visit`. */
  ghost function ScoreWalk(t: Tables, c: Counters, n: Node): Counters
    decreases n, 1
  {
    ScoreWalkAll(t, Step(t, c, n), Children(n), n)
  }

  ghost function ScoreWalkAll(t: Tables, c: Counters, ns: seq<Node>, parent: Node): Counters
    requires forall x :: x in ns ==> x < parent
    decreases parent, 0, |ns|
  {
    if ns == [] then c
    else
      var front := ns[..|ns| - 1];
      assert forall x :: x in front ==> x in ns;
      assert ns[|ns| - 1] in ns;
      ScoreWalk(t, ScoreWalkAll(t, c, front, parent), ns[|ns| - 1])
  }

  /** One more child visited: the walk over the children so far, then over x. */
  lemma ScoreWalkAllSnoc(t: Tables, c: Counters, front: seq<Node>, x: Node, parent: Node)
    requires x < parent && forall y :: y in front ==> y < parent
    ensures forall y :: y in front + [x] ==> y < parent
    ensures ScoreWalkAll(t, c, front + [x], parent) == ScoreWalk(t, ScoreWalkAll(t, c, front, parent), x)
  {
    assert (front + [x])[..|front|] == front;
  }

  /** The number of nodes of the given kind in a subtree. */
  ghost function CountKind(n: Node, kind: string): nat
    decreases n, 1
  {
    (if KindName(n) == kind then 1 else 0) + CountKindAll(Children(n), n, kind)
  }

  ghost function CountKindAll(ns: seq<Node>, parent: Node, kind: string): nat
    requires forall x :: x in ns ==> x < parent
    decreases parent, 0, |ns|
  {
    if ns == [] then 0
    else
      var front := ns[..|ns| - 1];
      assert forall x :: x in front ==> x in ns;
      assert ns[|ns| - 1] in ns;
      CountKindAll(front, parent, kind) + CountKind(ns[|ns| - 1], kind)
  }

  /** The number of nodes in a subtree that fall in the given category. */
  ghost function CountCategory(t: Tables, n: Node, cat: string): nat
    decreases n, 1
  {
    (if NodeCategory(t, n) == Some(cat) then 1 else 0) + CountCategoryAll(t, Children(n), n, cat)
  }

  ghost function CountCategoryAll(t: Tables, ns: seq<Node>, parent: Node, cat: string): nat
    requires forall x :: x in ns ==> x < parent
    decreases parent, 0, |ns|
  {
    if ns == [] then 0
    else
      var front := ns[..|ns| - 1];
      assert forall x :: x in front ==> x in ns;
      assert ns[|ns| - 1] in ns;
      CountCategoryAll(t, front, parent, cat) + CountCategory(t, ns[|ns| - 1], cat)
  }

  /** Walking a subtree raises a listed kind's counter by the number of nodes of that kind, and leaves unlisted kinds alone. */
  lemma {:induction false} ScoreWalkKind(t: Tables, c: Counters, n: Node, kind: string)
    ensures GetOr(ScoreWalk(t, c, n).asts, kind, 0) ==
      GetOr(c.asts, kind, 0) + if KindCategory(t.astCategories, kind).Some? then CountKind(n, kind) else 0
    decreases n, 1
  {
    var k := KindName(n);
    if KindCategory(t.astCategories, k).Some? {
      IncrementCount(c.asts, k, kind);
    }
    ScoreWalkAllKind(t, Step(t, c, n), Children(n), n, kind);
  }

  lemma {:induction false} ScoreWalkAllKind(t: Tables, c: Counters, ns: seq<Node>, parent: Node, kind: string)
    requires forall x :: x in ns ==> x < parent
    ensures GetOr(ScoreWalkAll(t, c, ns, parent).asts, kind, 0) ==
      GetOr(c.asts, kind, 0) + if KindCategory(t.astCategories, kind).Some? then CountKindAll(ns, parent, kind) else 0
    decreases parent, 0, |ns|
  {
    if ns != [] {
      var front := ns[..|ns| - 1];
      assert forall x :: x in front ==> x in ns;
      assert ns[|ns| - 1] in ns;
      ScoreWalkAllKind(t, c, front, parent, kind);
      ScoreWalkKind(t, ScoreWalkAll(t, c, front, parent), ns[|ns| - 1], kind);
    }
  }

  /** Walking a subtree raises each category's score by the number of its nodes in that category. */
  lemma {:induction false} ScoreWalkCategory(t: Tables, c: Counters, n: Node, cat: string)
    ensures GetOr(ScoreWalk(t, c, n).scores, cat, 0) == GetOr(c.scores, cat, 0) + CountCategory(t, n, cat)
    decreases n, 1
  {
    var x := NodeCategory(t, n);
    if x.Some? {
      IncrementCount(c.scores, x.value, cat);
    }
    ScoreWalkAllCategory(t, Step(t, c, n), Children(n), n, cat);
  }

  lemma {:induction false} ScoreWalkAllCategory(t: Tables, c: Counters, ns: seq<Node>, parent: Node, cat: string)
    requires forall x :: x in ns ==> x < parent
    ensures GetOr(ScoreWalkAll(t, c, ns, parent).scores, cat, 0) == GetOr(c.scores, cat, 0) + CountCategoryAll(t, ns, parent, cat)
    decreases parent, 0, |ns|
  {
    if ns != [] {
      var front := ns[..|ns| - 1];
      assert forall x :: x in front ==> x in ns;
      assert ns[|ns| - 1] in ns;
      ScoreWalkAllCategory(t, c, front, parent, cat);
      ScoreWalkCategory(t, ScoreWalkAll(t, c, front, parent), ns[|ns| - 1], cat);
    }
  }

  /** `finalize`'s total: the category scores weighted in scoring order (before the division by 1000). */
  function WeightedTotal(scores: Dict<string, int>, order: seq<(string, int)>): int
  {
    if order == [] then 0
    else WeightedTotal(scores, order[..|order| - 1]) + GetOr(scores, order[|order| - 1].0, 0) * order[|order| - 1].1
  }

  /** The weighted total computed from the tree alone: category counts times weights. */
  ghost function WeightedCount(t: Tables, n: Node, order: seq<(string, int)>): int
  {
    if order == [] then 0
    else WeightedCount(t, n, order[..|order| - 1]) + CountCategory(t, n, order[|order| - 1].0) * order[|order| - 1].1
  }

  /** The score of a node: the final counters of a fresh calculator that visited it. */
  datatype Score = Score(total: int, parts: Dict<string, int>)

  ghost function ScoreOf(t: Tables, n: Node): Score
  {
    var c := ScoreWalk(t, InitialCounters(t), n);
    Score(WeightedTotal(c.scores, t.categoryOrder), c.scores)
  }

  lemma {:induction false} WeightedTotalOfCounts(t: Tables, n: Node, order: seq<(string, int)>)
    ensures WeightedTotal(ScoreWalk(t, InitialCounters(t), n).scores, order) == WeightedCount(t, n, order)
  {
    if order != [] {
      var c := ScoreWalk(t, InitialCounters(t), n);
      var (cat, w) := order[|order| - 1];
      WeightedTotalOfCounts(t, n, order[..|order| - 1]);
      ScoreWalkCategory(t, InitialCounters(t), n, cat);
      assert GetOr(c.scores, cat, 0) == CountCategory(t, n, cat);
    }
  }

  /**
   * `score_node`: the parts are the category scores, each the number of the node's subtree
   * nodes in that category, and the total weighs those counts in scoring order.
   */
  lemma ScoreOfCounts(t: Tables, n: Node, cat: string)
    ensures GetOr(ScoreOf(t, n).parts, cat, 0) == CountCategory(t, n, cat)
    ensures ScoreOf(t, n).total == WeightedCount(t, n, t.categoryOrder)
  {
    ScoreWalkCategory(t, InitialCounters(t), n, cat);
    WeightedTotalOfCounts(t, n, t.categoryOrder);
  }

  /** `ASTCalculator`. */
  class ASTCalculator {
    const tables: Tables
    var asts: Dict<string, int>
    var scores: Dict<string, int>

    ghost function State(): Counters
      reads this
    {
      Counters(asts, scores)
    }

    /** The counters start at zero; the per-kind visitors are the dispatch of `Visit`. */
    constructor(tables: Tables)
      requires Consistent(tables)
      ensures this.tables == tables && State() == InitialCounters(tables)
    {
      this.tables := tables;
      asts := ZeroCounts(AllKinds(tables.astCategories));
      scores := ZeroCounts(Keys(tables.astCategories));
    }

    method Visit(n: Node)
      modifies this
      ensures State() == ScoreWalk(tables, old(State()), n)
      decreases n, 4
    {
      var kind := KindName(n);
      var category := KindCategory(tables.astCategories, kind);
      if category.Some? {
        ScoreChanger(n, kind, category.value);
      } else if n.Name? {
        VisitName(n);
      } else {
        GenericVisit(n);
      }
    }

    /** The visitor installed for a listed kind: raise its category and its count, then visit the children. */
    method ScoreChanger(n: Node, kind: string, category: string)
      requires kind == KindName(n) && KindCategory(tables.astCategories, kind) == Some(category)
      modifies this
      ensures State() == ScoreWalk(tables, old(State()), n)
      decreases n, 3
    {
      scores := Increment(scores, category);
      asts := Increment(asts, kind);
      GenericVisit(n);
    }

    /** `visit_Name`. */
    method VisitName(n: Node)
      requires n.Name? && KindCategory(tables.astCategories, KindName(n)).None?
      modifies this
      ensures State() == ScoreWalk(tables, old(State()), n)
      decreases n, 3
    {
      if HasKey(tables.nameCategories, n.id) {
        var category := Get(tables.nameCategories, n.id);
        scores := Increment(scores, category);
      }
      GenericVisit(n);
    }

    /** `generic_visit`. */
    method GenericVisit(n: Node)
      modifies this
      ensures State() == ScoreWalkAll(tables, old(State()), Children(n), n)
      decreases n, 2
    {
      VisitEach(Children(n), n);
    }

    /** Visits the nodes `ns`, children of `parent`, from left to right. */
    method VisitEach(ns: seq<Node>, ghost parent: Node)
      requires forall x :: x in ns ==> x < parent
      modifies this
      ensures State() == ScoreWalkAll(tables, old(State()), ns, parent)
      decreases parent, 1
    {
      ghost var c0 := State();
      var i := 0;
      while i < |ns|
        invariant 0 <= i <= |ns|
        invariant forall x :: x in ns[..i] ==> x < parent
        invariant State() == ScoreWalkAll(tables, c0, ns[..i], parent)
      {
        TakeSnoc(ns, i, i + 1);
        VisitNext(ns[i], ns[..i], parent, c0);
        i := i + 1;
      }
      assert ns[..i] == ns;
    }

    /** One iteration of `generic_visit`: the next child x after the children `done`. */
    method VisitNext(x: Node, ghost done: seq<Node>, ghost parent: Node, ghost c0: Counters)
      requires x < parent && forall y :: y in done ==> y < parent
      requires State() == ScoreWalkAll(tables, c0, done, parent)
      modifies this
      ensures forall y :: y in done + [x] ==> y < parent
      ensures State() == ScoreWalkAll(tables, c0, done + [x], parent)
      decreases parent, 0
    {
      ScoreWalkAllSnoc(tables, c0, done, x, parent);
      Visit(x);
    }

    /** `finalize`: the weighted total of the scores, and the scores themselves. */
    method Finalize() returns (total: int, parts: Dict<string, int>)
      ensures total == WeightedTotal(scores, tables.categoryOrder) && parts == scores
    {
      total := 0;
      var order := tables.categoryOrder;
      var i := 0;
      while i < |order|
        invariant 0 <= i <= |order|
        invariant total == WeightedTotal(scores, order[..i])
      {
        var (category, weight) := order[i];
        assert order[..i + 1][..i] == order[..i];
        total := total + GetOr(scores, category, 0) * weight;
        i := i + 1;
      }
      assert order[..i] == order;
      parts := scores;
    }
  }

  /** `score_node`. */
  method ScoreNode(t: Tables, node: Node) returns (score: Score)
    requires Consistent(t)
    ensures score == ScoreOf(t, node)
    ensures score.total == WeightedCount(t, node, t.categoryOrder)
  {
    var calculator := new ASTCalculator(t);
    calculator.Visit(node);
    var total, parts := calculator.Finalize();
    score := Score(total, parts);
    WeightedTotalOfCounts(t, node, t.categoryOrder);
  }

  // ---------------------------------------------------------------------------------------
  // Sections

  /** The lines whose stripped text is not empty, in order. */
  function NonBlankLines(lines: seq<string>): (r: seq<string>)
    ensures |r| <= |lines|
    ensures forall x :: x in r <==> x in lines && Strip(x) != ""
  {
    if lines == [] then []
    else (if Strip(lines[0]) != "" then [lines[0]] else []) + NonBlankLines(lines[1..])
  }

  /** Keeping the non-blank lines works piece by piece, so their order is kept. */
  lemma {:induction false} NonBlankLinesAppend(a: seq<string>, b: seq<string>)
    ensures NonBlankLines(a + b) == NonBlankLines(a) + NonBlankLines(b)
  {
    if a != [] {
      assert (a + b)[1..] == a[1..] + b;
      NonBlankLinesAppend(a[1..], b);
    } else {
      assert a + b == b;
    }
  }

  /** A line is dropped exactly when it holds only whitespace. */
  lemma NonBlankLinesBlank(lines: seq<string>, x: string)
    ensures x in NonBlankLines(lines) <==> x in lines && !Blank(x)
  {
    StripEmptyIffBlank(x);
  }

  /** `remove_blank_lines`. */
  function RemoveBlankLines(lines: seq<string>): string
  {
    Join("\n", NonBlankLines(lines))
  }

  /** The non-blank lines come back out of the result when it is split at newlines. */
  lemma RemoveBlankLinesReadBack(lines: seq<string>)
    requires forall i :: 0 <= i < |lines| ==> '\n' !in lines[i]
    requires NonBlankLines(lines) != []
    ensures Split(RemoveBlankLines(lines), '\n') == NonBlankLines(lines)
  {
    var kept := NonBlankLines(lines);
    forall i | 0 <= i < |kept| ensures '\n' !in kept[i] {
      assert kept[i] in lines;
    }
    assert "\n" == ['\n'];
    SplitJoin(kept, '\n');
  }

  /** One entry of the section list. */
  datatype Section = Section(code: string, startLine: int, endLine: int, score: Score, name: string)

  /** What `select_node` returns for a function with the given extents. */
  ghost function SectionOf(t: Tables, node: Node, source: string, extents: Pos): Section
    requires node.FunctionDef?
  {
    Section(RemoveBlankLines(Slice(SplitLines(source), extents.line - 1, extents.endLine)),
            extents.line - 1, extents.endLine + 1, ScoreOf(t, node), node.name)
  }

  /** `select_node`. */
  method SelectNode(t: Tables, node: Node, source: string, extents: Pos) returns (section: Section)
    requires Consistent(t) && node.FunctionDef?
    ensures section == SectionOf(t, node, source, extents)
  {
    var lines := SplitLines(source);
    var score := ScoreNode(t, node);
    section := Section(RemoveBlankLines(Slice(lines, extents.line - 1, extents.endLine)),
                       extents.line - 1, extents.endLine + 1, score, node.name);
  }

  /** The function definitions among the top-level statements, in order. */
  function FunctionDefs(body: seq<Node>): (fs: seq<Node>)
    ensures forall i :: 0 <= i < |fs| ==> fs[i].FunctionDef? && fs[i] in body
    ensures forall x :: x in body && x.FunctionDef? ==> x in fs
  {
    if body == [] then []
    else
      var front := FunctionDefs(body[..|body| - 1]);
      assert forall x :: x in body[..|body| - 1] ==> x in body;
      front + (if body[|body| - 1].FunctionDef? then [body[|body| - 1]] else [])
  }

  /** The sections of the top-level functions of `body`, cut from the cleaned source. */
  ghost function Sections(t: Tables, body: seq<Node>, cleaned: string): seq<Section>
  {
    if body == [] then []
    else
      var node := body[|body| - 1];
      Sections(t, body[..|body| - 1], cleaned) +
        (if node.FunctionDef? then [SectionOf(t, node, cleaned, ExtentsOf(node))] else [])
  }

  /**
   * There is one section per top-level function, in order, each named after its function,
   * spanning its extents and scored on its subtree.
   */
  lemma {:induction false} SectionsPerFunction(t: Tables, body: seq<Node>, cleaned: string)
    ensures |Sections(t, body, cleaned)| == |FunctionDefs(body)|
    ensures forall i :: 0 <= i < |FunctionDefs(body)| ==>
      var f := FunctionDefs(body)[i];
      Sections(t, body, cleaned)[i] == SectionOf(t, f, cleaned, ExtentsOf(f))
  {
    if body != [] {
      SectionsPerFunction(t, body[..|body| - 1], cleaned);
    }
  }

  /**
   * A section starts one line above its function's first line and ends one below its last,
   * and its score parts are the function subtree's category counts.
   */
  lemma SectionSpan(t: Tables, f: Node, cleaned: string)
    requires f.FunctionDef?
    ensures var s := SectionOf(t, f, cleaned, ExtentsOf(f));
      s.name == f.name &&
      s.startLine == ExtentsOf(f).line - 1 && s.startLine <= f.pos.line - 1 &&
      s.endLine == ExtentsOf(f).endLine + 1 && s.endLine >= f.pos.endLine + 1 &&
      s.score.total == WeightedCount(t, f, t.categoryOrder) &&
      forall cat :: GetOr(s.score.parts, cat, 0) == CountCategory(t, f, cat)
  {
    var s := SectionOf(t, f, cleaned, ExtentsOf(f));
    assert s.score == ScoreOf(t, f);
    ExtentsAreMinMax(f);
    assert f.pos in Visited(f);
    ScoreParts(t, f);
  }

  /** `ScoreOfCounts` for every category at once. */
  lemma ScoreParts(t: Tables, n: Node)
    ensures forall cat :: GetOr(ScoreOf(t, n).parts, cat, 0) == CountCategory(t, n, cat)
    ensures ScoreOf(t, n).total == WeightedCount(t, n, t.categoryOrder)
  {
    forall cat ensures GetOr(ScoreOf(t, n).parts, cat, 0) == CountCategory(t, n, cat) {
      ScoreOfCounts(t, n, cat);
    }
    ScoreOfCounts(t, n, "");
  }

  /**
   * `calculate_complexity` after parsing: the cleaned code and the list of sections, one per
   * top-level function of a module.
   */
  method CalculateComplexity(t: Tables, tree: Node, code: string) returns (cleaned: string, sections: seq<Section>)
    requires Consistent(t)
    ensures cleaned == RemoveUserTextSpec(tree, code)
    ensures tree.Module? ==> sections == Sections(t, tree.body, cleaned)
    ensures !tree.Module? ==> sections == []
  {
    cleaned := RemoveUserText(tree, code);
    sections := [];
    if tree.Module? {
      sections := ModuleSections(t, tree.body, cleaned);
    }
  }

  /** The loop of `calculate_complexity` over the statements of the module. */
  method ModuleSections(t: Tables, body: seq<Node>, cleaned: string) returns (sections: seq<Section>)
    requires Consistent(t)
    ensures sections == Sections(t, body, cleaned)
  {
    sections := [];
    var i := 0;
    while i < |body|
      invariant 0 <= i <= |body|
      invariant sections == Sections(t, body[..i], cleaned)
    {
      var node := body[i];
      assert body[..i + 1][..i] == body[..i];
      if node.FunctionDef? {
        var extents := GetExtents(node);
        var section := SelectNode(t, node, cleaned, extents.value);
        sections := sections + [section];
      }
      i := i + 1;
    }
    assert body[..i] == body;
  }
}

=== FILE: details.dfy ===
/**
 * The site analyzer: a visitor object whose fields accumulate the dataclasses, the routes,
 * the calls between routes and the components used, and which writes them out as Mermaid
 * diagrams and text summaries. Every visitor method is proved to leave the object in the
 * state the walk function of `DetailsWalk` prescribes.
 */
module Details {
  import opened Ast
  import opened PyStr
  import opened Dicts
  import opened DetailsRules
  import opened DetailsWalk
  import opened DetailsReport

  class Analyzer {
    /** Renders annotation nodes the type renderer does not know (`ast.unparse`). */
    const unparse: Node -> string

    var dataclasses: Dict<string, ClassInfo>
    var routes: seq<RouteInfo>
    /** Whether `current_route` is set; when it is, it is the last element of `routes`. */
    var inRoute: bool
    var functionCalls: Dict<string, set<string>>
    var componentsUsed: Dict<string, int>

    ghost function State(): Model
      reads this
    {
      Model(dataclasses, routes, inRoute, functionCalls, componentsUsed)
    }

    ghost predicate Valid()
      reads this
    {
      WF(State())
    }

    constructor(unparse: Node -> string)
      ensures this.unparse == unparse && State() == Initial && Valid()
    {
      this.unparse := unparse;
      dataclasses := [];
      routes := [];
      inRoute := false;
      functionCalls := [];
      componentsUsed := [];
    }

    /** `analyze`: the tree of the parsed program is visited from its root. */
    method Analyze(tree: Node)
      requires Valid()
      modifies this
      ensures Valid() && State() == Walk(unparse, old(State()), tree)
    {
      Visit(tree);
    }

    /** `visit`: dispatch on the node's kind. */
    method Visit(n: Node)
      requires Valid()
      modifies this
      ensures Valid() && State() == Walk(unparse, old(State()), n)
      decreases n, 4
    {
      match n
      case ClassDef(_, _, _, _, _, _) => VisitClassDef(n);
      case FunctionDef(_, _, _, _, _, _) => VisitFunctionDef(n);
      case Call(_, _, _, _) => VisitCall(n);
      case Return(_, _) => VisitReturn(n);
      case Attribute(_, _, _, _) => VisitAttribute(n);
      case _ => GenericVisit(n);
    }

    /** `generic_visit`: every child in field order. */
    method GenericVisit(n: Node)
      requires Valid()
      modifies this
      ensures Valid() && State() == WalkAll(unparse, old(State()), Children(n), n)
      decreases n, 2
    {
      VisitEach(Children(n), n);
    }

    /** Visits the nodes `ns`, children of `parent`, from left to right. */
    method VisitEach(ns: seq<Node>, ghost parent: Node)
      requires Valid() && forall x :: x in ns ==> x < parent
      modifies this
      ensures Valid() && State() == WalkAll(unparse, old(State()), ns, parent)
      decreases parent, 1
    {
      ghost var m0 := State();
      var i := 0;
      while i < |ns|
        invariant 0 <= i <= |ns|
        invariant Valid()
        invariant forall x :: x in ns[..i] ==> x < parent
        invariant State() == WalkAll(unparse, m0, ns[..i], parent)
      {
        TakeSnoc(ns, i, i + 1);
        VisitNext(ns[i], ns[..i], parent, m0);
        i := i + 1;
      }
      assert ns[..i] == ns;
    }

    /** One iteration of `generic_visit`: the next child x after the children `done`. */
    method VisitNext(x: Node, ghost done: seq<Node>, ghost parent: Node, ghost m0: Model)
      requires Valid() && WF(m0) && x < parent && forall y :: y in done ==> y < parent
      requires State() == WalkAll(unparse, m0, done, parent)
      modifies this
      ensures Valid() && forall y :: y in done + [x] ==> y < parent
      ensures State() == WalkAll(unparse, m0, done + [x], parent)
      decreases parent, 0
    {
      WalkAllSnoc(unparse, m0, done, x, parent);
      Visit(x);
    }

    /** `visit_ClassDef`. */
    method VisitClassDef(n: Node)
      requires Valid() && n.ClassDef?
      modifies this
      ensures Valid() && State() == Walk(unparse, old(State()), n)
      decreases n, 3
    {
      var isDataclass := IsDataclass(n.decorators);
      if isDataclass {
        var fields := GetDataclassFields(n);
        var info := ClassInfo(n.name, fields, BaseNames(n.bases), {});
        dataclasses := Put(dataclasses, n.name, info);
        KeySetPut(old(dataclasses), n.name, info);
        var deps := CompositionDependencies(n.name, fields);
        // the record is shared with the dictionary, so filling its dependencies updates the entry
        PutOverwrite(old(dataclasses), n.name, info, info.(dependencies := deps));
        dataclasses := Put(dataclasses, n.name, info.(dependencies := deps));
      }
      assert State() == Step(unparse, old(State()), n);
      GenericVisit(n);
      WalkNonRoute(unparse, old(State()), n);
    }

    /** The decorator loop of `visit_ClassDef`: is some decorator the bare name `dataclass`? */
    method IsDataclass(decorators: seq<Node>) returns (isDataclass: bool)
      ensures isDataclass <==> HasDataclassMarker(decorators)
    {
      isDataclass := false;
      var i := 0;
      while i < |decorators|
        invariant 0 <= i <= |decorators|
        invariant isDataclass <==> exists k :: 0 <= k < i && DataclassMarker(decorators[k])
      {
        var d := decorators[i];
        if d.Name? && d.id == "dataclass" {
          isDataclass := true;
        }
        i := i + 1;
      }
    }

    /** `get_dataclass_fields`. */
    method GetDataclassFields(n: Node) returns (fields: Dict<string, Node>)
      requires n.ClassDef?
      ensures fields == FieldsOf(n.body)
    {
      fields := [];
      var i := 0;
      while i < |n.body|
        invariant 0 <= i <= |n.body|
        invariant fields == FieldsOf(n.body[..i])
      {
        assert n.body[..i + 1][..i] == n.body[..i];
        var s := n.body[i];
        if s.AnnAssign? && s.target.Name? {
          fields := Put(fields, s.target.id, s.annotation);
        }
        i := i + 1;
      }
      assert n.body[..i] == n.body;
    }

    /** The composition loop of `visit_ClassDef`, run after the class itself has been recorded. */
    method CompositionDependencies(owner: string, fields: Dict<string, Node>) returns (deps: set<string>)
      ensures deps == ClassDeps(unparse, owner, KeySet(dataclasses), fields)
    {
      deps := {};
      var i := 0;
      while i < |fields|
        invariant 0 <= i <= |fields|
        invariant deps == ClassDeps(unparse, owner, KeySet(dataclasses), fields[..i])
      {
        assert fields[..i + 1][..i] == fields[..i];
        var added := FieldDependencies(owner, TypeName(unparse, fields[i].1));
        deps := deps + added;
        i := i + 1;
      }
      assert fields[..i] == fields;
    }

    /** What one field with rendered type `typeName` adds to the dependencies of `owner`. */
    method FieldDependencies(owner: string, typeName: string) returns (added: set<string>)
      ensures added == FieldDeps(owner, KeySet(dataclasses), typeName)
    {
      added := {};
      var baseType := BaseType(typeName);
      if HasKey(dataclasses, baseType) || '[' in typeName {
        if baseType != owner {
          added := added + {baseType};
        }
        if '[' in typeName && ']' in typeName {
          var parts := InnerDependencies(owner, typeName);
          added := added + parts;
        }
      }
    }

    /** The loop over the comma-separated parts between the outer brackets. */
    method InnerDependencies(owner: string, typeName: string) returns (parts: set<string>)
      requires '[' in typeName && ']' in typeName
      ensures parts == set p | p in InnerParts(typeName) && p != owner
    {
      var inner := Split(Inner(typeName), ',');
      ghost var stripped := InnerParts(typeName);
      parts := {};
      var j := 0;
      while j < |inner|
        invariant 0 <= j <= |inner|
        invariant parts == set p | p in stripped[..j] && p != owner
      {
        var part := Strip(inner[j]);
        assert stripped[..j + 1] == stripped[..j] + [part];
        if part != owner {
          parts := parts + {part};
        }
        j := j + 1;
      }
      assert stripped[..j] == stripped;
    }

    /** `visit_FunctionDef`: a route's body statements are visited with the route current. */
    method VisitFunctionDef(n: Node)
      requires Valid() && n.FunctionDef?
      modifies this
      ensures Valid() && State() == Walk(unparse, old(State()), n)
      decreases n, 3
    {
      var isRoute := IsRoute(n.decorators);
      if isRoute {
        var signature := Signature(n);
        routes := routes + [RouteInfo(n.name, signature, [], {}, {})];
        inRoute := true;
        assert State() == OpenRoute(old(State()), n);
        VisitEach(n.body, n);
        inRoute := false;
      } else {
        GenericVisit(n);
        WalkNonRoute(unparse, old(State()), n);
      }
    }

    /** The decorator loop of `visit_FunctionDef`: is some decorator `route` or a call of `route`? */
    method IsRoute(decorators: seq<Node>) returns (isRoute: bool)
      ensures isRoute <==> exists k :: 0 <= k < |decorators| && RouteMarker(decorators[k])
    {
      isRoute := false;
      var i := 0;
      while i < |decorators|
        invariant 0 <= i <= |decorators|
        invariant isRoute <==> exists k :: 0 <= k < i && RouteMarker(decorators[k])
      {
        var d := decorators[i];
        if d.Name? && d.id == "route" {
          isRoute := true;
        } else if d.Call? {
          if d.func.Name? && d.func.id == "route" {
            isRoute := true;
          }
        }
        i := i + 1;
      }
    }

    /** Adds `name` to the current route's calls and to `function_calls` under the route's name. */
    method RecordRouteCall(name: string)
      requires Valid() && inRoute
      modifies this
      ensures Valid() && State() == RecordCall(old(State()), name)
    {
      var current := routes[|routes| - 1];
      routes := routes[|routes| - 1 := current.(functionCalls := current.functionCalls + {name})];
      functionCalls := AddTo(functionCalls, current.name, name);
    }

    /** `visit_Call`. */
    method VisitCall(n: Node)
      requires Valid() && n.Call?
      modifies this
      ensures Valid() && State() == Walk(unparse, old(State()), n)
      decreases n, 3
    {
      var funcName := FunctionName(n);
      if funcName.Some? && funcName.value in COMPONENTS {
        CountComponent(n, funcName.value);
      } else if funcName.Some? && funcName.value != "" && inRoute {
        RecordRouteCall(funcName.value);
      }
      assert State() == Step(unparse, old(State()), n);
      GenericVisit(n);
      WalkNonRoute(unparse, old(State()), n);
    }

    /** The component branch of `visit_Call`: count the component, and follow a link to its target. */
    method CountComponent(n: Node, name: string)
      requires Valid() && n.Call? && FunctionName(n) == Some(name) && name in COMPONENTS
      modifies this
      ensures Valid() && State() == CallStep(old(State()), n)
    {
      ghost var m0 := State();
      ghost var m1 := if m0.inRoute then WithCurrent(m0, Current(m0).(components := Increment(Current(m0).components, name))) else m0;
      if inRoute {
        var current := routes[|routes| - 1];
        routes := routes[|routes| - 1 := current.(components := Increment(current.components, name))];
      }
      assert State() == m1;
      componentsUsed := Increment(componentsUsed, name);
      assert State() == m1.(componentsUsed := Increment(m1.componentsUsed, name));
      if name in LINKING_COMPONENT_NAMES && inRoute {
        if |n.args| >= 2 {
          var target := LinkTarget(n.args[1]);
          if target.Some? && target.value != "" {
            RecordRouteCall(target.value);
          }
        }
      }
    }

    /** `visit_Return`. */
    method VisitReturn(n: Node)
      requires Valid() && n.Return?
      modifies this
      ensures Valid() && State() == Walk(unparse, old(State()), n)
      decreases n, 3
    {
      if n.result.Some? && n.result.value.Call? {
        var funcName := FunctionName(n.result.value);
        if funcName.Some? && funcName.value != "" && inRoute {
          RecordRouteCall(funcName.value);
        }
      }
      GenericVisit(n);
    }

    /** `visit_Attribute`. */
    method VisitAttribute(n: Node)
      requires Valid() && n.Attribute?
      modifies this
      ensures Valid() && State() == Walk(unparse, old(State()), n)
      decreases n, 3
    {
      if n.value.Name? && inRoute {
        if IsLoadOrStore(n.ctx) {
          var current := routes[|routes| - 1];
          routes := routes[|routes| - 1 := current.(fieldsUsed := current.fieldsUsed + {n.attr})];
        }
      }
      GenericVisit(n);
    }

    /** `generate_mermaid_class_diagram`; `orders[i]` is the order in which class i's dependency set was iterated. */
    method GenerateMermaidClassDiagram() returns (mermaid: string, ghost orders: seq<seq<string>>)
      ensures |orders| == |dataclasses|
      ensures forall i :: 0 <= i < |dataclasses| ==> Enumerates(orders[i], dataclasses[i].1.dependencies)
      ensures mermaid == Lines(ClassDiagramLines(unparse, dataclasses, orders))
    {
      mermaid := "classDiagram\n";
      orders := [];
      var i := 0;
      while i < |dataclasses|
        invariant 0 <= i <= |dataclasses| && |orders| == i
        invariant forall k :: 0 <= k < i ==> Enumerates(orders[k], dataclasses[k].1.dependencies)
        invariant mermaid == "classDiagram\n" + Lines(ClassBlocks(unparse, dataclasses, orders))
      {
        mermaid, orders := ClassEntryText(i, orders, "classDiagram\n", mermaid);
        i := i + 1;
      }
      LinesCons("classDiagram", ClassBlocks(unparse, dataclasses, orders));
    }

    /** One step of `generate_mermaid_class_diagram`: the block of the next dataclass. */
    method ClassEntryText(i: nat, ghost orders: seq<seq<string>>, ghost header: string, text: string)
      returns (text': string, ghost orders': seq<seq<string>>)
      requires i == |orders| < |dataclasses|
      requires forall k :: 0 <= k < i ==> Enumerates(orders[k], dataclasses[k].1.dependencies)
      requires text == header + Lines(ClassBlocks(unparse, dataclasses, orders))
      ensures |orders'| == i + 1
      ensures forall k :: 0 <= k < i + 1 ==> Enumerates(orders'[k], dataclasses[k].1.dependencies)
      ensures text' == header + Lines(ClassBlocks(unparse, dataclasses, orders'))
    {
      var className := dataclasses[i].0;
      var info := dataclasses[i].1;
      var fieldText := FieldLinesText(info.fields);
      var edgeText, order := EdgeLinesText(className, info.dependencies);
      ClassBlockText(unparse, dataclasses, i, order);
      var blockText := "    class " + className + " {\n" + fieldText + "    }\n" + edgeText;
      LinesExtend(header, ClassBlocks(unparse, dataclasses, orders), ClassBlock(unparse, dataclasses, i, order), text, blockText);
      ClassBlocksSnoc(unparse, dataclasses, orders, order);
      text' := text + blockText;
      orders' := orders + [order];
    }

    /** The field loop of the class diagram. */
    method FieldLinesText(fields: Dict<string, Node>) returns (text: string)
      ensures text == Lines(FieldLines(unparse, fields))
    {
      text := "";
      var j := 0;
      while j < |fields|
        invariant 0 <= j <= |fields|
        invariant text == Lines(FieldLines(unparse, fields[..j]))
      {
        var line := "        " + TypeName(unparse, fields[j].1) + " " + fields[j].0;
        assert FieldLines(unparse, fields[..j + 1]) == FieldLines(unparse, fields[..j]) + [line];
        LinesSnoc(FieldLines(unparse, fields[..j]), line, text);
        text := text + line + "\n";
        j := j + 1;
      }
      assert fields[..j] == fields;
    }

    /** The dependency loop of the class diagram: only dependencies that are recorded dataclasses are drawn. */
    method EdgeLinesText(className: string, deps: set<string>) returns (text: string, ghost order: seq<string>)
      ensures Enumerates(order, deps)
      ensures text == Lines(EdgeLines(dataclasses, className, order))
    {
      text := "";
      order := [];
      var remaining := deps;
      while remaining != {}
        invariant remaining <= deps && |order| + |remaining| == |deps|
        invariant forall x :: x in order <==> x in deps && x !in remaining
        invariant forall a, b :: 0 <= a < b < |order| ==> order[a] != order[b]
        invariant text == Lines(EdgeLines(dataclasses, className, order))
        decreases |remaining|
      {
        var dep :| dep in remaining;
        assert (order + [dep])[..|order|] == order;
        if HasKey(dataclasses, dep) {
          LinesSnoc(EdgeLines(dataclasses, className, order), EdgeLine(className, dep), text);
          text := text + EdgeLine(className, dep) + "\n";
        } else {
          assert EdgeLines(dataclasses, className, order) + [] == EdgeLines(dataclasses, className, order);
        }
        order := order + [dep];
        remaining := remaining - {dep};
      }
    }

    /** `generate_mermaid_function_diagram`; `orders[i]` is the order in which the i-th caller's set was iterated. */
    method GenerateMermaidFunctionDiagram() returns (mermaid: string, ghost orders: seq<seq<string>>)
      ensures |orders| == |functionCalls|
      ensures forall i :: 0 <= i < |functionCalls| ==> Enumerates(orders[i], functionCalls[i].1)
      ensures mermaid == Lines(FunctionDiagramLines(functionCalls, orders))
    {
      mermaid := "graph TD\n";
      orders := [];
      if |functionCalls| > 0 {
        var i := 0;
        while i < |functionCalls|
          invariant 0 <= i <= |functionCalls| && |orders| == i
          invariant forall k :: 0 <= k < i ==> Enumerates(orders[k], functionCalls[k].1)
          invariant mermaid == "graph TD\n" + Lines(CallEdges(functionCalls, orders))
        {
          mermaid, orders := CallerEdgesText(functionCalls, i, orders, "graph TD\n", mermaid);
          i := i + 1;
        }
      }
      LinesCons("graph TD", CallEdges(functionCalls, orders));
    }

    /** `save_as_string`: the two summaries and the two diagrams, with the orders in which sets were iterated. */
    method SaveAsString() returns (dataclassesText: string, routesText: string, classDiagram: string, functionDiagram: string,
                                   ghost fieldOrders: seq<seq<string>>, ghost callOrders: seq<seq<string>>,
                                   ghost dependencyOrders: seq<seq<string>>, ghost edgeOrders: seq<seq<string>>)
      ensures dataclassesText == Lines(DataclassesLines(dataclasses))
      ensures |fieldOrders| == |routes| && |callOrders| == |routes|
      ensures forall i :: 0 <= i < |routes| ==>
        Enumerates(fieldOrders[i], routes[i].fieldsUsed) && Enumerates(callOrders[i], routes[i].functionCalls)
      ensures routesText == Lines(RoutesLines(routes, fieldOrders, callOrders))
      ensures |dependencyOrders| == |dataclasses|
      ensures forall i :: 0 <= i < |dataclasses| ==> Enumerates(dependencyOrders[i], dataclasses[i].1.dependencies)
      ensures classDiagram == Lines(ClassDiagramLines(unparse, dataclasses, dependencyOrders))
      ensures |edgeOrders| == |functionCalls|
      ensures forall i :: 0 <= i < |functionCalls| ==> Enumerates(edgeOrders[i], functionCalls[i].1)
      ensures functionDiagram == Lines(FunctionDiagramLines(functionCalls, edgeOrders))
    {
      dataclassesText := DataclassesSummary();
      routesText, fieldOrders, callOrders := RoutesSummary();
      classDiagram, dependencyOrders := GenerateMermaidClassDiagram();
      functionDiagram, edgeOrders := GenerateMermaidFunctionDiagram();
    }

    /** The dataclasses part of `save_as_string`. */
    method DataclassesSummary() returns (text: string)
      ensures text == Lines(DataclassesLines(dataclasses))
    {
      text := "Dataclasses:\n";
      var i := 0;
      while i < |dataclasses|
        invariant 0 <= i <= |dataclasses|
        invariant text == "Dataclasses:\n" + Lines(DataclassBlocks(dataclasses, i))
      {
        var info := dataclasses[i].1;
        var fieldText := AffixedSeqText("  ", "", Keys(info.fields));
        ghost var block := DataclassBlock(info);
        assert DataclassBlocks(dataclasses, i + 1) == DataclassBlocks(dataclasses, i) + block;
        DataclassBlockText(info);
        var blockText := info.name + "\n" + fieldText;
        LinesExtend("Dataclasses:\n", DataclassBlocks(dataclasses, i), block, text, blockText);
        text := text + blockText;
        i := i + 1;
      }
      LinesCons("Dataclasses:", DataclassBlocks(dataclasses, i));
    }

    /** The routes part of `save_as_string`. */
    method RoutesSummary() returns (text: string, ghost fieldOrders: seq<seq<string>>, ghost callOrders: seq<seq<string>>)
      ensures |fieldOrders| == |routes| && |callOrders| == |routes|
      ensures forall i :: 0 <= i < |routes| ==>
        Enumerates(fieldOrders[i], routes[i].fieldsUsed) && Enumerates(callOrders[i], routes[i].functionCalls)
      ensures text == Lines(RoutesLines(routes, fieldOrders, callOrders))
    {
      text := "Routes:\n";
      fieldOrders, callOrders := [], [];
      var i := 0;
      while i < |routes|
        invariant 0 <= i <= |routes| && |fieldOrders| == i && |callOrders| == i
        invariant RouteOrders(routes, fieldOrders, callOrders)
        invariant text == "Routes:\n" + Lines(RouteBlocks(routes, fieldOrders, callOrders))
      {
        var blockText, fo, co := RouteText(routes[i]);
        RoutesTextSnoc(routes, fieldOrders, callOrders, fo, co, "Routes:\n", text, blockText);
        RouteOrdersSnoc(routes, fieldOrders, callOrders, fo, co);
        text := text + blockText;
        fieldOrders, callOrders := fieldOrders + [fo], callOrders + [co];
        i := i + 1;
      }
      LinesCons("Routes:", RouteBlocks(routes, fieldOrders, callOrders));
    }
  }

  /** One route's block of the routes summary: its signature, component counts, fields used and calls. */
  method RouteText(route: RouteInfo) returns (text: string, ghost fieldOrder: seq<string>, ghost callOrder: seq<string>)
    ensures Enumerates(fieldOrder, route.fieldsUsed) && Enumerates(callOrder, route.functionCalls)
    ensures text == Lines(RouteBlock(route, fieldOrder, callOrder))
  {
    var componentText := ComponentsText(route.components);
    var fieldText, callText;
    fieldText, fieldOrder := AffixedSetText("  ", " used", route.fieldsUsed);
    callText, callOrder := AffixedSetText("  calls ", "", route.functionCalls);
    RouteBlockText(route, fieldOrder, callOrder);
    text := route.signature + "\n" + componentText + fieldText + callText;
  }

  /** One step of `generate_mermaid_function_diagram`: the edges of the next caller. */
  method CallerEdgesText(fc: Dict<string, set<string>>, i: nat, ghost orders: seq<seq<string>>, ghost header: string, text: string)
    returns (text': string, ghost orders': seq<seq<string>>)
    requires i == |orders| < |fc|
    requires forall k :: 0 <= k < |orders| ==> Enumerates(orders[k], fc[k].1)
    requires text == header + Lines(CallEdges(fc, orders))
    ensures |orders'| == |orders| + 1
    ensures forall k :: 0 <= k < |orders'| ==> Enumerates(orders'[k], fc[k].1)
    ensures text' == header + Lines(CallEdges(fc, orders'))
  {
    var edgeText, order := AffixedSetText("    " + fc[i].0 + " --> ", "", fc[i].1);
    CallEdgesTextSnoc(fc, orders, order, header, text, edgeText);
    text' := text + edgeText;
    orders' := orders + [order];
  }

  /** `  name: count` for each entry of a route's component counter, in insertion order. */
  method ComponentsText(components: Dict<string, int>) returns (text: string)
    ensures text == Lines(ComponentLines(components))
  {
    text := "";
    var j := 0;
    while j < |components|
      invariant 0 <= j <= |components|
      invariant text == Lines(ComponentLines(components[..j]))
    {
      var line := "  " + components[j].0 + ": " + IntToString(components[j].1);
      assert components[..j + 1][..j] == components[..j];
      LinesSnoc(ComponentLines(components[..j]), line, text);
      text := text + line + "\n";
      j := j + 1;
    }
    assert components[..j] == components;
  }

  /** One line `prefix + x + suffix` for each x of a sequence, in order. */
  method AffixedSeqText(prefix: string, suffix: string, xs: seq<string>) returns (text: string)
    ensures text == Lines(AffixLines(prefix, suffix, xs))
  {
    text := "";
    var j := 0;
    while j < |xs|
      invariant 0 <= j <= |xs|
      invariant text == Lines(AffixLines(prefix, suffix, xs[..j]))
    {
      assert xs[..j + 1] == xs[..j] + [xs[j]];
      AffixLinesSnoc(prefix, suffix, xs[..j], xs[j]);
      LinesSnoc(AffixLines(prefix, suffix, xs[..j]), prefix + xs[j] + suffix, text);
      text := text + (prefix + xs[j] + suffix) + "\n";
      j := j + 1;
    }
    assert xs[..j] == xs;
  }

  /** One line `prefix + x + suffix` for each x of a set, in the order the set is iterated. */
  method AffixedSetText(prefix: string, suffix: string, xs: set<string>) returns (text: string, ghost order: seq<string>)
    ensures Enumerates(order, xs)
    ensures text == Lines(AffixLines(prefix, suffix, order))
  {
    text := "";
    order := [];
    var remaining := xs;
    while remaining != {}
      invariant remaining <= xs && |order| + |remaining| == |xs|
      invariant forall x :: x in order <==> x in xs && x !in remaining
      invariant forall a, b :: 0 <= a < b < |order| ==> order[a] != order[b]
      invariant text == Lines(AffixLines(prefix, suffix, order))
      decreases |remaining|
    {
      var x :| x in remaining;
      AffixLinesSnoc(prefix, suffix, order, x);
      LinesSnoc(AffixLines(prefix, suffix, order), prefix + x + suffix, text);
      text := text + (prefix + x + suffix) + "\n";
      order := order + [x];
      remaining := remaining - {x};
    }
  }
}

=== FILE: details_report.dfy ===
/**
 * The text the site analyzer produces from its state: the Mermaid class diagram, the
 * Mermaid function diagram and the two plain-text summaries, each given as its sequence
 * of lines. Python sets are iterated in an order the language leaves open, so each set
 * that is written out comes with an `order` that enumerates it.
 */
module DetailsReport {
  import opened Ast
  import opened PyStr
  import opened Dicts
  import opened DetailsRules
  import opened DetailsWalk

  /** `order` lists the elements of s, each exactly once: one iteration order of a Python set. */
  ghost predicate Enumerates(order: seq<string>, s: set<string>) {
    |order| == |s| && (forall x :: x in order <==> x in s) &&
    forall i, j :: 0 <= i < j < |order| ==> order[i] != order[j]
  }

  /** `    a --> b`: a Mermaid edge line, in both diagrams. */
  function EdgeLine(from: string, to: string): string
  {
    "    " + from + " --> " + to
  }

  lemma EdgeLineInjective(from: string, a: string, b: string)
    requires EdgeLine(from, a) == EdgeLine(from, b)
    ensures a == b
  {
    var k := |"    " + from + " --> "|;
    assert a == EdgeLine(from, a)[k..];
    assert b == EdgeLine(from, b)[k..];
  }

  // ---------------------------------------------------------------------------------------
  // generate_mermaid_class_diagram

  /** One line per field: the rendered type, then the field name. */
  function FieldLines(unparse: Node -> string, fields: Dict<string, Node>): (ls: seq<string>)
    ensures |ls| == |fields|
  {
    seq(|fields|, j requires 0 <= j < |fields| => "        " + TypeName(unparse, fields[j].1) + " " + fields[j].0)
  }

  /** The edges of class `key`, for the dependencies in `order` that are recorded dataclasses. */
  function EdgeLines(dcs: Dict<string, ClassInfo>, key: string, order: seq<string>): seq<string>
  {
    if order == [] then []
    else
      var d := order[|order| - 1];
      EdgeLines(dcs, key, order[..|order| - 1]) + (if HasKey(dcs, d) then [EdgeLine(key, d)] else [])
  }

  function ClassBlock(unparse: Node -> string, dcs: Dict<string, ClassInfo>, i: nat, order: seq<string>): seq<string>
    requires i < |dcs|
  {
    ["    class " + dcs[i].0 + " {"] + FieldLines(unparse, dcs[i].1.fields) + ["    }"] + EdgeLines(dcs, dcs[i].0, order)
  }

  /** The blocks of the first |orders| classes. */
  function ClassBlocks(unparse: Node -> string, dcs: Dict<string, ClassInfo>, orders: seq<seq<string>>): seq<string>
    requires |orders| <= |dcs|
  {
    if orders == [] then []
    else ClassBlocks(unparse, dcs, orders[..|orders| - 1]) + ClassBlock(unparse, dcs, |orders| - 1, orders[|orders| - 1])
  }

  lemma ClassBlocksSnoc(unparse: Node -> string, dcs: Dict<string, ClassInfo>, orders: seq<seq<string>>, order: seq<string>)
    requires |orders| < |dcs|
    ensures ClassBlocks(unparse, dcs, orders + [order]) == ClassBlocks(unparse, dcs, orders) + ClassBlock(unparse, dcs, |orders|, order)
  {
    assert (orders + [order])[..|orders|] == orders;
  }

  /** The text of one class block, as the class diagram writes it piece by piece. */
  lemma ClassBlockText(unparse: Node -> string, dcs: Dict<string, ClassInfo>, i: nat, order: seq<string>)
    requires i < |dcs|
    ensures Lines(ClassBlock(unparse, dcs, i, order)) ==
      "    class " + dcs[i].0 + " {\n" + Lines(FieldLines(unparse, dcs[i].1.fields)) + "    }\n" + Lines(EdgeLines(dcs, dcs[i].0, order))
  {
    var head := ["    class " + dcs[i].0 + " {"];
    var fl := FieldLines(unparse, dcs[i].1.fields);
    var el := EdgeLines(dcs, dcs[i].0, order);
    assert ClassBlock(unparse, dcs, i, order) == (head + fl) + (["    }"] + el);
    LinesAppend(head + fl, ["    }"] + el);
    LinesAppend(head, fl);
    LinesAppend(["    }"], el);
  }

  /** The class diagram, where `orders[i]` is the iteration order of class i's dependencies. */
  function ClassDiagramLines(unparse: Node -> string, dcs: Dict<string, ClassInfo>, orders: seq<seq<string>>): seq<string>
    requires |orders| == |dcs|
  {
    ["classDiagram"] + ClassBlocks(unparse, dcs, orders)
  }

  lemma {:induction false} EdgeLinesSpec(dcs: Dict<string, ClassInfo>, key: string, order: seq<string>, d: string)
    ensures EdgeLine(key, d) in EdgeLines(dcs, key, order) <==> d in order && HasKey(dcs, d)
  {
    if order != [] {
      var front := order[..|order| - 1];
      var last := order[|order| - 1];
      EdgeLinesSpec(dcs, key, front, d);
      if EdgeLine(key, d) == EdgeLine(key, last) {
        EdgeLineInjective(key, d, last);
      }
      assert order == front + [last];
    }
  }

  lemma {:induction false} ClassBlocksContain(unparse: Node -> string, dcs: Dict<string, ClassInfo>, orders: seq<seq<string>>, k: nat, l: string)
    requires |orders| <= |dcs| && k < |orders|
    requires l in ClassBlock(unparse, dcs, k, orders[k])
    ensures l in ClassBlocks(unparse, dcs, orders)
  {
    var front := orders[..|orders| - 1];
    if k < |front| {
      assert front[k] == orders[k];
      ClassBlocksContain(unparse, dcs, front, k, l);
    }
  }

  /**
   * The class diagram draws an edge from a class to exactly those of its dependencies that
   * are recorded dataclasses, and every such edge is a line of the diagram.
   */
  lemma ClassDiagramEdges(unparse: Node -> string, dcs: Dict<string, ClassInfo>, orders: seq<seq<string>>, i: nat, d: string)
    requires |orders| == |dcs| && i < |dcs|
    requires Enumerates(orders[i], dcs[i].1.dependencies)
    ensures EdgeLine(dcs[i].0, d) in EdgeLines(dcs, dcs[i].0, orders[i]) <==> d in dcs[i].1.dependencies && HasKey(dcs, d)
    ensures d in dcs[i].1.dependencies && HasKey(dcs, d) ==> EdgeLine(dcs[i].0, d) in ClassDiagramLines(unparse, dcs, orders)
  {
    EdgeLinesSpec(dcs, dcs[i].0, orders[i], d);
    if d in dcs[i].1.dependencies && HasKey(dcs, d) {
      ClassBlocksContain(unparse, dcs, orders, i, EdgeLine(dcs[i].0, d));
    }
  }

  // ---------------------------------------------------------------------------------------
  // generate_mermaid_function_diagram

  /** One line `prefix + x + suffix` per element x of `order`. */
  function AffixLines(prefix: string, suffix: string, order: seq<string>): (ls: seq<string>)
    ensures |ls| == |order|
    ensures forall j :: 0 <= j < |order| ==> ls[j] == prefix + order[j] + suffix
  {
    seq(|order|, j requires 0 <= j < |order| => prefix + order[j] + suffix)
  }

  lemma AffixLinesSnoc(prefix: string, suffix: string, order: seq<string>, x: string)
    ensures AffixLines(prefix, suffix, order + [x]) == AffixLines(prefix, suffix, order) + [prefix + x + suffix]
  {
  }

  /** The edges from one caller, in the order its set was iterated. */
  function CallEdgesOf(from: string, order: seq<string>): (ls: seq<string>)
    ensures |ls| == |order|
    ensures forall j :: 0 <= j < |order| ==> ls[j] == EdgeLine(from, order[j])
  {
    var ls := AffixLines("    " + from + " --> ", "", order);
    assert forall j :: 0 <= j < |order| ==> ls[j] == EdgeLine(from, order[j]) by {
      forall j | 0 <= j < |order| ensures ls[j] == EdgeLine(from, order[j]) {
        assert ls[j] == "    " + from + " --> " + order[j] + "";
      }
    }
    ls
  }

  /** The edges of the first |orders| callers. */
  function CallEdges(fc: Dict<string, set<string>>, orders: seq<seq<string>>): seq<string>
    requires |orders| <= |fc|
  {
    if orders == [] then []
    else CallEdges(fc, orders[..|orders| - 1]) + CallEdgesOf(fc[|orders| - 1].0, orders[|orders| - 1])
  }

  /** Appending the text of the next caller's edges to the diagram text so far. */
  lemma CallEdgesTextSnoc(fc: Dict<string, set<string>>, orders: seq<seq<string>>, order: seq<string>,
                          header: string, text: string, edgeText: string)
    requires |orders| < |fc|
    requires text == header + Lines(CallEdges(fc, orders))
    requires edgeText == Lines(AffixLines("    " + fc[|orders|].0 + " --> ", "", order))
    ensures text + edgeText == header + Lines(CallEdges(fc, orders + [order]))
  {
    var edges := CallEdgesOf(fc[|orders|].0, order);
    assert AffixLines("    " + fc[|orders|].0 + " --> ", "", order) == edges;
    LinesExtend(header, CallEdges(fc, orders), edges, text, edgeText);
    assert (orders + [order])[..|orders|] == orders;
    assert CallEdges(fc, orders + [order]) == CallEdges(fc, orders) + edges;
  }

  /** The function diagram, where `orders[i]` is the iteration order of the i-th caller's set. */
  function FunctionDiagramLines(fc: Dict<string, set<string>>, orders: seq<seq<string>>): seq<string>
    requires |orders| == |fc|
  {
    ["graph TD"] + CallEdges(fc, orders)
  }

  /** The edges drawn for one caller are exactly its calls. */
  lemma CallEdgesOfSpec(from: string, order: seq<string>, calls: set<string>, l: string)
    requires Enumerates(order, calls)
    ensures l in CallEdgesOf(from, order) <==> exists c :: c in calls && l == EdgeLine(from, c)
  {
    var edges := CallEdgesOf(from, order);
    if l in edges {
      var j :| 0 <= j < |order| && l == edges[j];
      assert order[j] in calls;
    }
    if exists c :: c in calls && l == EdgeLine(from, c) {
      var c :| c in calls && l == EdgeLine(from, c);
      assert c in order;
      var j :| 0 <= j < |order| && order[j] == c;
      assert edges[j] == l;
    }
  }

  /** The function diagram's edges are exactly the pairs of the call map. */
  lemma {:induction false} CallEdgesSpec(fc: Dict<string, set<string>>, orders: seq<seq<string>>, l: string)
    requires |orders| <= |fc|
    requires forall k :: 0 <= k < |orders| ==> Enumerates(orders[k], fc[k].1)
    ensures l in CallEdges(fc, orders) <==> exists k, c :: 0 <= k < |orders| && c in fc[k].1 && l == EdgeLine(fc[k].0, c)
  {
    if orders != [] {
      var front, k := orders[..|orders| - 1], |orders| - 1;
      CallEdgesSpec(fc, front, l);
      CallEdgesOfSpec(fc[k].0, orders[k], fc[k].1, l);
      assert CallEdges(fc, orders) == CallEdges(fc, front) + CallEdgesOf(fc[k].0, orders[k]);
      if l in CallEdges(fc, front) {
        var k', c :| 0 <= k' < |front| && c in fc[k'].1 && l == EdgeLine(fc[k'].0, c);
        assert 0 <= k' < |orders|;
      } else if l in CallEdgesOf(fc[k].0, orders[k]) {
        var c :| c in fc[k].1 && l == EdgeLine(fc[k].0, c);
        assert 0 <= k < |orders|;
      }
      if exists k', c :: 0 <= k' < |orders| && c in fc[k'].1 && l == EdgeLine(fc[k'].0, c) {
        var k', c :| 0 <= k' < |orders| && c in fc[k'].1 && l == EdgeLine(fc[k'].0, c);
        if k' < k {
          assert 0 <= k' < |front|;
        } else {
          assert l in CallEdgesOf(fc[k].0, orders[k]);
        }
      }
    }
  }

  /** Every call a route records is drawn as an edge from the route in the function diagram. */
  lemma RouteCallsAreDrawn(m: Model, orders: seq<seq<string>>, i: nat, c: string)
    requires CallsCovered(m) && |orders| == |m.functionCalls|
    requires forall k :: 0 <= k < |m.functionCalls| ==> Enumerates(orders[k], m.functionCalls[k].1)
    requires i < |m.routes| && c in m.routes[i].functionCalls
    ensures EdgeLine(m.routes[i].name, c) in FunctionDiagramLines(m.functionCalls, orders)
  {
    var fc := m.functionCalls;
    var name := m.routes[i].name;
    assert c in GetOr(fc, name, {});
    GetIndex(fc, name);
    var k :| 0 <= k < |fc| && fc[k] == (name, Get(fc, name));
    CallEdgesSpec(fc, orders, EdgeLine(name, c));
  }

  // ---------------------------------------------------------------------------------------
  // save_as_string

  function DataclassBlock(info: ClassInfo): (ls: seq<string>)
    ensures |ls| == 1 + |info.fields|
  {
    [info.name] + AffixLines("  ", "", Keys(info.fields))
  }

  function DataclassBlocks(dcs: Dict<string, ClassInfo>, i: nat): seq<string>
    requires i <= |dcs|
  {
    if i == 0 then [] else DataclassBlocks(dcs, i - 1) + DataclassBlock(dcs[i - 1].1)
  }

  /** The text of one dataclass block, as the dataclasses summary writes it. */
  lemma DataclassBlockText(info: ClassInfo)
    ensures Lines(DataclassBlock(info)) == info.name + "\n" + Lines(AffixLines("  ", "", Keys(info.fields)))
  {
    LinesAppend([info.name], AffixLines("  ", "", Keys(info.fields)));
  }

  /** The dataclasses summary: each class name followed by its field names. */
  function DataclassesLines(dcs: Dict<string, ClassInfo>): seq<string>
  {
    ["Dataclasses:"] + DataclassBlocks(dcs, |dcs|)
  }

  /** `  name: count` per entry of a component counter. */
  function ComponentLines(components: Dict<string, int>): (ls: seq<string>)
    ensures |ls| == |components|
  {
    if components == [] then []
    else
      var last := components[|components| - 1];
      ComponentLines(components[..|components| - 1]) + ["  " + last.0 + ": " + IntToString(last.1)]
  }

  function RouteBlock(r: RouteInfo, fieldOrder: seq<string>, callOrder: seq<string>): seq<string>
  {
    [r.signature] + ComponentLines(r.components) + AffixLines("  ", " used", fieldOrder) + AffixLines("  calls ", "", callOrder)
  }

  /** The text of one route block, as the routes summary writes it piece by piece. */
  lemma RouteBlockText(r: RouteInfo, fieldOrder: seq<string>, callOrder: seq<string>)
    ensures Lines(RouteBlock(r, fieldOrder, callOrder)) ==
      r.signature + "\n" + Lines(ComponentLines(r.components)) + Lines(AffixLines("  ", " used", fieldOrder)) +
      Lines(AffixLines("  calls ", "", callOrder))
  {
    var cl := ComponentLines(r.components);
    var fl := AffixLines("  ", " used", fieldOrder);
    var ml := AffixLines("  calls ", "", callOrder);
    assert RouteBlock(r, fieldOrder, callOrder) == (([r.signature] + cl) + fl) + ml;
    LinesAppend(([r.signature] + cl) + fl, ml);
    LinesAppend([r.signature] + cl, fl);
    LinesAppend([r.signature], cl);
  }

  lemma RouteBlocksSnoc(routes: seq<RouteInfo>, fieldOrders: seq<seq<string>>, callOrders: seq<seq<string>>, fo: seq<string>, co: seq<string>)
    requires |fieldOrders| == |callOrders| < |routes|
    ensures RouteBlocks(routes, fieldOrders + [fo], callOrders + [co]) ==
      RouteBlocks(routes, fieldOrders, callOrders) + RouteBlock(routes[|fieldOrders|], fo, co)
  {
    assert (fieldOrders + [fo])[..|fieldOrders|] == fieldOrders;
    assert (callOrders + [co])[..|callOrders|] == callOrders;
  }

  /** Appending one more route's block text to the summary text so far gives the summary text of one more route. */
  lemma RoutesTextSnoc(routes: seq<RouteInfo>, fieldOrders: seq<seq<string>>, callOrders: seq<seq<string>>, fo: seq<string>, co: seq<string>,
                       header: string, text: string, blockText: string)
    requires |fieldOrders| == |callOrders| < |routes|
    requires text == header + Lines(RouteBlocks(routes, fieldOrders, callOrders))
    requires blockText == Lines(RouteBlock(routes[|fieldOrders|], fo, co))
    ensures text + blockText == header + Lines(RouteBlocks(routes, fieldOrders + [fo], callOrders + [co]))
  {
    RouteBlocksSnoc(routes, fieldOrders, callOrders, fo, co);
    LinesExtend(header, RouteBlocks(routes, fieldOrders, callOrders), RouteBlock(routes[|fieldOrders|], fo, co), text, blockText);
  }

  /** The blocks of the first |fieldOrders| routes. */
  function RouteBlocks(routes: seq<RouteInfo>, fieldOrders: seq<seq<string>>, callOrders: seq<seq<string>>): seq<string>
    requires |fieldOrders| == |callOrders| <= |routes|
  {
    if fieldOrders == [] then []
    else
      var i := |fieldOrders| - 1;
      RouteBlocks(routes, fieldOrders[..i], callOrders[..i]) + RouteBlock(routes[i], fieldOrders[i], callOrders[i])
  }

  /** The routes summary: each signature followed by its component counts, fields used and calls. */
  function RoutesLines(routes: seq<RouteInfo>, fieldOrders: seq<seq<string>>, callOrders: seq<seq<string>>): seq<string>
    requires |fieldOrders| == |routes| && |callOrders| == |routes|
  {
    ["Routes:"] + RouteBlocks(routes, fieldOrders, callOrders)
  }

  /**
   * A route's block has one line per distinct component, field used and call, and lists
   * each field used and each call of the route.
   */
  lemma RouteBlockSpec(r: RouteInfo, fieldOrder: seq<string>, callOrder: seq<string>, f: string, c: string)
    requires Enumerates(fieldOrder, r.fieldsUsed) && Enumerates(callOrder, r.functionCalls)
    ensures |RouteBlock(r, fieldOrder, callOrder)| == 1 + |r.components| + |r.fieldsUsed| + |r.functionCalls|
    ensures f in r.fieldsUsed ==> "  " + f + " used" in RouteBlock(r, fieldOrder, callOrder)
    ensures c in r.functionCalls ==> "  calls " + c in RouteBlock(r, fieldOrder, callOrder)
  {
    if f in r.fieldsUsed {
      var j :| 0 <= j < |fieldOrder| && fieldOrder[j] == f;
      assert AffixLines("  ", " used", fieldOrder)[j] == "  " + f + " used";
    }
    if c in r.functionCalls {
      var j :| 0 <= j < |callOrder| && callOrder[j] == c;
      assert AffixLines("  calls ", "", callOrder)[j] == "  calls " + c + "";
      assert "  calls " + c + "" == "  calls " + c;
    }
  }

  lemma {:induction false} RouteBlocksContain(routes: seq<RouteInfo>, fieldOrders: seq<seq<string>>, callOrders: seq<seq<string>>, k: nat, l: string)
    requires |fieldOrders| == |callOrders| <= |routes| && k < |fieldOrders|
    requires l in RouteBlock(routes[k], fieldOrders[k], callOrders[k])
    ensures l in RouteBlocks(routes, fieldOrders, callOrders)
  {
    var i := |fieldOrders| - 1;
    if k < i {
      assert fieldOrders[..i][k] == fieldOrders[k] && callOrders[..i][k] == callOrders[k];
      RouteBlocksContain(routes, fieldOrders[..i], callOrders[..i], k, l);
    }
  }

  /** The routes summary lists every call of every route. */
  lemma RoutesListCalls(routes: seq<RouteInfo>, fieldOrders: seq<seq<string>>, callOrders: seq<seq<string>>, i: nat, c: string)
    requires |fieldOrders| == |routes| && |callOrders| == |routes| && i < |routes|
    requires Enumerates(fieldOrders[i], routes[i].fieldsUsed) && Enumerates(callOrders[i], routes[i].functionCalls)
    requires c in routes[i].functionCalls
    ensures "  calls " + c in RoutesLines(routes, fieldOrders, callOrders)
  {
    RouteBlockSpec(routes[i], fieldOrders[i], callOrders[i], "", c);
    RouteBlocksContain(routes, fieldOrders, callOrders, i, "  calls " + c);
  }

  /** The first |fieldOrders| routes have their fields used and calls enumerated by the orders. */
  ghost predicate RouteOrders(routes: seq<RouteInfo>, fieldOrders: seq<seq<string>>, callOrders: seq<seq<string>>)
  {
    |fieldOrders| == |callOrders| <= |routes| &&
    forall k :: 0 <= k < |fieldOrders| ==>
      Enumerates(fieldOrders[k], routes[k].fieldsUsed) && Enumerates(callOrders[k], routes[k].functionCalls)
  }

  /** Enumerating one more route's sets extends the orders by one. */
  lemma RouteOrdersSnoc(routes: seq<RouteInfo>, fieldOrders: seq<seq<string>>, callOrders: seq<seq<string>>, fo: seq<string>, co: seq<string>)
    requires RouteOrders(routes, fieldOrders, callOrders) && |fieldOrders| < |routes|
    requires Enumerates(fo, routes[|fieldOrders|].fieldsUsed) && Enumerates(co, routes[|fieldOrders|].functionCalls)
    ensures RouteOrders(routes, fieldOrders + [fo], callOrders + [co])
  {
    var fos, cos := fieldOrders + [fo], callOrders + [co];
    forall k | 0 <= k < |fos|
      ensures Enumerates(fos[k], routes[k].fieldsUsed) && Enumerates(cos[k], routes[k].functionCalls)
    {
      if k < |fieldOrders| {
        assert fos[k] == fieldOrders[k] && cos[k] == callOrders[k];
      }
    }
  }

  /** The dataclasses summary has one line per class and one per field. */
  lemma {:induction false} DataclassBlocksSize(dcs: Dict<string, ClassInfo>, i: nat)
    requires i <= |dcs|
    ensures |DataclassBlocks(dcs, i)| == i + FieldCount(dcs, i)
  {
    if i > 0 {
      DataclassBlocksSize(dcs, i - 1);
    }
  }

  function FieldCount(dcs: Dict<string, ClassInfo>, i: nat): nat
    requires i <= |dcs|
  {
    if i == 0 then 0 else FieldCount(dcs, i - 1) + |dcs[i - 1].1.fields|
  }
}

=== FILE: details_rules.dfy ===
/**
 * The site analyzer's syntactic rules, as functions: how a type annotation is rendered,
 * which classes are dataclasses and what their fields and dependencies are, which
 * functions are routes and what their signatures are, and what a call names.
 */
module DetailsRules {
  import opened Ast
  import opened PyStr
  import opened Dicts

  /** The framework's component names. */
  const COMPONENTS: seq<string> := [
    "Argument", "Box", "BulletedList", "Button", "CheckBox", "Div", "Division", "Download",
    "FileUpload", "Header", "HorizontalRule", "Image", "LineBreak", "Link", "MatPlotLibPlot",
    "NumberedList", "PageContent", "Pre", "PreformattedText", "Row", "SelectBox", "Span",
    "SubmitButton", "Table", "Text", "TextArea", "TextBox"
  ]

  /** The components whose second positional argument names the page they lead to. */
  const LINKING_COMPONENT_NAMES: seq<string> := ["Link", "Button", "SubmitButton"]

  /** A recorded dataclass: fields map names to annotation nodes in declaration order. */
  datatype ClassInfo = ClassInfo(name: string, fields: Dict<string, Node>, baseClasses: seq<string>, dependencies: set<string>)

  /** A recorded route; `unknown_relationships` is left out because nothing ever adds to it. */
  datatype RouteInfo = RouteInfo(name: string, signature: string, components: Dict<string, int>,
                                 fieldsUsed: set<string>, functionCalls: set<string>)

  // ---------------------------------------------------------------------------------------
  // Type rendering (get_type_name)

  /** `get_type_name`: the display text of an annotation; other node shapes fall back to `unparse`. */
  function TypeName(unparse: Node -> string, n: Node): string
  {
    match n
    case Name(id, _, _) => id
    case Subscript(value, slice, _, _) =>
      var base := TypeName(unparse, value);
      if slice.Name? then base + "[" + slice.id + "]"
      else if slice.Tuple? then
        base + "[" + Join(", ", seq(|slice.elts|, i requires 0 <= i < |slice.elts| => TypeName(unparse, slice.elts[i]))) + "]"
      else base
    case Constant(c, _) => ConstText(c)
    case Attribute(value, attr, _, _) => TypeName(unparse, value) + "." + attr
    case _ => unparse(n)
  }

  /** `type_name.split("[")[0]`: the text before the first `[`. */
  function BaseType(tn: string): string
  {
    Split(tn, '[')[0]
  }

  /** `type_name[type_name.index("[") + 1 : type_name.rindex("]")]`. */
  function Inner(tn: string): string
    requires '[' in tn && ']' in tn
  {
    Slice(tn, FirstIndex(tn, '[') + 1, LastIndex(tn, ']'))
  }

  /** The comma-separated parts of the bracket contents, each stripped. */
  function InnerParts(tn: string): (ps: seq<string>)
    requires '[' in tn && ']' in tn
  {
    var raw := Split(Inner(tn), ',');
    seq(|raw|, i requires 0 <= i < |raw| => Strip(raw[i]))
  }

  /** A name the renderer and the dependency parser both leave intact. */
  predicate Token(x: string) {
    x != "" && ',' !in x && !IsSpace(x[0]) && !IsSpace(x[|x| - 1])
  }

  lemma StripToken(x: string)
    requires Token(x)
    ensures Strip(x) == x && Strip(" " + x) == x
  {
    assert LStrip(" " + x) == LStrip(x);
    assert LStrip(x) == x;
  }

  function SpaceEach(xs: seq<string>): (ys: seq<string>)
    ensures |ys| == |xs|
    ensures forall i :: 0 <= i < |xs| ==> ys[i] == " " + xs[i]
  {
    if xs == [] then [] else [" " + xs[0]] + SpaceEach(xs[1..])
  }

  lemma {:induction false} JoinCommaSpace(xs: seq<string>)
    requires |xs| >= 1
    ensures " " + Join(", ", xs) == Join(",", SpaceEach(xs))
  {
    if |xs| > 1 {
      JoinCommaSpace(xs[1..]);
      assert SpaceEach(xs)[1..] == SpaceEach(xs[1..]);
    }
  }

  /** The pieces of `", ".join(xs)` between its commas: the first name, then each later one after a blank. */
  function CommaPieces(xs: seq<string>): (pieces: seq<string>)
    requires |xs| >= 1 && forall i :: 0 <= i < |xs| ==> Token(xs[i])
    ensures |pieces| == |xs|
    ensures forall i :: 0 <= i < |xs| ==> ',' !in pieces[i] && Strip(pieces[i]) == xs[i]
    ensures Join(",", pieces) == Join(", ", xs)
  {
    var pieces := [xs[0]] + SpaceEach(xs[1..]);
    assert Join(",", pieces) == Join(", ", xs) by {
      if |xs| > 1 { JoinCommaSpace(xs[1..]); }
    }
    assert forall i :: 0 <= i < |xs| ==> ',' !in pieces[i] && Strip(pieces[i]) == xs[i] by {
      forall i | 0 <= i < |xs| ensures ',' !in pieces[i] && Strip(pieces[i]) == xs[i] {
        StripToken(xs[i]);
        if i > 0 { assert pieces[i] == " " + xs[i]; }
      }
    }
    pieces
  }

  lemma SplitCommaSpace(xs: seq<string>)
    requires |xs| >= 1 && forall i :: 0 <= i < |xs| ==> Token(xs[i])
    ensures |Split(Join(", ", xs), ',')| == |xs|
    ensures forall i :: 0 <= i < |xs| ==> Strip(Split(Join(", ", xs), ',')[i]) == xs[i]
  {
    var pieces := CommaPieces(xs);
    SplitJoin(pieces, ',');
  }

  /** The text before the first `open` of `head + [open] + tail` is `head` when `head` has no `open`. */
  lemma BeforeFirst(head: string, open: char, tail: string)
    requires open !in head
    ensures Split(head + [open] + tail, open)[0] == head
  {
    FirstIndexAfterPrefix(head, open, tail);
  }

  /** The bracket contents of `base[body]` are `body`. */
  lemma InnerOfBracketed(base: string, body: string)
    requires '[' !in base
    ensures var tn := base + "[" + body + "]"; '[' in tn && ']' in tn && Inner(tn) == body
  {
    var tn := base + "[" + body + "]";
    assert tn == base + ['['] + (body + "]") by {
      ConcatAssoc(base + "[", body, "]");
    }
    FirstIndexAfterPrefix(base, '[', body + "]");
    assert tn[|tn| - 1] == ']';
    assert LastIndex(tn, ']') == |tn| - 1;
    assert tn[|base| + 1..|tn| - 1] == body;
  }

  /**
   * Reading a rendered generic `base[x1, ..., xn]` back: the base type is `base` and the
   * stripped bracket parts are exactly x1 ... xn, whenever the names are free of `,` and
   * surrounding blanks. This is what lets the dependency rule see every argument name
   * of a one-level generic annotation.
   */
  lemma ParseRenderedGeneric(base: string, xs: seq<string>)
    requires '[' !in base
    requires |xs| >= 1 && forall i :: 0 <= i < |xs| ==> Token(xs[i])
    ensures var tn := base + "[" + Join(", ", xs) + "]";
      '[' in tn && ']' in tn && BaseType(tn) == base && InnerParts(tn) == xs
  {
    var body := Join(", ", xs);
    var tn := base + "[" + body + "]";
    assert tn == base + ['['] + (body + "]") by {
      ConcatAssoc(base + "[", body, "]");
    }
    BeforeFirst(base, '[', body + "]");
    InnerOfBracketed(base, body);
    SplitCommaSpace(xs);
    InnerPartsOf(tn, body, xs);
  }

  /** The stripped bracket parts are the stripped comma parts of the bracket contents. */
  lemma InnerPartsOf(tn: string, body: string, xs: seq<string>)
    requires '[' in tn && ']' in tn && Inner(tn) == body
    requires |Split(body, ',')| == |xs| && forall i :: 0 <= i < |xs| ==> Strip(Split(body, ',')[i]) == xs[i]
    ensures InnerParts(tn) == xs
  {
  }

  // ---------------------------------------------------------------------------------------
  // Dataclasses (visit_ClassDef, get_dataclass_fields)

  /** A decorator that marks a dataclass: the bare name `dataclass` (a call `dataclass(...)` does not). */
  predicate DataclassMarker(d: Node) {
    d.Name? && d.id == "dataclass"
  }

  predicate HasDataclassMarker(decorators: seq<Node>) {
    exists i :: 0 <= i < |decorators| && DataclassMarker(decorators[i])
  }

  /** A class-body statement that declares a field: an annotated assignment to a plain name. */
  predicate FieldStmt(s: Node) {
    s.AnnAssign? && s.target.Name?
  }

  /** `get_dataclass_fields`: the fields dictionary filled statement by statement. */
  function FieldsOf(body: seq<Node>): Dict<string, Node>
  {
    if body == [] then []
    else
      var s := body[|body| - 1];
      var d := FieldsOf(body[..|body| - 1]);
      if FieldStmt(s) then Put(d, s.target.id, s.annotation) else d
  }

  /** The fields dictionary never holds a name twice. */
  lemma {:induction false} FieldsOfUnique(body: seq<Node>)
    ensures UniqueKeys(FieldsOf(body))
  {
    if body != [] {
      var s := body[|body| - 1];
      FieldsOfUnique(body[..|body| - 1]);
      if FieldStmt(s) {
        PutUnique(FieldsOf(body[..|body| - 1]), s.target.id, s.annotation);
      }
    }
  }

  predicate Declares(s: Node, k: string) {
    FieldStmt(s) && s.target.id == k
  }

  /** The fields are exactly the names that some field statement declares. */
  lemma {:induction false} FieldsOfKeys(body: seq<Node>, k: string)
    ensures HasKey(FieldsOf(body), k) <==> exists i :: 0 <= i < |body| && Declares(body[i], k)
  {
    if body != [] {
      var s := body[|body| - 1];
      var front := body[..|body| - 1];
      FieldsOfKeys(front, k);
      if exists i :: 0 <= i < |front| && Declares(front[i], k) {
        var i :| 0 <= i < |front| && Declares(front[i], k);
        assert body[i] == front[i];
      }
      if exists i :: 0 <= i < |body| && Declares(body[i], k) {
        var i :| 0 <= i < |body| && Declares(body[i], k);
        if i < |front| { assert front[i] == body[i]; }
      }
    }
  }

  /** A field maps to the annotation of the last statement that declares it. */
  lemma {:induction false} FieldsOfLastWins(body: seq<Node>, i: nat)
    requires i < |body| && FieldStmt(body[i])
    requires forall j :: i < j < |body| ==> !Declares(body[j], body[i].target.id)
    ensures HasKey(FieldsOf(body), body[i].target.id)
    ensures Get(FieldsOf(body), body[i].target.id) == body[i].annotation
  {
    var k := body[i].target.id;
    var front := body[..|body| - 1];
    var s := body[|body| - 1];
    if i == |body| - 1 {
      PutGetSame(FieldsOf(front), k, s.annotation);
    } else {
      assert front[i] == body[i];
      FieldsOfLastWins(front, i);
      if FieldStmt(s) {
        PutGetOther(FieldsOf(front), s.target.id, s.annotation, k);
      }
    }
  }

  /** `[base.id for base in node.bases if isinstance(base, ast.Name)]`. */
  function BaseNames(bases: seq<Node>): (r: seq<string>)
    ensures |r| <= |bases|
    ensures forall x :: x in r <==> exists i :: 0 <= i < |bases| && bases[i].Name? && bases[i].id == x
  {
    if bases == [] then []
    else (if bases[0].Name? then [bases[0].id] else []) + BaseNames(bases[1..])
  }

  /**
   * What one field of a class named `owner` contributes to its dependencies, given the
   * dataclass names recorded so far (`known`, which includes the owner itself) and the
   * field's rendered type `tn`.
   */
  function FieldDeps(owner: string, known: set<string>, tn: string): (r: set<string>)
    ensures owner !in r
  {
    var base := BaseType(tn);
    if base in known || '[' in tn then
      (if base != owner then {base} else {}) +
      (if '[' in tn && ']' in tn then set p | p in InnerParts(tn) && p != owner else {})
    else {}
  }

  /** The dependencies of a class: the union of what its fields contribute, in field order. */
  function ClassDeps(unparse: Node -> string, owner: string, known: set<string>, fields: Dict<string, Node>): set<string>
  {
    if fields == [] then {}
    else
      ClassDeps(unparse, owner, known, fields[..|fields| - 1]) +
      FieldDeps(owner, known, TypeName(unparse, fields[|fields| - 1].1))
  }

  /** The union of a sequence of sets. */
  ghost function UnionAll(ss: seq<set<string>>): set<string>
  {
    if ss == [] then {} else UnionAll(ss[..|ss| - 1]) + ss[|ss| - 1]
  }

  lemma {:induction false} UnionAllMember(ss: seq<set<string>>, x: string)
    ensures x in UnionAll(ss) <==> exists i :: 0 <= i < |ss| && x in ss[i]
  {
    if ss != [] {
      var front := ss[..|ss| - 1];
      UnionAllMember(front, x);
      if exists i :: 0 <= i < |front| && x in front[i] {
        var i :| 0 <= i < |front| && x in front[i];
        assert ss[i] == front[i];
      }
      if exists i :: 0 <= i < |ss| && x in ss[i] {
        var i :| 0 <= i < |ss| && x in ss[i];
        if i < |front| { assert front[i] == ss[i]; }
      }
    }
  }

  /** What each field contributes, in field order. */
  ghost function FieldDepSets(unparse: Node -> string, owner: string, known: set<string>, fields: Dict<string, Node>): (ss: seq<set<string>>)
    ensures |ss| == |fields|
    ensures forall i :: 0 <= i < |fields| ==> ss[i] == FieldDeps(owner, known, TypeName(unparse, fields[i].1))
  {
    seq(|fields|, i requires 0 <= i < |fields| => FieldDeps(owner, known, TypeName(unparse, fields[i].1)))
  }

  lemma {:induction false} ClassDepsIsUnion(unparse: Node -> string, owner: string, known: set<string>, fields: Dict<string, Node>)
    ensures ClassDeps(unparse, owner, known, fields) == UnionAll(FieldDepSets(unparse, owner, known, fields))
  {
    if fields != [] {
      var front := fields[..|fields| - 1];
      ClassDepsIsUnion(unparse, owner, known, front);
      var ss := FieldDepSets(unparse, owner, known, fields);
      assert ss[..|ss| - 1] == FieldDepSets(unparse, owner, known, front);
    }
  }

  /** A class never depends on itself, and every dependency comes from one of its fields. */
  lemma ClassDepsSpec(unparse: Node -> string, owner: string, known: set<string>, fields: Dict<string, Node>, x: string)
    ensures owner !in ClassDeps(unparse, owner, known, fields)
    ensures x in ClassDeps(unparse, owner, known, fields) <==>
      exists i :: 0 <= i < |fields| && x in FieldDeps(owner, known, TypeName(unparse, fields[i].1))
  {
    var ss := FieldDepSets(unparse, owner, known, fields);
    ClassDepsIsUnion(unparse, owner, known, fields);
    UnionAllMember(ss, owner);
    UnionAllMember(ss, x);
  }

  /** A field typed by a plain name: a dependency exactly when the name is another recorded dataclass. */
  lemma PlainFieldDeps(owner: string, known: set<string>, a: string, ctx: Node, p: Pos, unparse: Node -> string)
    requires '[' !in a
    ensures FieldDeps(owner, known, TypeName(unparse, Name(a, ctx, p))) == if a in known && a != owner then {a} else {}
  {
    assert BaseType(a) == a;
  }

  /**
   * A one-level generic field `base[x1, ..., xn]` over plain names: the generic base and
   * every argument name become dependencies, recorded dataclass or not, except the owner.
   */
  lemma GenericFieldDeps(owner: string, known: set<string>, base: string, args: seq<string>, ctx: Node, p: Pos, unparse: Node -> string)
    requires '[' !in base && ']' !in base && ',' !in base
    requires |args| >= 1 && forall i :: 0 <= i < |args| ==> Token(args[i]) && '[' !in args[i] && ']' !in args[i]
    ensures var elts := seq(|args|, i requires 0 <= i < |args| => Name(args[i], ctx, p));
      var ann := Subscript(Name(base, ctx, p), Tuple(elts, ctx, p), ctx, p);
      FieldDeps(owner, known, TypeName(unparse, ann)) ==
        (if base != owner then {base} else {}) + (set x | x in args && x != owner)
  {
    var elts := seq(|args|, i requires 0 <= i < |args| => Name(args[i], ctx, p));
    var ann := Subscript(Name(base, ctx, p), Tuple(elts, ctx, p), ctx, p);
    var rendered := seq(|elts|, i requires 0 <= i < |elts| => TypeName(unparse, elts[i]));
    assert rendered == args;
    assert TypeName(unparse, ann) == base + "[" + Join(", ", args) + "]";
    ParseRenderedGeneric(base, args);
  }

  /**
   * A generic field over one plain name, `base[a]` (the slice is a name, not a tuple): the
   * generic base and the argument become dependencies, recorded dataclasses or not, except
   * the owner. `items: list[Item]` gives `list` and `Item`.
   */
  lemma SingleArgFieldDeps(owner: string, known: set<string>, base: string, a: string, ctx: Node, p: Pos, unparse: Node -> string)
    requires '[' !in base && ']' !in base && ',' !in base
    requires Token(a) && '[' !in a && ']' !in a
    ensures var ann := Subscript(Name(base, ctx, p), Name(a, ctx, p), ctx, p);
      TypeName(unparse, ann) == base + "[" + a + "]" &&
      FieldDeps(owner, known, TypeName(unparse, ann)) ==
        (if base != owner then {base} else {}) + (if a != owner then {a} else {})
  {
    var ann := Subscript(Name(base, ctx, p), Name(a, ctx, p), ctx, p);
    assert TypeName(unparse, ann.value) == base;
    assert TypeName(unparse, ann) == base + "[" + a + "]";
    OneArgDeps(owner, known, base, a);
  }

  lemma OneArgDeps(owner: string, known: set<string>, base: string, a: string)
    requires '[' !in base && Token(a)
    ensures FieldDeps(owner, known, base + "[" + a + "]") ==
      (if base != owner then {base} else {}) + (if a != owner then {a} else {})
  {
    var tn := base + "[" + a + "]";
    assert Join(", ", [a]) == a;
    ParseRenderedGeneric(base, [a]);
    assert BaseType(tn) == base && InnerParts(tn) == [a];
    assert (set x | x in InnerParts(tn) && x != owner) == (if a != owner then {a} else {});
  }

  /**
   * A subscript whose slice is neither a name nor a tuple (a nested generic, a constant, a
   * slice expression) renders as its base alone, so it contributes at most the base, and
   * only when that is another recorded dataclass.
   */
  lemma OtherSliceRendersBase(owner: string, known: set<string>, base: string, slice: Node, ctx: Node, p: Pos, unparse: Node -> string)
    requires '[' !in base && !slice.Name? && !slice.Tuple?
    ensures var ann := Subscript(Name(base, ctx, p), slice, ctx, p);
      TypeName(unparse, ann) == base &&
      FieldDeps(owner, known, TypeName(unparse, ann)) == if base in known && base != owner then {base} else {}
  {
    PlainFieldDeps(owner, known, base, ctx, p, unparse);
  }

  /**
   * `list[list[Tile]]` renders as `list`: the inner argument is not a name or a tuple, so
   * `Tile` never becomes a dependency and `list` only does when a dataclass is named `list`.
   */
  lemma NestedGenericGap(owner: string, known: set<string>, ctx: Node, p: Pos, unparse: Node -> string)
    ensures var inner := Subscript(Name("list", ctx, p), Name("Tile", ctx, p), ctx, p);
      var ann := Subscript(Name("list", ctx, p), inner, ctx, p);
      TypeName(unparse, ann) == "list" && "Tile" !in FieldDeps(owner, known, TypeName(unparse, ann)) &&
      ("list" !in known ==> FieldDeps(owner, known, TypeName(unparse, ann)) == {})
  {
    assert "list"[0] != '[' && "list"[1] != '[' && "list"[2] != '[' && "list"[3] != '[';
    var inner := Subscript(Name("list", ctx, p), Name("Tile", ctx, p), ctx, p);
    OtherSliceRendersBase(owner, known, "list", inner, ctx, p, unparse);
  }

  // ---------------------------------------------------------------------------------------
  // Routes and calls (visit_FunctionDef, get_function_signature, get_function_name)

  /** A decorator that marks a route: the bare name `route`, or a call whose callee is the bare name `route`. */
  predicate RouteMarker(d: Node) {
    (d.Name? && d.id == "route") || (d.Call? && d.func.Name? && d.func.id == "route")
  }

  predicate IsRouteDef(n: Node) {
    n.FunctionDef? && exists i :: 0 <= i < |n.decorators| && RouteMarker(n.decorators[i])
  }

  /** The names of the plain positional parameters (`node.args.args`); the parser puts only `arg` nodes there. */
  function ParamNames(params: Node): (r: seq<string>)
  {
    if params.Arguments? then ArgNames(params.args) else []
  }

  function ArgNames(args: seq<Node>): (r: seq<string>)
    ensures |r| <= |args|
  {
    if args == [] then []
    else (if args[0].Arg? then [args[0].arg] else []) + ArgNames(args[1..])
  }

  /** `get_function_signature`: `name(p1, p2, ...)`. */
  function Signature(n: Node): string
    requires n.FunctionDef?
  {
    n.name + "(" + Join(", ", ParamNames(n.params)) + ")"
  }

  /**
   * A signature reads back as its parts: the text before `(` is the function name and the
   * comma-separated parameter list, stripped, is the positional parameter names.
   */
  lemma SignatureReadsBack(n: Node)
    requires n.FunctionDef? && '(' !in n.name
    requires var ps := ParamNames(n.params); forall i :: 0 <= i < |ps| ==> Token(ps[i])
    ensures ParamNames(n.params) == [] ==> Signature(n) == n.name + "()"
    ensures var sig := Signature(n); var ps := ParamNames(n.params);
      Split(sig, '(')[0] == n.name &&
      var inside := Slice(sig, |n.name| + 1, |sig| - 1);
      (ps != [] ==>
        |Split(inside, ',')| == |ps| &&
        forall i :: 0 <= i < |ps| ==> Strip(Split(inside, ',')[i]) == ps[i])
  {
    var ps := ParamNames(n.params);
    var body := Join(", ", ps);
    var sig := Signature(n);
    assert sig == n.name + ['('] + (body + ")");
    FirstIndexAfterPrefix(n.name, '(', body + ")");
    assert Slice(sig, |n.name| + 1, |sig| - 1) == body;
    if ps != [] {
      SplitCommaSpace(ps);
    }
  }

  /** `get_function_name`: the callee's name, or the method name of an attribute call. */
  function FunctionName(call: Node): (r: Option<string>)
    requires call.Call?
    ensures r.Some? <==> call.func.Name? || call.func.Attribute?
  {
    if call.func.Name? then Some(call.func.id)
    else if call.func.Attribute? then Some(call.func.attr)
    else None
  }

  /** The page a linking component leads to: a bare name, or a string literal. */
  function LinkTarget(target: Node): (r: Option<string>)
    ensures r.Some? <==> target.Name? || (target.Constant? && target.literal.Str?)
  {
    if target.Name? then Some(target.id)
    else if target.Constant? && target.literal.Str? then Some(target.literal.s)
    else None
  }

  /** An attribute access in a `Load` or `Store` context (not `Del`). */
  predicate IsLoadOrStore(ctx: Node) {
    ctx.Other? && (ctx.kind == "Load" || ctx.kind == "Store")
  }
}

=== FILE: details_walk.dfy ===
/**
 * What one pass of the site analyzer computes, as a function of the tree: the state of
 * the analyzer (`Model`), the effect of each visitor on it (`...Step`), and the whole
 * depth-first walk (`Walk`), followed by what the walk guarantees.
 */
module DetailsWalk {
  import opened Ast
  import opened PyStr
  import opened Dicts
  import opened DetailsRules

  /**
   * The analyzer's fields. `current_route` is always the route appended last while a route
   * body is being walked, so it is represented by `inRoute`: the current route is the last
   * element of `routes`.
   */
  datatype Model = Model(dataclasses: Dict<string, ClassInfo>, routes: seq<RouteInfo>, inRoute: bool,
                         functionCalls: Dict<string, set<string>>, componentsUsed: Dict<string, int>)

  const Initial: Model := Model([], [], false, [], [])

  ghost predicate WF(m: Model) {
    m.inRoute ==> |m.routes| > 0
  }

  function Current(m: Model): RouteInfo
    requires WF(m) && m.inRoute
  {
    m.routes[|m.routes| - 1]
  }

  /** Replaces the current route, which is shared between `current_route` and the last list element. */
  function WithCurrent(m: Model, r: RouteInfo): (m': Model)
    requires WF(m) && m.inRoute
    ensures WF(m')
  {
    m.(routes := m.routes[|m.routes| - 1 := r])
  }

  /** Records that the current route calls `name`, in the route and in the global call map. */
  function RecordCall(m: Model, name: string): (m': Model)
    requires WF(m)
    ensures WF(m')
  {
    if m.inRoute then
      var r := Current(m);
      WithCurrent(m, r.(functionCalls := r.functionCalls + {name})).(functionCalls := AddTo(m.functionCalls, r.name, name))
    else m
  }

  /** `visit_Call`. */
  function CallStep(m: Model, n: Node): (m': Model)
    requires WF(m) && n.Call?
    ensures WF(m')
  {
    var f := FunctionName(n);
    if f.Some? && f.value in COMPONENTS then
      var m1 := if m.inRoute then WithCurrent(m, Current(m).(components := Increment(Current(m).components, f.value))) else m;
      var m2 := m1.(componentsUsed := Increment(m1.componentsUsed, f.value));
      if f.value in LINKING_COMPONENT_NAMES && m2.inRoute && |n.args| >= 2 then
        var t := LinkTarget(n.args[1]);
        if t.Some? && t.value != "" then RecordCall(m2, t.value) else m2
      else m2
    else if f.Some? && f.value != "" then RecordCall(m, f.value)
    else m
  }

  /** `visit_Return`. */
  function ReturnStep(m: Model, n: Node): (m': Model)
    requires WF(m) && n.Return?
    ensures WF(m')
  {
    if n.result.Some? && n.result.value.Call? then
      var f := FunctionName(n.result.value);
      if f.Some? && f.value != "" then RecordCall(m, f.value) else m
    else m
  }

  /** `visit_Attribute`: only `name.attr`, read or written, inside a route. */
  function AttributeStep(m: Model, n: Node): (m': Model)
    requires WF(m) && n.Attribute?
    ensures WF(m')
  {
    if n.value.Name? && m.inRoute && IsLoadOrStore(n.ctx) then
      WithCurrent(m, Current(m).(fieldsUsed := Current(m).fieldsUsed + {n.attr}))
    else m
  }

  function KeySet<V>(d: Dict<string, V>): set<string>
  {
    set k | k in Keys(d)
  }

  /** The record `visit_ClassDef` stores for a dataclass. */
  function DataclassInfo(unparse: Node -> string, known: set<string>, n: Node): ClassInfo
    requires n.ClassDef?
  {
    var fields := FieldsOf(n.body);
    ClassInfo(n.name, fields, BaseNames(n.bases), ClassDeps(unparse, n.name, known + {n.name}, fields))
  }

  /** `visit_ClassDef`: the class is recorded before its dependencies are computed, so it counts as known. */
  function ClassDefStep(unparse: Node -> string, m: Model, n: Node): (m': Model)
    requires WF(m) && n.ClassDef?
    ensures WF(m')
  {
    if HasDataclassMarker(n.decorators) then
      m.(dataclasses := Put(m.dataclasses, n.name, DataclassInfo(unparse, KeySet(m.dataclasses), n)))
    else m
  }

  /** Entering a route: a fresh record is appended and becomes the current route. */
  function OpenRoute(m: Model, n: Node): (m': Model)
    requires n.FunctionDef?
    ensures WF(m')
  {
    m.(routes := m.routes + [RouteInfo(n.name, Signature(n), [], {}, {})], inRoute := true)
  }

  /** The visitor method that runs before the node's children are visited. */
  function Step(unparse: Node -> string, m: Model, n: Node): (m': Model)
    requires WF(m)
    ensures WF(m')
  {
    match n
    case ClassDef(_, _, _, _, _, _) => ClassDefStep(unparse, m, n)
    case Call(_, _, _, _) => CallStep(m, n)
    case Return(_, _) => ReturnStep(m, n)
    case Attribute(_, _, _, _) => AttributeStep(m, n)
    case _ => m
  }

  /**
   * `visit(n)`: a route definition opens a route, walks only its body statements and then
   * leaves the route; every other node runs its visitor method and then `generic_visit`.
   */
  ghost function Walk(unparse: Node -> string, m: Model, n: Node): (m': Model)
    requires WF(m)
    ensures WF(m')
    decreases n, 1
  {
    if IsRouteDef(n) then
      WalkAll(unparse, OpenRoute(m, n), n.body, n).(inRoute := false)
    else
      WalkAll(unparse, Step(unparse, m, n), Children(n), n)
  }

  /** Visiting the nodes `ns`, children of `parent`, from left to right. */
  ghost function WalkAll(unparse: Node -> string, m: Model, ns: seq<Node>, parent: Node): (m': Model)
    requires WF(m)
    requires forall c :: c in ns ==> c < parent
    ensures WF(m')
    decreases parent, 0, |ns|
  {
    if ns == [] then m
    else
      var front := ns[..|ns| - 1];
      assert forall c :: c in front ==> c in ns;
      assert ns[|ns| - 1] in ns;
      Walk(unparse, WalkAll(unparse, m, front, parent), ns[|ns| - 1])
  }

  // ---------------------------------------------------------------------------------------
  // Routes are appended in source order and never rewritten

  function Heads(rs: seq<RouteInfo>): (hs: seq<(string, string)>)
    ensures |hs| == |rs|
    ensures forall i :: 0 <= i < |rs| ==> hs[i] == (rs[i].name, rs[i].signature)
  {
    if rs == [] then [] else Heads(rs[..|rs| - 1]) + [(rs[|rs| - 1].name, rs[|rs| - 1].signature)]
  }

  /** The routes a subtree defines, as (name, signature) in pre-order, nested routes included. */
  ghost function RouteHeads(n: Node): seq<(string, string)>
    decreases n, 1
  {
    if IsRouteDef(n) then [(n.name, Signature(n))] + RouteHeadsAll(n.body, n)
    else RouteHeadsAll(Children(n), n)
  }

  ghost function RouteHeadsAll(ns: seq<Node>, parent: Node): seq<(string, string)>
    requires forall c :: c in ns ==> c < parent
    decreases parent, 0, |ns|
  {
    if ns == [] then []
    else
      var front := ns[..|ns| - 1];
      assert forall c :: c in front ==> c in ns;
      assert ns[|ns| - 1] in ns;
      RouteHeadsAll(front, parent) + RouteHeads(ns[|ns| - 1])
  }

  lemma StepKeepsHeads(unparse: Node -> string, m: Model, n: Node)
    requires WF(m)
    ensures Heads(Step(unparse, m, n).routes) == Heads(m.routes)
    ensures Step(unparse, m, n).inRoute == m.inRoute
  {
  }

  /**
   * Walking a subtree appends exactly the routes it defines, in order, leaves the names and
   * signatures of earlier routes alone, and ends inside a route exactly when it started in
   * one and the subtree defines none (leaving a route body leaves the route, even a nested one).
   */
  lemma {:induction false} WalkRoutes(unparse: Node -> string, m: Model, n: Node)
    requires WF(m)
    ensures Heads(Walk(unparse, m, n).routes) == Heads(m.routes) + RouteHeads(n)
    ensures Walk(unparse, m, n).inRoute == (m.inRoute && RouteHeads(n) == [])
    decreases n, 1
  {
    if IsRouteDef(n) {
      var m1 := OpenRoute(m, n);
      var head := [(n.name, Signature(n))];
      WalkAllRoutes(unparse, m1, n.body, n);
      assert Heads(m1.routes) == Heads(m.routes) + head;
      assert RouteHeads(n) == head + RouteHeadsAll(n.body, n);
      ConcatAssoc(Heads(m.routes), head, RouteHeadsAll(n.body, n));
    } else {
      StepKeepsHeads(unparse, m, n);
      WalkAllRoutes(unparse, Step(unparse, m, n), Children(n), n);
    }
  }

  lemma {:induction false} WalkAllRoutes(unparse: Node -> string, m: Model, ns: seq<Node>, parent: Node)
    requires WF(m)
    requires forall c :: c in ns ==> c < parent
    ensures Heads(WalkAll(unparse, m, ns, parent).routes) == Heads(m.routes) + RouteHeadsAll(ns, parent)
    ensures WalkAll(unparse, m, ns, parent).inRoute == (m.inRoute && RouteHeadsAll(ns, parent) == [])
    decreases parent, 0, |ns|
  {
    if ns != [] {
      var front, last := ns[..|ns| - 1], ns[|ns| - 1];
      assert forall c :: c in front ==> c in ns;
      assert last in ns;
      var mid := WalkAll(unparse, m, front, parent);
      WalkAllRoutes(unparse, m, front, parent);
      WalkRoutes(unparse, mid, last);
      assert WalkAll(unparse, m, ns, parent) == Walk(unparse, mid, last);
      assert RouteHeadsAll(ns, parent) == RouteHeadsAll(front, parent) + RouteHeads(last);
      ConcatAssoc(Heads(m.routes), RouteHeadsAll(front, parent), RouteHeads(last));
    }
  }

  // ---------------------------------------------------------------------------------------
  // Invariants of the walk

  /** The three ways the walk changes the state preserve `inv`. */
  ghost predicate StepsKeep(unparse: Node -> string, inv: Model -> bool) {
    (forall m: Model, n: Node {:trigger Step(unparse, m, n)} :: WF(m) && inv(m) ==> inv(Step(unparse, m, n))) &&
    (forall m: Model, n: Node {:trigger OpenRoute(m, n)} :: n.FunctionDef? && inv(m) ==> inv(OpenRoute(m, n))) &&
    (forall m: Model :: WF(m) && inv(m) ==> inv(m.(inRoute := false)))
  }

  /** A property kept by every step of the walk holds after walking any subtree. */
  lemma {:induction false} WalkKeeps(unparse: Node -> string, inv: Model -> bool, m: Model, n: Node)
    requires WF(m) && inv(m) && StepsKeep(unparse, inv)
    ensures inv(Walk(unparse, m, n))
    decreases n, 1
  {
    if IsRouteDef(n) {
      var m1 := OpenRoute(m, n);
      WalkAllKeeps(unparse, inv, m1, n.body, n);
      var m2 := WalkAll(unparse, m1, n.body, n);
      assert inv(m2.(inRoute := false));
    } else {
      assert inv(Step(unparse, m, n));
      WalkAllKeeps(unparse, inv, Step(unparse, m, n), Children(n), n);
    }
  }

  lemma {:induction false} WalkAllKeeps(unparse: Node -> string, inv: Model -> bool, m: Model, ns: seq<Node>, parent: Node)
    requires WF(m) && inv(m) && StepsKeep(unparse, inv)
    requires forall c :: c in ns ==> c < parent
    ensures inv(WalkAll(unparse, m, ns, parent))
    decreases parent, 0, |ns|
  {
    if ns != [] {
      var front := ns[..|ns| - 1];
      assert forall c :: c in front ==> c in ns;
      assert ns[|ns| - 1] in ns;
      WalkAllKeeps(unparse, inv, m, front, parent);
      WalkKeeps(unparse, inv, WalkAll(unparse, m, front, parent), ns[|ns| - 1]);
    }
  }

  /** Every call a route records also appears under the route's name in `function_calls`. */
  ghost predicate CallsCovered(m: Model) {
    forall i, c :: 0 <= i < |m.routes| && c in m.routes[i].functionCalls ==>
      c in GetOr(m.functionCalls, m.routes[i].name, {})
  }

  lemma RecordCallCovered(m: Model, name: string)
    requires WF(m) && CallsCovered(m)
    ensures CallsCovered(RecordCall(m, name))
  {
    if m.inRoute {
      var r := Current(m);
      var m' := RecordCall(m, name);
      forall i, c | 0 <= i < |m'.routes| && c in m'.routes[i].functionCalls
        ensures c in GetOr(m'.functionCalls, m'.routes[i].name, {})
      {
        AddToGet(m.functionCalls, r.name, name, m.routes[i].name);
      }
    }
  }

  lemma StepCovered(unparse: Node -> string, m: Model, n: Node)
    requires WF(m) && CallsCovered(m)
    ensures CallsCovered(Step(unparse, m, n))
  {
    match n
    case Call(_, _, _, _) =>
      var f := FunctionName(n);
      if f.Some? && f.value in COMPONENTS {
        var m1 := if m.inRoute then WithCurrent(m, Current(m).(components := Increment(Current(m).components, f.value))) else m;
        var m2 := m1.(componentsUsed := Increment(m1.componentsUsed, f.value));
        assert CallsCovered(m2);
        if f.value in LINKING_COMPONENT_NAMES && m2.inRoute && |n.args| >= 2 {
          var t := LinkTarget(n.args[1]);
          if t.Some? && t.value != "" {
            RecordCallCovered(m2, t.value);
          }
        }
      } else if f.Some? && f.value != "" {
        RecordCallCovered(m, f.value);
      }
    case Return(_, _) =>
      if n.result.Some? && n.result.value.Call? {
        var f := FunctionName(n.result.value);
        if f.Some? && f.value != "" {
          RecordCallCovered(m, f.value);
        }
      }
    case _ =>
  }

  /**
   * `function_calls` covers the routes: whatever a route records as called is listed under
   * the route's name in the global call map, so the function diagram shows every such edge.
   */
  lemma WalkCovered(unparse: Node -> string, m: Model, n: Node)
    requires WF(m) && CallsCovered(m)
    ensures CallsCovered(Walk(unparse, m, n))
  {
    var inv := (x: Model) => CallsCovered(x);
    forall x: Model, y: Node | WF(x) && inv(x) ensures inv(Step(unparse, x, y)) {
      StepCovered(unparse, x, y);
    }
    WalkKeeps(unparse, inv, m, n);
  }

  /** The count of component k summed over the routes. */
  function RouteTally(rs: seq<RouteInfo>, k: string): int
  {
    if rs == [] then 0 else RouteTally(rs[..|rs| - 1], k) + GetOr(rs[|rs| - 1].components, k, 0)
  }

  lemma TallyReplaceLast(rs: seq<RouteInfo>, r: RouteInfo, k: string)
    requires |rs| > 0
    ensures RouteTally(rs[|rs| - 1 := r], k) ==
      RouteTally(rs, k) - GetOr(rs[|rs| - 1].components, k, 0) + GetOr(r.components, k, 0)
  {
    assert rs[|rs| - 1 := r][..|rs| - 1] == rs[..|rs| - 1];
  }

  ghost predicate TallyBounded(m: Model) {
    forall k :: RouteTally(m.routes, k) <= GetOr(m.componentsUsed, k, 0)
  }

  /** Replacing the current route by one with the same component counts keeps the tally. */
  lemma SameComponents(m: Model, r: RouteInfo)
    requires WF(m) && m.inRoute && r.components == Current(m).components
    ensures forall k :: RouteTally(WithCurrent(m, r).routes, k) == RouteTally(m.routes, k)
  {
    forall k { TallyReplaceLast(m.routes, r, k); }
  }

  lemma RecordCallTally(m: Model, name: string)
    requires WF(m)
    ensures RecordCall(m, name).componentsUsed == m.componentsUsed
    ensures forall k :: RouteTally(RecordCall(m, name).routes, k) == RouteTally(m.routes, k)
  {
    if m.inRoute {
      var r := Current(m);
      SameComponents(m, r.(functionCalls := r.functionCalls + {name}));
    }
  }

  lemma StepTally(unparse: Node -> string, m: Model, n: Node)
    requires WF(m) && TallyBounded(m)
    ensures TallyBounded(Step(unparse, m, n))
  {
    match n
    case Call(_, _, _, _) =>
      var f := FunctionName(n);
      if f.Some? && f.value in COMPONENTS {
        var m1 := if m.inRoute then WithCurrent(m, Current(m).(components := Increment(Current(m).components, f.value))) else m;
        var m2 := m1.(componentsUsed := Increment(m1.componentsUsed, f.value));
        forall k ensures RouteTally(m2.routes, k) <= GetOr(m2.componentsUsed, k, 0) {
          IncrementCount(m.componentsUsed, f.value, k);
          if m.inRoute {
            var r := Current(m);
            TallyReplaceLast(m.routes, r.(components := Increment(r.components, f.value)), k);
            IncrementCount(r.components, f.value, k);
          }
        }
        if f.value in LINKING_COMPONENT_NAMES && m2.inRoute && |n.args| >= 2 {
          var t := LinkTarget(n.args[1]);
          if t.Some? && t.value != "" {
            RecordCallTally(m2, t.value);
          }
        }
      } else if f.Some? && f.value != "" {
        RecordCallTally(m, f.value);
      }
    case Return(_, _) =>
      if n.result.Some? && n.result.value.Call? {
        var f := FunctionName(n.result.value);
        if f.Some? && f.value != "" {
          RecordCallTally(m, f.value);
        }
      }
    case Attribute(_, _, _, _) =>
      if n.value.Name? && m.inRoute && IsLoadOrStore(n.ctx) {
        SameComponents(m, Current(m).(fieldsUsed := Current(m).fieldsUsed + {n.attr}));
      }
    case _ =>
  }

  lemma OpenRouteTally(m: Model, n: Node)
    requires n.FunctionDef?
    ensures forall k :: RouteTally(OpenRoute(m, n).routes, k) == RouteTally(m.routes, k)
  {
    forall k ensures RouteTally(OpenRoute(m, n).routes, k) == RouteTally(m.routes, k) {
      assert OpenRoute(m, n).routes[..|m.routes|] == m.routes;
    }
  }

  /**
   * Per-route component counts never overtake the global ones: for every component, the
   * counts of all routes together are at most `components_used` (uses outside any route
   * are only counted globally).
   */
  lemma WalkTally(unparse: Node -> string, m: Model, n: Node)
    requires WF(m) && TallyBounded(m)
    ensures TallyBounded(Walk(unparse, m, n))
  {
    var inv := (x: Model) => TallyBounded(x);
    forall x: Model, y: Node | WF(x) && inv(x) ensures inv(Step(unparse, x, y)) {
      StepTally(unparse, x, y);
    }
    forall x: Model, y: Node | y.FunctionDef? && inv(x) ensures inv(OpenRoute(x, y)) {
      OpenRouteTally(x, y);
    }
    WalkKeeps(unparse, inv, m, n);
  }

  /** Each dataclass is filed under its own name, once, and does not depend on itself. */
  ghost predicate DataclassesWF(m: Model) {
    UniqueKeys(m.dataclasses) &&
    forall e :: e in m.dataclasses ==> e.0 == e.1.name && e.1.name !in e.1.dependencies
  }

  lemma StepDataclasses(unparse: Node -> string, m: Model, n: Node)
    requires WF(m) && DataclassesWF(m)
    ensures DataclassesWF(Step(unparse, m, n))
  {
    if n.ClassDef? && HasDataclassMarker(n.decorators) {
      var info := DataclassInfo(unparse, KeySet(m.dataclasses), n);
      PutUnique(m.dataclasses, n.name, info);
      PutEntries(m.dataclasses, n.name, info);
      ClassDepsSpec(unparse, n.name, KeySet(m.dataclasses) + {n.name}, FieldsOf(n.body), n.name);
    }
  }

  lemma WalkDataclasses(unparse: Node -> string, m: Model, n: Node)
    requires WF(m) && DataclassesWF(m)
    ensures DataclassesWF(Walk(unparse, m, n))
  {
    var inv := (x: Model) => DataclassesWF(x);
    forall x: Model, y: Node | WF(x) && inv(x) ensures inv(Step(unparse, x, y)) {
      StepDataclasses(unparse, x, y);
    }
    WalkKeeps(unparse, inv, m, n);
  }

  /** m' extends m: no route is lost or renamed, and what each route recorded only grows. */
  ghost predicate Grows(m: Model, m': Model) {
    |m.routes| <= |m'.routes| &&
    (forall i :: 0 <= i < |m.routes| ==>
      m'.routes[i].name == m.routes[i].name && m'.routes[i].signature == m.routes[i].signature &&
      m.routes[i].functionCalls <= m'.routes[i].functionCalls &&
      m.routes[i].fieldsUsed <= m'.routes[i].fieldsUsed) &&
    forall k :: GetOr(m.functionCalls, k, {}) <= GetOr(m'.functionCalls, k, {})
  }

  lemma RecordCallGrows(m: Model, name: string)
    requires WF(m)
    ensures Grows(m, RecordCall(m, name))
  {
    if m.inRoute {
      forall k ensures GetOr(m.functionCalls, k, {}) <= GetOr(RecordCall(m, name).functionCalls, k, {}) {
        AddToGet(m.functionCalls, Current(m).name, name, k);
      }
    }
  }

  lemma GrowsTrans(m0: Model, m1: Model, m2: Model)
    requires Grows(m0, m1) && Grows(m1, m2)
    ensures Grows(m0, m2)
  {
  }

  /** Replacing the current route by one that recorded more. */
  lemma WithCurrentGrows(m: Model, r: RouteInfo)
    requires WF(m) && m.inRoute
    requires r.name == Current(m).name && r.signature == Current(m).signature
    requires Current(m).functionCalls <= r.functionCalls && Current(m).fieldsUsed <= r.fieldsUsed
    ensures Grows(m, WithCurrent(m, r))
  {
  }

  lemma StepGrowsOnce(unparse: Node -> string, m: Model, n: Node)
    requires WF(m)
    ensures Grows(m, Step(unparse, m, n))
  {
    match n
    case Call(_, _, _, _) =>
      var f := FunctionName(n);
      if f.Some? && f.value in COMPONENTS {
        var m1 := if m.inRoute then WithCurrent(m, Current(m).(components := Increment(Current(m).components, f.value))) else m;
        if m.inRoute {
          WithCurrentGrows(m, Current(m).(components := Increment(Current(m).components, f.value)));
        }
        var m2 := m1.(componentsUsed := Increment(m1.componentsUsed, f.value));
        assert Grows(m1, m2);
        GrowsTrans(m, m1, m2);
        if f.value in LINKING_COMPONENT_NAMES && m2.inRoute && |n.args| >= 2 {
          var t := LinkTarget(n.args[1]);
          if t.Some? && t.value != "" {
            RecordCallGrows(m2, t.value);
            GrowsTrans(m, m2, RecordCall(m2, t.value));
          }
        }
      } else if f.Some? && f.value != "" {
        RecordCallGrows(m, f.value);
      }
    case Return(_, _) =>
      if n.result.Some? && n.result.value.Call? {
        var f := FunctionName(n.result.value);
        if f.Some? && f.value != "" {
          RecordCallGrows(m, f.value);
        }
      }
    case Attribute(_, _, _, _) =>
      if n.value.Name? && m.inRoute && IsLoadOrStore(n.ctx) {
        WithCurrentGrows(m, Current(m).(fieldsUsed := Current(m).fieldsUsed + {n.attr}));
      }
    case _ =>
  }

  /** The walk only adds: routes, their calls and fields, and the global call map grow monotonically. */
  lemma WalkGrows(unparse: Node -> string, m: Model, n: Node)
    requires WF(m)
    ensures Grows(m, Walk(unparse, m, n))
  {
    var inv := (x: Model) => Grows(m, x);
    forall x: Model, y: Node | WF(x) && inv(x) ensures inv(Step(unparse, x, y)) {
      StepGrowsOnce(unparse, x, y);
      GrowsTrans(m, x, Step(unparse, x, y));
    }
    forall x: Model, y: Node | y.FunctionDef? && inv(x) ensures inv(OpenRoute(x, y)) {
      assert Grows(x, OpenRoute(x, y));
      GrowsTrans(m, x, OpenRoute(x, y));
    }
    WalkKeeps(unparse, inv, m, n);
  }

  // ---------------------------------------------------------------------------------------
  // Attribution

  /**
   * Outside a route nothing is attributed: a subtree that defines no route, walked outside
   * any route, leaves the routes and the global call map as they were (components are still
   * counted globally and dataclasses still recorded).
   */
  lemma {:induction false} WalkOutsideRoutes(unparse: Node -> string, m: Model, n: Node)
    requires WF(m) && !m.inRoute && RouteHeads(n) == []
    ensures var m' := Walk(unparse, m, n);
      m'.routes == m.routes && m'.functionCalls == m.functionCalls && !m'.inRoute
    decreases n, 1
  {
    assert !IsRouteDef(n);
    WalkAllOutsideRoutes(unparse, Step(unparse, m, n), Children(n), n);
  }

  lemma {:induction false} WalkAllOutsideRoutes(unparse: Node -> string, m: Model, ns: seq<Node>, parent: Node)
    requires WF(m) && !m.inRoute
    requires forall c :: c in ns ==> c < parent
    requires RouteHeadsAll(ns, parent) == []
    ensures var m' := WalkAll(unparse, m, ns, parent);
      m'.routes == m.routes && m'.functionCalls == m.functionCalls && !m'.inRoute
    decreases parent, 0, |ns|
  {
    if ns != [] {
      var front := ns[..|ns| - 1];
      assert forall c :: c in front ==> c in ns;
      assert ns[|ns| - 1] in ns;
      assert RouteHeadsAll(ns, parent) == RouteHeadsAll(front, parent) + RouteHeads(ns[|ns| - 1]);
      WalkAllOutsideRoutes(unparse, m, front, parent);
      WalkOutsideRoutes(unparse, WalkAll(unparse, m, front, parent), ns[|ns| - 1]);
    }
  }

  lemma RecordCallTwice(m: Model, name: string)
    requires WF(m)
    ensures RecordCall(RecordCall(m, name), name) == RecordCall(m, name)
  {
    if m.inRoute {
      AddToTwice(m.functionCalls, Current(m).name, name);
    }
  }

  /**
   * Recording a call: outside a route nothing changes; inside one the name joins the current
   * route's calls and the map entry for that route, and nothing else changes.
   */
  lemma RecordCallEffect(m: Model, name: string)
    requires WF(m)
    ensures var m' := RecordCall(m, name);
      m'.inRoute == m.inRoute && |m'.routes| == |m.routes| &&
      m'.componentsUsed == m.componentsUsed && m'.dataclasses == m.dataclasses &&
      (!m.inRoute ==> m' == m) &&
      (m.inRoute ==>
        Current(m') == Current(m).(functionCalls := Current(m).functionCalls + {name}) &&
        m'.routes[..|m.routes| - 1] == m.routes[..|m.routes| - 1] &&
        GetOr(m'.functionCalls, Current(m).name, {}) == GetOr(m.functionCalls, Current(m).name, {}) + {name} &&
        forall k :: k != Current(m).name ==> GetOr(m'.functionCalls, k, {}) == GetOr(m.functionCalls, k, {}))
  {
    if m.inRoute {
      forall k ensures GetOr(RecordCall(m, name).functionCalls, k, {}) == GetOr(m.functionCalls, k, {}) + (if k == Current(m).name then {name} else {}) {
        AddToGet(m.functionCalls, Current(m).name, name, k);
      }
    }
  }

  /**
   * `visit_Call` before the children are visited, with f the called name:
   * - a component raises the global tally of f by one, and the current route's count of f
   *   when there is a current route; unless it is a linking component, it records no call;
   * - any other non-empty name inside a route is recorded as a call of the current route;
   * - a call without a name, or outside a route a call that is no component, changes nothing.
   */
  lemma CallStepEffect(m: Model, n: Node)
    requires WF(m) && n.Call?
    ensures var m' := CallStep(m, n);
      m'.inRoute == m.inRoute && |m'.routes| == |m.routes| && m'.dataclasses == m.dataclasses &&
      (FunctionName(n).None? ==> m' == m) &&
      (FunctionName(n).Some? ==>
        var f := FunctionName(n).value;
        (f in COMPONENTS ==>
          m'.componentsUsed == Increment(m.componentsUsed, f) &&
          (m.inRoute ==> Current(m').components == Increment(Current(m).components, f)) &&
          (f !in LINKING_COMPONENT_NAMES ==>
            m'.functionCalls == m.functionCalls &&
            forall i :: 0 <= i < |m.routes| ==> m'.routes[i].functionCalls == m.routes[i].functionCalls)) &&
        (f !in COMPONENTS ==> m'.componentsUsed == m.componentsUsed) &&
        (f !in COMPONENTS && (f == "" || !m.inRoute) ==> m' == m) &&
        (f !in COMPONENTS && f != "" && m.inRoute ==>
          Current(m') == Current(m).(functionCalls := Current(m).functionCalls + {f}) &&
          GetOr(m'.functionCalls, Current(m).name, {}) == GetOr(m.functionCalls, Current(m).name, {}) + {f}))
  {
    var f := FunctionName(n);
    if f.Some? && f.value !in COMPONENTS && f.value != "" {
      RecordCallEffect(m, f.value);
    }
  }

  /** Unfolds `Walk` for a node that is not a route definition. */
  lemma WalkNonRoute(unparse: Node -> string, m: Model, n: Node)
    requires WF(m) && !IsRouteDef(n)
    ensures Walk(unparse, m, n) == WalkAll(unparse, Step(unparse, m, n), Children(n), n)
  {
  }

  /** Walking a prefix one node further. */
  lemma WalkAllSnoc(unparse: Node -> string, m: Model, front: seq<Node>, c: Node, parent: Node)
    requires WF(m) && c < parent
    requires forall x :: x in front ==> x < parent
    ensures forall x :: x in front + [c] ==> x < parent
    ensures WalkAll(unparse, m, front + [c], parent) == Walk(unparse, WalkAll(unparse, m, front, parent), c)
  {
    assert (front + [c])[..|front|] == front;
  }

  lemma KeySetPut<V>(d: Dict<string, V>, k: string, v: V)
    ensures KeySet(Put(d, k, v)) == KeySet(d) + {k}
  {
  }

  lemma WalkAllOne(unparse: Node -> string, m: Model, c: Node, parent: Node)
    requires WF(m) && c < parent
    ensures WalkAll(unparse, m, [c], parent) == Walk(unparse, m, c)
  {
    assert [c][..0] == [];
  }

  lemma WalkAllTwo(unparse: Node -> string, m: Model, c: Node, d: Node, parent: Node)
    requires WF(m) && c < parent && d < parent
    ensures WalkAll(unparse, m, [c, d], parent) == Walk(unparse, Walk(unparse, m, c), d)
  {
    assert [c, d][..1] == [c];
    WalkAllOne(unparse, m, c, parent);
  }

  /**
   * `return f(...)` of a call that is not a component records nothing beyond what visiting
   * the call records anyway: the return rule and the call rule agree.
   */
  lemma ReturnOfCallAddsNothing(unparse: Node -> string, m: Model, c: Node, p: Pos)
    requires WF(m) && c.Call?
    requires !(FunctionName(c).Some? && FunctionName(c).value in COMPONENTS)
    ensures Walk(unparse, m, Return(Some(c), p)) == Walk(unparse, m, c)
  {
    var r := Return(Some(c), p);
    var m1 := ReturnStep(m, r);
    WalkNonRoute(unparse, m, r);
    WalkAllOne(unparse, m1, c, r);
    var f := FunctionName(c);
    if f.Some? && f.value != "" {
      RecordCallTwice(m, f.value);
    }
    assert CallStep(m1, c) == CallStep(m, c);
  }

  /**
   * `return Text(...)` inside a route records the component name among the route's calls,
   * although a component used anywhere else in a route is only counted, never recorded as a call.
   */
  lemma ReturnedComponentIsRecordedAsCall(unparse: Node -> string, m: Model, c: Node, p: Pos)
    requires WF(m) && m.inRoute && c.Call?
    requires FunctionName(c).Some? && FunctionName(c).value in COMPONENTS
    ensures var m' := Walk(unparse, m, Return(Some(c), p));
      |m'.routes| >= |m.routes| && FunctionName(c).value in m'.routes[|m.routes| - 1].functionCalls
  {
    var r := Return(Some(c), p);
    var m1 := ReturnStep(m, r);
    WalkNonRoute(unparse, m, r);
    WalkAllOne(unparse, m1, c, r);
    assert FunctionName(c).value != "";
    WalkGrows(unparse, m1, c);
  }

  /**
   * A linking component inside a route records the page named by its second positional
   * argument as called by the route, and so (by `WalkCovered`) as an edge of the function
   * diagram.
   */
  lemma LinkTargetIsRecordedAsCall(unparse: Node -> string, m: Model, c: Node)
    requires WF(m) && m.inRoute && c.Call?
    requires FunctionName(c).Some? && FunctionName(c).value in LINKING_COMPONENT_NAMES && |c.args| >= 2
    requires LinkTarget(c.args[1]).Some? && LinkTarget(c.args[1]).value != ""
    ensures var m' := Walk(unparse, m, c);
      |m'.routes| >= |m.routes| && LinkTarget(c.args[1]).value in m'.routes[|m.routes| - 1].functionCalls
  {
    assert FunctionName(c).value in COMPONENTS;
    var m1 := CallStep(m, c);
    assert LinkTarget(c.args[1]).value in m1.routes[|m.routes| - 1].functionCalls;
    WalkGrows(unparse, m1, c);
    GrowsOnChildren(unparse, m1, Children(c), c);
  }

  lemma GrowsOnChildren(unparse: Node -> string, m: Model, ns: seq<Node>, parent: Node)
    requires WF(m)
    requires forall c :: c in ns ==> c < parent
    ensures Grows(m, WalkAll(unparse, m, ns, parent))
    decreases |ns|
  {
    if ns != [] {
      var front := ns[..|ns| - 1];
      assert forall c :: c in front ==> c in ns;
      assert ns[|ns| - 1] in ns;
      GrowsOnChildren(unparse, m, front, parent);
      var mid := WalkAll(unparse, m, front, parent);
      WalkGrows(unparse, mid, ns[|ns| - 1]);
      GrowsTrans(m, mid, Walk(unparse, mid, ns[|ns| - 1]));
    }
  }

  /**
   * `visit_Attribute` before the children are visited: inside a route, `x.f` with x a bare
   * name, read or written, adds f to the current route's fields used and changes nothing
   * else; in every other case nothing changes.
   */
  lemma AttributeStepEffect(m: Model, n: Node)
    requires WF(m) && n.Attribute?
    ensures var m' := AttributeStep(m, n);
      m'.inRoute == m.inRoute && |m'.routes| == |m.routes| &&
      m'.functionCalls == m.functionCalls && m'.componentsUsed == m.componentsUsed &&
      m'.dataclasses == m.dataclasses &&
      (n.value.Name? && m.inRoute && IsLoadOrStore(n.ctx) ==>
        Current(m') == Current(m).(fieldsUsed := Current(m).fieldsUsed + {n.attr}) &&
        m'.routes[..|m.routes| - 1] == m.routes[..|m.routes| - 1]) &&
      (!(n.value.Name? && m.inRoute && IsLoadOrStore(n.ctx)) ==> m' == m)
  {
  }

  /**
   * In a chain `b.a.f`, whatever the outer context, only `a` is recorded as a field used:
   * the rule looks at attributes whose object is a bare name, so a chain contributes its
   * first attribute only. Calls, the tally and the other routes are untouched.
   */
  lemma ChainedAttributeRecordsFirst(unparse: Node -> string, m: Model, b: string, a: string, f: string, k: string, p: Pos)
    requires WF(m) && m.inRoute
    requires k == "Load" || k == "Store" || k == "Del"
    ensures var load := CtxNode("Load");
      var chain := Attribute(Attribute(Name(b, load, p), a, load, p), f, CtxNode(k), p);
      var m' := Walk(unparse, m, chain);
      |m'.routes| == |m.routes| && m'.inRoute &&
      m'.routes[|m.routes| - 1] == Current(m).(fieldsUsed := Current(m).fieldsUsed + {a}) &&
      m'.routes[..|m.routes| - 1] == m.routes[..|m.routes| - 1] &&
      m'.functionCalls == m.functionCalls && m'.componentsUsed == m.componentsUsed
  {
    var load := CtxNode("Load");
    var octx := CtxNode(k);
    var inner := Attribute(Name(b, load, p), a, load, p);
    var chain := Attribute(inner, f, octx, p);
    var m1 := AttributeStep(m, inner);
    InnerAttributeWalk(unparse, m, b, a, p);
    CtxWalk(unparse, m1, k);
    WalkNonRoute(unparse, m, chain);
    assert AttributeStep(m, chain) == m;
    WalkAllTwo(unparse, m, inner, octx, chain);
    AttributeStepEffect(m, inner);
  }

  /** An expression-context leaf changes nothing. */
  lemma CtxWalk(unparse: Node -> string, m: Model, k: string)
    requires WF(m)
    ensures Walk(unparse, m, CtxNode(k)) == m
  {
    WalkNonRoute(unparse, m, CtxNode(k));
  }

  /** `b.a` read: the attribute's own step, then a name and two contexts that change nothing. */
  lemma InnerAttributeWalk(unparse: Node -> string, m: Model, b: string, a: string, p: Pos)
    requires WF(m)
    ensures var load := CtxNode("Load");
      var inner := Attribute(Name(b, load, p), a, load, p);
      Walk(unparse, m, inner) == AttributeStep(m, inner)
  {
    var load := CtxNode("Load");
    var name := Name(b, load, p);
    var inner := Attribute(name, a, load, p);
    var m1 := AttributeStep(m, inner);
    WalkNonRoute(unparse, m1, name);
    WalkAllOne(unparse, m1, load, name);
    CtxWalk(unparse, m1, "Load");
    WalkNonRoute(unparse, m, inner);
    WalkAllTwo(unparse, m1, name, load, inner);
  }
}

=== FILE: dicts.dfy ===
/**
 * Python dictionaries as the analyzers use them: insertion ordered, and an assignment to a
 * key that is already present replaces its value where it stands. `defaultdict(int)` and
 * `defaultdict(set)` become `Increment` and `AddTo`, which insert the missing key explicitly.
 */
module Dicts {

  type Dict<K, V> = seq<(K, V)>

  /** The keys in insertion order (iteration order of the dict). */
  function Keys<K(==), V>(d: Dict<K, V>): (ks: seq<K>)
    ensures |ks| == |d|
    ensures forall i :: 0 <= i < |d| ==> ks[i] == d[i].0
  {
    if d == [] then [] else [d[0].0] + Keys(d[1..])
  }

  predicate HasKey<K(==), V>(d: Dict<K, V>, k: K) {
    k in Keys(d)
  }

  predicate UniqueKeys<K(==), V>(d: Dict<K, V>) {
    forall i, j :: 0 <= i < j < |d| ==> d[i].0 != d[j].0
  }

  /** `d[k]`. */
  function Get<K(==), V>(d: Dict<K, V>, k: K): (v: V)
    requires HasKey(d, k)
  {
    if d[0].0 == k then d[0].1 else Get(d[1..], k)
  }

  /** `d.get(k, default)`, which is also what a defaultdict hands out for a missing key. */
  function GetOr<K(==), V>(d: Dict<K, V>, k: K, default: V): V
  {
    if HasKey(d, k) then Get(d, k) else default
  }

  /** `d[k] = v`. */
  function Put<K(==), V>(d: Dict<K, V>, k: K, v: V): (r: Dict<K, V>)
    ensures HasKey(d, k) ==> Keys(r) == Keys(d)
    ensures !HasKey(d, k) ==> Keys(r) == Keys(d) + [k]
  {
    if d == [] then [(k, v)]
    else if d[0].0 == k then [(k, v)] + d[1..]
    else [d[0]] + Put(d[1..], k, v)
  }

  lemma {:induction false} GetAt<K, V>(d: Dict<K, V>, i: nat)
    requires UniqueKeys(d) && i < |d|
    ensures HasKey(d, d[i].0) && Get(d, d[i].0) == d[i].1
  {
    assert Keys(d)[i] == d[i].0;
    if i > 0 {
      assert d[1..][i - 1] == d[i];
      GetAt(d[1..], i - 1);
    }
  }

  /** `d[k] = v` keeps the keys unique. */
  lemma {:induction false} PutUnique<K, V>(d: Dict<K, V>, k: K, v: V)
    requires UniqueKeys(d)
    ensures UniqueKeys(Put(d, k, v))
  {
    var r := Put(d, k, v);
    if d != [] && d[0].0 != k {
      PutUnique(d[1..], k, v);
      var t := Put(d[1..], k, v);
      assert r == [d[0]] + t;
      assert d[0].0 !in Keys(d[1..]);
      forall j | 0 < j < |r| ensures r[0].0 != r[j].0 {
        assert r[j].0 == Keys(t)[j - 1];
      }
    }
  }

  /** After `d[k] = v`, k maps to v. */
  lemma {:induction false} PutGetSame<K, V>(d: Dict<K, V>, k: K, v: V)
    ensures HasKey(Put(d, k, v), k) && Get(Put(d, k, v), k) == v
  {
    if d != [] && d[0].0 != k {
      PutGetSame(d[1..], k, v);
    }
  }

  /** After `d[k] = v`, every other key is present and mapped as before. */
  lemma {:induction false} PutGetOther<K, V>(d: Dict<K, V>, k: K, v: V, k': K)
    requires k' != k
    ensures HasKey(Put(d, k, v), k') <==> HasKey(d, k')
    ensures HasKey(d, k') ==> Get(Put(d, k, v), k') == Get(d, k')
  {
    if d != [] && d[0].0 != k && d[0].0 != k' {
      PutGetOther(d[1..], k, v, k');
    }
  }

  /** Every entry after `d[k] = v` is the new one or an entry that was already there. */
  lemma {:induction false} PutEntries<K, V>(d: Dict<K, V>, k: K, v: V)
    ensures forall e :: e in Put(d, k, v) ==> e == (k, v) || e in d
  {
    if d != [] && d[0].0 != k {
      PutEntries(d[1..], k, v);
    }
  }

  /** A second assignment to the same key wins. */
  lemma {:induction false} PutOverwrite<K, V>(d: Dict<K, V>, k: K, v: V, w: V)
    ensures Put(Put(d, k, v), k, w) == Put(d, k, w)
  {
    if d != [] && d[0].0 != k {
      PutOverwrite(d[1..], k, v, w);
    }
  }

  /** A value read with a default after `d[k] = v`. */
  lemma PutGetOr<K, V>(d: Dict<K, V>, k: K, v: V, k': K, default: V)
    ensures GetOr(Put(d, k, v), k', default) == if k' == k then v else GetOr(d, k', default)
  {
    if k' == k {
      PutGetSame(d, k, v);
    } else {
      PutGetOther(d, k, v, k');
    }
  }

  /** `d[k] += 1` on a `defaultdict(int)`. */
  function Increment<K(==)>(d: Dict<K, int>, k: K): (r: Dict<K, int>)
  {
    Put(d, k, GetOr(d, k, 0) + 1)
  }

  /** `d[k].add(x)` on a `defaultdict(set)`. */
  function AddTo<K(==), T>(d: Dict<K, set<T>>, k: K, x: T): (r: Dict<K, set<T>>)
  {
    Put(d, k, GetOr(d, k, {}) + {x})
  }

  /** A `defaultdict(int)` increment raises exactly one count by one. */
  lemma IncrementCount<K>(d: Dict<K, int>, k: K, k': K)
    ensures GetOr(Increment(d, k), k', 0) == GetOr(d, k', 0) + (if k' == k then 1 else 0)
  {
    var c := GetOr(d, k, 0) + 1;
    PutGetOr(d, k, c, k', 0);
    assert Increment(d, k) == Put(d, k, c);
  }

  /** Adding an element that a `defaultdict(set)` entry already got changes nothing. */
  lemma AddToTwice<K, T>(d: Dict<K, set<T>>, k: K, x: T)
    ensures AddTo(AddTo(d, k, x), k, x) == AddTo(d, k, x)
  {
    var v := GetOr(d, k, {}) + {x};
    PutGetSame(d, k, v);
    assert GetOr(Put(d, k, v), k, {}) + {x} == v;
    PutOverwrite(d, k, v, v);
  }

  /** `d[k].add(x)` adds x under k and leaves every other entry alone. */
  lemma AddToGet<K, T>(d: Dict<K, set<T>>, k: K, x: T, k': K)
    ensures GetOr(AddTo(d, k, x), k', {}) == GetOr(d, k', {}) + (if k' == k then {x} else {})
  {
    PutGetOr(d, k, GetOr(d, k, {}) + {x}, k', {});
  }

  /** A present key sits at some position with the value `d[k]`. */
  lemma {:induction false} GetIndex<K, V>(d: Dict<K, V>, k: K)
    requires HasKey(d, k)
    ensures exists i :: 0 <= i < |d| && d[i] == (k, Get(d, k))
  {
    if d[0].0 != k {
      GetIndex(d[1..], k);
      var i :| 0 <= i < |d[1..]| && d[1..][i] == (k, Get(d[1..], k));
      assert d[i + 1] == d[1..][i];
    }
  }
}

=== FILE: extents.dfy ===
/**
 * The source extent of a subtree: a walk that folds the positions of the nodes it visits
 * into the lexicographically smallest start `(line, col)` and the lexicographically
 * largest end `(end_line, end_col)`. The four extents are given as a `Pos`.
 */
module Extents {
  import opened Ast
  import opened PyStr

  /** `(l1, c1) <= (l2, c2)` in lexicographic order. */
  predicate LexLe(l1: int, c1: int, l2: int, c2: int) {
    l1 < l2 || (l1 == l2 && c1 <= c2)
  }

  predicate StartsNoLater(a: Pos, b: Pos) {
    LexLe(a.line, a.col, b.line, b.col)
  }

  predicate EndsNoEarlier(a: Pos, b: Pos) {
    LexLe(b.endLine, b.endCol, a.endLine, a.endCol)
  }

  predicate SameStart(a: Pos, b: Pos) {
    a.line == b.line && a.col == b.col
  }

  predicate SameEnd(a: Pos, b: Pos) {
    a.endLine == b.endLine && a.endCol == b.endCol
  }

  /**
   * The comparisons in `ExtentGetter.visit` for a node at position p: the start becomes the
   * smaller of the two starts and the end the larger of the two ends.
   */
  function Widen(e: Pos, p: Pos): (r: Pos)
    ensures StartsNoLater(r, e) && StartsNoLater(r, p) && (SameStart(r, e) || SameStart(r, p))
    ensures EndsNoEarlier(r, e) && EndsNoEarlier(r, p) && (SameEnd(r, e) || SameEnd(r, p))
  {
    var (line, col) :=
      if e.line > p.line then (p.line, p.col)
      else if e.line == p.line && e.col > p.col then (e.line, p.col)
      else (e.line, e.col);
    var (endLine, endCol) :=
      if e.endLine < p.endLine then (p.endLine, p.endCol)
      else if e.endLine == p.endLine && e.endCol < p.endCol then (e.endLine, p.endCol)
      else (e.endLine, e.endCol);
    Pos(line, col, endLine, endCol)
  }

  /**
   * `visit(n)`: fold in n's position when it has one (a node without positions raises and the
   * error is swallowed), then visit the children, except below an f-string.
   */
  ghost function ExtentWalk(e: Pos, n: Node): Pos
    decreases n, 1
  {
    var e1 := if PosOf(n).Some? then Widen(e, PosOf(n).value) else e;
    if n.JoinedStr? then e1 else ExtentWalkAll(e1, Children(n), n)
  }

  ghost function ExtentWalkAll(e: Pos, ns: seq<Node>, parent: Node): Pos
    requires forall c :: c in ns ==> c < parent
    decreases parent, 0, |ns|
  {
    if ns == [] then e
    else
      var front := ns[..|ns| - 1];
      assert forall c :: c in front ==> c in ns;
      assert ns[|ns| - 1] in ns;
      ExtentWalk(ExtentWalkAll(e, front, parent), ns[|ns| - 1])
  }

  /** `check_all` followed by reading `extents`: the walk starts from the root's own positions. */
  ghost function ExtentsOf(n: Node): Pos
    requires PosOf(n).Some?
  {
    ExtentWalk(PosOf(n).value, n)
  }

  /** The positions the walk folds in, in visiting order. */
  ghost function Visited(n: Node): seq<Pos>
    decreases n, 1
  {
    (if PosOf(n).Some? then [PosOf(n).value] else []) +
    (if n.JoinedStr? then [] else VisitedAll(Children(n), n))
  }

  ghost function VisitedAll(ns: seq<Node>, parent: Node): seq<Pos>
    requires forall c :: c in ns ==> c < parent
    decreases parent, 0, |ns|
  {
    if ns == [] then []
    else
      var front := ns[..|ns| - 1];
      assert forall c :: c in front ==> c in ns;
      assert ns[|ns| - 1] in ns;
      VisitedAll(front, parent) + Visited(ns[|ns| - 1])
  }

  /**
   * After a walk from e, the start is the least of e's start and the starts of the visited
   * nodes, and the end the greatest of the ends: it bounds all of them and is one of them.
   */
  ghost predicate Bounds(r: Pos, e: Pos, ps: seq<Pos>) {
    StartsNoLater(r, e) && (forall p :: p in ps ==> StartsNoLater(r, p)) &&
    (SameStart(r, e) || exists p :: p in ps && SameStart(r, p)) &&
    EndsNoEarlier(r, e) && (forall p :: p in ps ==> EndsNoEarlier(r, p)) &&
    (SameEnd(r, e) || exists p :: p in ps && SameEnd(r, p))
  }

  /** Folding in more positions after a fold keeps the bounds (lexicographic order is transitive). */
  lemma BoundsTrans(r: Pos, m: Pos, e: Pos, ps: seq<Pos>, qs: seq<Pos>)
    requires Bounds(m, e, ps) && Bounds(r, m, qs)
    ensures Bounds(r, e, ps + qs)
  {
    if !SameStart(r, m) {
      var q :| q in qs && SameStart(r, q);
      assert q in ps + qs;
    } else if !SameStart(m, e) {
      var p :| p in ps && SameStart(m, p);
      assert p in ps + qs;
    }
    if !SameEnd(r, m) {
      var q :| q in qs && SameEnd(r, q);
      assert q in ps + qs;
    } else if !SameEnd(m, e) {
      var p :| p in ps && SameEnd(m, p);
      assert p in ps + qs;
    }
  }

  lemma {:induction false} ExtentWalkBounds(e: Pos, n: Node)
    ensures Bounds(ExtentWalk(e, n), e, Visited(n))
    decreases n, 1
  {
    var own := if PosOf(n).Some? then [PosOf(n).value] else [];
    var e1 := if PosOf(n).Some? then Widen(e, PosOf(n).value) else e;
    assert Bounds(e1, e, own);
    if !n.JoinedStr? {
      ExtentWalkAllBounds(e1, Children(n), n);
      BoundsTrans(ExtentWalk(e, n), e1, e, own, VisitedAll(Children(n), n));
    } else {
      assert Visited(n) == own;
    }
  }

  lemma {:induction false} ExtentWalkAllBounds(e: Pos, ns: seq<Node>, parent: Node)
    requires forall c :: c in ns ==> c < parent
    ensures Bounds(ExtentWalkAll(e, ns, parent), e, VisitedAll(ns, parent))
    decreases parent, 0, |ns|
  {
    if ns != [] {
      var front := ns[..|ns| - 1];
      assert forall c :: c in front ==> c in ns;
      assert ns[|ns| - 1] in ns;
      ExtentWalkAllBounds(e, front, parent);
      var m := ExtentWalkAll(e, front, parent);
      ExtentWalkBounds(m, ns[|ns| - 1]);
      BoundsTrans(ExtentWalk(m, ns[|ns| - 1]), m, e, VisitedAll(front, parent), Visited(ns[|ns| - 1]));
    }
  }

  /**
   * The extents of a subtree: the start is the lexicographic minimum of the starts of the
   * root and every visited node, the end the maximum of their ends. In particular the
   * extents start no later and end no earlier than the root itself.
   */
  lemma ExtentsAreMinMax(n: Node)
    requires PosOf(n).Some?
    ensures var r := ExtentsOf(n);
      PosOf(n).value in Visited(n) &&
      (forall p :: p in Visited(n) ==> StartsNoLater(r, p) && EndsNoEarlier(r, p)) &&
      (exists p :: p in Visited(n) && SameStart(r, p)) &&
      (exists p :: p in Visited(n) && SameEnd(r, p))
  {
    var root := PosOf(n).value;
    ExtentWalkBounds(root, n);
    assert Visited(n)[0] == root;
  }

  /** The first extent never grows and the third never shrinks along the walk. */
  lemma ExtentWalkMonotone(e: Pos, n: Node)
    ensures ExtentWalk(e, n).line <= e.line && ExtentWalk(e, n).endLine >= e.endLine
  {
    ExtentWalkBounds(e, n);
  }

  /** An f-string's own position is folded in, but nothing below it is visited. */
  lemma JoinedStrOwnPositionOnly(e: Pos, values: seq<Node>, p: Pos)
    ensures Visited(JoinedStr(values, p)) == [p]
    ensures ExtentWalk(e, JoinedStr(values, p)) == Widen(e, p)
  {
  }

  /** A node without positions changes nothing by itself; only its children can. */
  lemma NoPositionNoChange(e: Pos, n: Node)
    requires PosOf(n).None?
    ensures ExtentWalk(e, n) == ExtentWalkAll(e, Children(n), n)
    ensures Children(n) == [] ==> ExtentWalk(e, n) == e
  {
  }

  /** `ExtentGetter`: the four extents `[line, col, end_line, end_col]`, or `None` before `check_all`. */
  class ExtentGetter {
    var extents: Option<seq<int>>

    ghost predicate Valid()
      reads this
    {
      extents.Some? ==> |extents.value| == 4
    }

    /** The extents as a position. */
    ghost function State(): Pos
      reads this
      requires Valid() && extents.Some?
    {
      Pos(extents.value[0], extents.value[1], extents.value[2], extents.value[3])
    }

    constructor()
      ensures Valid() && extents == None
    {
      extents := None;
    }

    /** `check_all`: start from the node's own positions and visit it. */
    method CheckAll(node: Node)
      requires Valid() && PosOf(node).Some?
      modifies this
      ensures Valid() && extents.Some? && State() == ExtentsOf(node)
    {
      var p := PosOf(node).value;
      extents := Some([p.line, p.col, p.endLine, p.endCol]);
      Visit(node);
    }

    /** The comparisons of `visit` for a node at position p. */
    method Update(p: Pos)
      requires Valid() && extents.Some?
      modifies this
      ensures Valid() && extents.Some? && State() == Widen(old(State()), p)
    {
      if extents.value[0] > p.line {
        extents := Some(extents.value[0 := p.line][1 := p.col]);
      } else if extents.value[0] == p.line {
        if extents.value[1] > p.col {
          extents := Some(extents.value[1 := p.col]);
        }
      }
      if extents.value[2] < p.endLine {
        extents := Some(extents.value[2 := p.endLine][3 := p.endCol]);
      } else if extents.value[2] == p.endLine {
        if extents.value[3] < p.endCol {
          extents := Some(extents.value[3 := p.endCol]);
        }
      }
    }

    /** `visit`; the dispatch reaches `visit_JoinedStr`, which stops, or `generic_visit`. */
    method Visit(node: Node)
      requires Valid() && extents.Some?
      modifies this
      ensures Valid() && extents.Some? && State() == ExtentWalk(old(State()), node)
      decreases node, 2
    {
      var pos := PosOf(node);
      if pos.Some? {
        Update(pos.value);
      }
      if !node.JoinedStr? {
        VisitEach(Children(node), node);
      }
    }

    /** `generic_visit`: the children from left to right. */
    method VisitEach(ns: seq<Node>, ghost parent: Node)
      requires Valid() && extents.Some? && forall x :: x in ns ==> x < parent
      modifies this
      ensures Valid() && extents.Some? && State() == ExtentWalkAll(old(State()), ns, parent)
      decreases parent, 0
    {
      ghost var e0 := State();
      var i := 0;
      while i < |ns|
        invariant 0 <= i <= |ns|
        invariant Valid() && extents.Some?
        invariant forall x :: x in ns[..i] ==> x < parent
        invariant State() == ExtentWalkAll(e0, ns[..i], parent)
      {
        TakeSnoc(ns, i, i + 1);
        assert (ns[..i] + [ns[i]])[..i] == ns[..i];
        Visit(ns[i]);
        i := i + 1;
      }
      assert ns[..i] == ns;
    }
  }

  /**
   * `get_extents`: the extents of the subtree, or `None` where the source raises because the
   * root has no position attributes.
   */
  method GetExtents(node: Node) returns (r: Option<Pos>)
    ensures PosOf(node).None? ==> r.None?
    ensures PosOf(node).Some? ==> r == Some(ExtentsOf(node))
  {
    if PosOf(node).None? {
      return None;
    }
    var extenter := new ExtentGetter();
    extenter.CheckAll(node);
    r := Some(Pos(extenter.extents.value[0], extenter.extents.value[1], extenter.extents.value[2], extenter.extents.value[3]));
  }
}

=== FILE: pystr.dfy ===
/**
 * The fragment of Python's `str` and slice semantics that the analyzer relies on:
 * slicing with clamped (and negative) bounds, `split` on one character, `join`,
 * `strip`, `splitlines`, `str * n` and `str(int)`.
 */
module PyStr {

  /** Python's `str.isspace()` for one character. */
  predicate IsSpace(c: char) {
    var k := c as int;
    k == 0x20 || (0x09 <= k <= 0x0D) || (0x1C <= k <= 0x1F) || k == 0x85 || k == 0xA0 ||
    k == 0x1680 || (0x2000 <= k <= 0x200A) || k == 0x2028 || k == 0x2029 || k == 0x202F ||
    k == 0x205F || k == 0x3000
  }

  /** The characters at which Python's `str.splitlines()` ends a line. */
  predicate IsLineBreak(c: char) {
    var k := c as int;
    (0x0A <= k <= 0x0D) || (0x1C <= k <= 0x1E) || k == 0x85 || k == 0x2028 || k == 0x2029
  }

  /** A slice bound as CPython normalises it for a sequence of length n (step 1). */
  function ClampIndex(k: int, n: nat): (r: nat)
    ensures r <= n
    ensures 0 <= k <= n ==> r == k
    ensures k > n ==> r == n
  {
    if k < 0 then (if n + k < 0 then 0 else n + k)
    else if k > n then n
    else k
  }

  /** `s[i:j]`: Python slicing, which never fails and yields the empty sequence when the bounds cross. */
  function Slice<T>(s: seq<T>, i: int, j: int): (r: seq<T>)
    ensures |r| <= |s|
    ensures 0 <= i <= j <= |s| ==> r == s[i..j]
    ensures 0 <= j <= i ==> r == []
    ensures forall x :: x in r ==> x in s
  {
    var a := ClampIndex(i, |s|);
    var b := ClampIndex(j, |s|);
    if a < b then s[a..b] else []
  }

  /** `" " * n`: Python string repetition, empty for n <= 0. */
  function Spaces(n: int): (r: string)
    ensures |r| == if n < 0 then 0 else n
    ensures forall k :: 0 <= k < |r| ==> r[k] == ' '
  {
    if n <= 0 then "" else Spaces(n - 1) + " "
  }

  /** `s.index(c)`: the first position of c. */
  function FirstIndex(s: string, c: char): (r: nat)
    requires c in s
    ensures r < |s| && s[r] == c
    ensures c !in s[..r]
  {
    if s[0] == c then 0 else FirstIndex(s[1..], c) + 1
  }

  /** `s.rindex(c)`: the last position of c. */
  function LastIndex(s: string, c: char): (r: nat)
    requires c in s
    ensures r < |s| && s[r] == c
    ensures c !in s[r + 1..]
  {
    if s[|s| - 1] == c then |s| - 1 else LastIndex(s[..|s| - 1], c)
  }

  /** `s.split(c)`: the pieces between occurrences of the separator c, empty pieces included. */
  function Split(s: string, c: char): (parts: seq<string>)
    ensures |parts| >= 1
    ensures forall i :: 0 <= i < |parts| ==> c !in parts[i]
    decreases |s|
  {
    if c in s then
      var k := FirstIndex(s, c);
      [s[..k]] + Split(s[k + 1..], c)
    else [s]
  }

  /** `sep.join(parts)`. */
  function Join(sep: string, parts: seq<string>): string
  {
    if |parts| == 0 then ""
    else if |parts| == 1 then parts[0]
    else parts[0] + sep + Join(sep, parts[1..])
  }

  /** `"".join(parts)`: plain concatenation. */
  function Concat(parts: seq<string>): string
  {
    if parts == [] then "" else parts[0] + Concat(parts[1..])
  }

  lemma {:induction false} ConcatAppend(parts: seq<string>, last: string)
    ensures Concat(parts + [last]) == Concat(parts) + last
  {
    if parts != [] {
      assert (parts + [last])[1..] == parts[1..] + [last];
      ConcatAppend(parts[1..], last);
    }
  }

  /** Splitting on c undoes joining with c. */
  lemma {:induction false} JoinSplit(s: string, c: char)
    ensures Join([c], Split(s, c)) == s
    decreases |s|
  {
    if c in s {
      var k := FirstIndex(s, c);
      JoinSplit(s[k + 1..], c);
      var rest := Split(s[k + 1..], c);
      assert Split(s, c) == [s[..k]] + rest;
      assert ([s[..k]] + rest)[1..] == rest;
      assert s == s[..k] + [c] + s[k + 1..];
    }
  }

  lemma {:induction false} FirstIndexAfterPrefix(a: string, c: char, b: string)
    requires c !in a
    ensures c in a + [c] + b && FirstIndex(a + [c] + b, c) == |a|
    ensures (a + [c] + b)[..|a|] == a
  {
    var s := a + [c] + b;
    assert s[|a|] == c;
    if a != [] {
      assert s[1..] == a[1..] + [c] + b;
      FirstIndexAfterPrefix(a[1..], c, b);
    }
  }

  /** Splitting a string whose first c follows a c-free prefix. */
  lemma SplitCons(head: string, c: char, tail: string)
    requires c !in head
    ensures Split(head + [c] + tail, c) == [head] + Split(tail, c)
  {
    var s := head + [c] + tail;
    FirstIndexAfterPrefix(head, c, tail);
    assert s[|head| + 1..] == tail;
  }

  /** Joining with c undoes splitting on c, as long as no piece contains c. */
  lemma {:induction false} SplitJoin(parts: seq<string>, c: char)
    requires |parts| >= 1
    requires forall i :: 0 <= i < |parts| ==> c !in parts[i]
    ensures Split(Join([c], parts), c) == parts
  {
    if |parts| > 1 {
      var head, rest := parts[0], parts[1..];
      assert c !in head;
      assert forall i :: 0 <= i < |rest| ==> c !in rest[i] by {
        forall i | 0 <= i < |rest| ensures c !in rest[i] { assert rest[i] == parts[i + 1]; }
      }
      SplitJoin(rest, c);
      var tail := Join([c], rest);
      assert Join([c], parts) == head + [c] + tail;
      SplitCons(head, c, tail);
      assert parts == [head] + rest;
    }
  }

  /** `s.lstrip()`. */
  function LStrip(s: string): string
  {
    if |s| > 0 && IsSpace(s[0]) then LStrip(s[1..]) else s
  }

  /** `s.rstrip()`. */
  function RStrip(s: string): string
  {
    if |s| > 0 && IsSpace(s[|s| - 1]) then RStrip(s[..|s| - 1]) else s
  }

  /** `s.strip()`. */
  function Strip(s: string): string
  {
    RStrip(LStrip(s))
  }

  predicate Blank(s: string) {
    forall k :: 0 <= k < |s| ==> IsSpace(s[k])
  }

  lemma {:induction false} LStripBlank(s: string)
    ensures LStrip(s) == "" <==> Blank(s)
    ensures LStrip(s) != "" ==> !IsSpace(LStrip(s)[0])
    ensures |LStrip(s)| <= |s| && LStrip(s) == s[|s| - |LStrip(s)|..]
  {
    if |s| > 0 && IsSpace(s[0]) {
      LStripBlank(s[1..]);
      if Blank(s[1..]) {
        forall k | 0 <= k < |s| ensures IsSpace(s[k]) {
          if k > 0 { assert s[k] == s[1..][k - 1]; }
        }
      }
      if Blank(s) {
        forall k | 0 <= k < |s[1..]| ensures IsSpace(s[1..][k]) { assert s[1..][k] == s[k + 1]; }
      }
    }
  }

  lemma {:induction false} RStripPreservesHead(s: string)
    requires |s| > 0 && !IsSpace(s[0])
    ensures |RStrip(s)| > 0 && RStrip(s)[0] == s[0]
  {
    if IsSpace(s[|s| - 1]) {
      RStripPreservesHead(s[..|s| - 1]);
    }
  }

  /** `s.strip()` is empty exactly when s consists of whitespace only. */
  lemma StripEmptyIffBlank(s: string)
    ensures Strip(s) == "" <==> Blank(s)
  {
    LStripBlank(s);
    var l := LStrip(s);
    if l != "" {
      RStripPreservesHead(l);
    }
  }

  /** The pieces of `s.splitlines()`: the line ending "\r\n" counts once, and no empty last line follows a final break. */
  function SplitLines(s: string): (lines: seq<string>)
    ensures forall i, k :: 0 <= i < |lines| && 0 <= k < |lines[i]| ==> !IsLineBreak(lines[i][k])
    decreases |s|
  {
    if s == [] then []
    else if exists k :: 0 <= k < |s| && IsLineBreak(s[k]) then
      var k := FirstBreak(s);
      var next := if s[k] == '\r' && k + 1 < |s| && s[k + 1] == '\n' then k + 2 else k + 1;
      [s[..k]] + SplitLines(s[next..])
    else [s]
  }

  function FirstBreak(s: string): (k: nat)
    requires exists k :: 0 <= k < |s| && IsLineBreak(s[k])
    ensures k < |s| && IsLineBreak(s[k])
    ensures forall j :: 0 <= j < k ==> !IsLineBreak(s[j])
  {
    if IsLineBreak(s[0]) then 0
    else
      assert exists k :: 0 <= k < |s[1..]| && IsLineBreak(s[1..][k]) by {
        var k :| 0 <= k < |s| && IsLineBreak(s[k]);
        assert k > 0 && s[1..][k - 1] == s[k];
      }
      FirstBreak(s[1..]) + 1
  }

  /** A position before which s has no line break and at which it has one is the first break. */
  lemma FirstBreakAt(s: string, k: nat)
    requires k < |s| && IsLineBreak(s[k])
    requires forall j :: 0 <= j < k ==> !IsLineBreak(s[j])
    ensures FirstBreak(s) == k
  {
  }

  /**
   * Lines joined with "\n" split back into the same lines, as long as none holds a line
   * break and the last one is not empty (`splitlines` drops an empty last line).
   */
  lemma {:induction false} SplitLinesJoin(ls: seq<string>)
    requires forall i, k :: 0 <= i < |ls| && 0 <= k < |ls[i]| ==> !IsLineBreak(ls[i][k])
    requires ls == [] || ls[|ls| - 1] != ""
    ensures SplitLines(Join("\n", ls)) == ls
  {
    if |ls| == 1 {
      assert Join("\n", ls) == ls[0];
      assert !exists k :: 0 <= k < |ls[0]| && IsLineBreak(ls[0][k]);
    } else if |ls| > 1 {
      var head, rest := ls[0], ls[1..];
      assert forall i, k :: 0 <= i < |rest| && 0 <= k < |rest[i]| ==> !IsLineBreak(rest[i][k]) by {
        forall i, k | 0 <= i < |rest| && 0 <= k < |rest[i]| ensures !IsLineBreak(rest[i][k]) {
          assert rest[i] == ls[i + 1];
        }
      }
      SplitLinesJoin(rest);
      var tail := Join("\n", rest);
      var s := head + "\n" + tail;
      assert Join("\n", ls) == s;
      var k := |head|;
      assert s[k] == '\n' && IsLineBreak(s[k]);
      forall j | 0 <= j < k ensures !IsLineBreak(s[j]) {
        assert s[j] == ls[0][j];
      }
      FirstBreakAt(s, k);
      assert s[..k] == head && s[k + 1..] == tail;
      assert SplitLines(s) == [head] + SplitLines(tail);
      assert ls == [head] + rest;
    }
  }

  /** `str(n)` for a natural number. */
  function NatToString(n: nat): (r: string)
    ensures |r| >= 1
    ensures forall k :: 0 <= k < |r| ==> '0' <= r[k] <= '9'
  {
    var d := [(n % 10) as char + '0'];
    if n < 10 then d else NatToString(n / 10) + d
  }

  /** `str(i)` for any integer. */
  function IntToString(i: int): (r: string)
    ensures |r| >= 1
  {
    if i < 0 then "-" + NatToString(-i) else NatToString(i)
  }

  /** Text made of the given lines, each ended by a newline. */
  function Lines(ls: seq<string>): string
  {
    if ls == [] then "" else ls[0] + "\n" + Lines(ls[1..])
  }

  /** A header line followed by more lines. */
  lemma LinesCons(head: string, ls: seq<string>)
    ensures Lines([head] + ls) == head + "\n" + Lines(ls)
  {
    assert ([head] + ls)[1..] == ls;
  }

  /** Text built as a header and the lines so far, extended by the text of more lines. */
  lemma LinesExtend(header: string, before: seq<string>, block: seq<string>, text: string, blockText: string)
    requires text == header + Lines(before) && blockText == Lines(block)
    ensures text + blockText == header + Lines(before + block)
  {
    LinesAppend(before, block);
    ConcatAssoc(header, Lines(before), Lines(block));
  }

  lemma ConcatAssoc<T>(x: seq<T>, y: seq<T>, z: seq<T>)
    ensures (x + y) + z == x + (y + z)
  {
  }

  /** The text of some lines, extended by one more line. */
  /** The first i + 1 elements are the first i and then element i, which is an element. */
  lemma TakeSnoc<T>(s: seq<T>, i: nat, next: nat)
    requires i < |s| && next == i + 1
    ensures s[..next] == s[..i] + [s[i]] && s[i] in s
  {
  }

  lemma LinesSnoc(before: seq<string>, line: string, text: string)
    requires text == Lines(before)
    ensures text + line + "\n" == Lines(before + [line])
  {
    LinesAppend(before, [line]);
    assert [line][1..] == [];
  }

  lemma {:induction false} LinesAppend(a: seq<string>, b: seq<string>)
    ensures Lines(a + b) == Lines(a) + Lines(b)
  {
    if a != [] {
      assert (a + b)[1..] == a[1..] + b;
      LinesAppend(a[1..], b);
    } else {
      assert a + b == b;
    }
  }

  lemma {:induction false} LinesAsJoin(ls: seq<string>)
    ensures Lines(ls) == Join("\n", ls + [""])
  {
    if ls != [] {
      assert (ls + [""])[1..] == ls[1..] + [""];
      LinesAsJoin(ls[1..]);
    }
  }

  /** Text built line by line splits back into exactly those lines (and the empty rest after the last newline). */
  lemma LinesReadBack(ls: seq<string>)
    requires forall i :: 0 <= i < |ls| ==> '\n' !in ls[i]
    ensures Split(Lines(ls), '\n') == ls + [""]
  {
    LinesAsJoin(ls);
    assert "\n" == ['\n'];
    forall i | 0 <= i < |ls + [""]| ensures '\n' !in (ls + [""])[i] {
      if i < |ls| { assert (ls + [""])[i] == ls[i]; }
    }
    SplitJoin(ls + [""], '\n');
  }
}

=== FILE: strings.dfy ===
/**
 * Removal of user text before complexity scoring: the positions of string literals, the
 * walk that sorts them into literals to keep and expression-statement literals (docstrings)
 * to blank out, and the line-by-line blanking of those literals and of `#` comments.
 * Lines are 0-based here, columns are offsets into a line.
 */
module Strings {
  import opened Ast
  import opened PyStr

  /** The character that blanked text is replaced with. */
  const REMOVE_CHAR: char := ' '

  datatype StringLiteralLocation = StringLiteralLocation(
    startLine: int, endLine: int, startCol: int, endCol: int, isExpr: bool, value: string)

  /** `is_on_line`: the line lies in the literal's inclusive line range. */
  predicate IsOnLine(loc: StringLiteralLocation, line: int) {
    loc.startLine <= line <= loc.endLine
  }

  /** `is_in_column`: the column lies in the literal's inclusive column range. */
  predicate IsInColumn(loc: StringLiteralLocation, col: int) {
    loc.startCol <= col <= loc.endCol
  }

  /** `has_position`: the column range is checked on every line of the literal, not only its first and last. */
  function HasPosition(loc: StringLiteralLocation, lineNumber: int, columnNumber: int): (r: bool)
    ensures r <==> IsOnLine(loc, lineNumber) && IsInColumn(loc, columnNumber)
  {
    if loc.startLine <= lineNumber <= loc.endLine then
      if loc.startCol <= columnNumber <= loc.endCol then true else false
    else false
  }

  /** The part of a line that `extract` and `extract_outside` cut at. */
  function ColumnBounds(loc: StringLiteralLocation, lineNumber: int, codeLine: string): (int, int)
  {
    (if lineNumber == loc.startLine then loc.startCol else 0,
     if lineNumber == loc.endLine then loc.endCol else |codeLine|)
  }

  /** The bounds of the literal on this line lie within the line. */
  predicate FitsLine(loc: StringLiteralLocation, lineNumber: int, codeLine: string) {
    var (s, e) := ColumnBounds(loc, lineNumber, codeLine);
    0 <= s <= e <= |codeLine|
  }

  /** `extract`: the part of a line that the literal covers. */
  function Extract(loc: StringLiteralLocation, lineNumber: int, codeLine: string): (r: string)
    ensures |r| <= |codeLine|
    ensures lineNumber != loc.startLine && lineNumber != loc.endLine ==> r == codeLine
    ensures lineNumber == loc.startLine && lineNumber != loc.endLine && 0 <= loc.startCol <= |codeLine| ==>
      r == codeLine[loc.startCol..]
    ensures lineNumber == loc.endLine && lineNumber != loc.startLine && 0 <= loc.endCol <= |codeLine| ==>
      r == codeLine[..loc.endCol]
    ensures lineNumber == loc.startLine == loc.endLine && 0 <= loc.startCol <= loc.endCol <= |codeLine| ==>
      r == codeLine[loc.startCol..loc.endCol]
  {
    var (s, e) := ColumnBounds(loc, lineNumber, codeLine);
    Slice(codeLine, s, e)
  }

  /** `extract_outside`: the line with the part the literal covers replaced by spaces. */
  function ExtractOutside(loc: StringLiteralLocation, lineNumber: int, codeLine: string): (r: string)
    ensures FitsLine(loc, lineNumber, codeLine) ==>
      var (s, e) := ColumnBounds(loc, lineNumber, codeLine);
      |r| == |codeLine| && forall k :: 0 <= k < |codeLine| ==> r[k] == if s <= k < e then REMOVE_CHAR else codeLine[k]
    ensures forall k :: 0 <= k < |r| ==> r[k] == REMOVE_CHAR || r[k] in codeLine
  {
    var (s, e) := ColumnBounds(loc, lineNumber, codeLine);
    var spacer := if s < e then Spaces(e - s) else "";
    var r := Slice(codeLine, 0, s) + spacer + Slice(codeLine, e, |codeLine|);
    assert forall k :: 0 <= k < |r| ==> r[k] == REMOVE_CHAR || r[k] in codeLine by {
      forall k | 0 <= k < |r| ensures r[k] == REMOVE_CHAR || r[k] in codeLine {
        var c := r[k];
        assert c in r;
        if c in spacer {
          var j :| 0 <= j < |spacer| && spacer[j] == c;
        }
      }
    }
    r
  }

  /** What `extract_outside` leaves is the line with exactly the `extract` part blanked. */
  lemma ExtractOutsideBlanksExtract(loc: StringLiteralLocation, lineNumber: int, codeLine: string)
    requires FitsLine(loc, lineNumber, codeLine)
    ensures var (s, e) := ColumnBounds(loc, lineNumber, codeLine);
      ExtractOutside(loc, lineNumber, codeLine) ==
        codeLine[..s] + Spaces(|Extract(loc, lineNumber, codeLine)|) + codeLine[e..]
  {
    var (s, e) := ColumnBounds(loc, lineNumber, codeLine);
    var r := ExtractOutside(loc, lineNumber, codeLine);
    var t := codeLine[..s] + Spaces(|Extract(loc, lineNumber, codeLine)|) + codeLine[e..];
    assert |Extract(loc, lineNumber, codeLine)| == e - s;
    assert |r| == |t|;
    forall k | 0 <= k < |r| ensures r[k] == t[k] {
      if k < s {
        assert t[k] == codeLine[k];
      } else if k < e {
        assert t[k] == ' ';
      } else {
        assert t[k] == codeLine[e..][k - e];
      }
    }
  }

  // ---------------------------------------------------------------------------------------
  // StringWalker

  /**
   * The state of a `StringWalker`: `strings[true]` holds the literals met inside an
   * expression statement whose value is a literal (to be removed), `strings[false]` all
   * other string literals (to be kept).
   */
  datatype Walker = Walker(strings: map<bool, seq<StringLiteralLocation>>, insideExpr: bool)

  ghost predicate WF(w: Walker) {
    true in w.strings && false in w.strings
  }

  function InitialWalker(): (w: Walker)
    ensures WF(w) && !w.insideExpr && w.strings[true] == [] && w.strings[false] == []
  {
    Walker(map[true := [], false := []], false)
  }

  /** The record `track_node` makes for a literal at position p; its lines are made 0-based. */
  function Location(p: Pos, insideExpr: bool, value: string): (loc: StringLiteralLocation)
    ensures loc.startLine == p.line - 1 && loc.endLine == p.endLine - 1
    ensures loc.startCol == p.col && loc.endCol == p.endCol
    ensures loc.isExpr == insideExpr && loc.value == value
  {
    StringLiteralLocation(p.line - 1, p.endLine - 1, p.col, p.endCol, insideExpr, value)
  }

  /** `track_node`: the literal goes to the end of the list its classification selects, and nowhere else. */
  function Track(w: Walker, p: Pos, value: string): (w': Walker)
    requires WF(w)
    ensures WF(w') && w'.insideExpr == w.insideExpr
    ensures w'.strings[w.insideExpr] == w.strings[w.insideExpr] + [Location(p, w.insideExpr, value)]
    ensures w'.strings[!w.insideExpr] == w.strings[!w.insideExpr]
  {
    w.(strings := w.strings[w.insideExpr := w.strings[w.insideExpr] + [Location(p, w.insideExpr, value)]])
  }

  /** The value kinds for which `visit_Expr` counts an expression statement as user text. */
  predicate IsLiteralValue(v: Node) {
    v.Constant? || v.JoinedStr? || v.FormattedValue?
  }

  /** The label `visit_JoinedStr` records for an f-string with n parts. */
  function JoinedStrLabel(n: nat): string
  {
    "JoinedStr(" + NatToString(n) + ")"
  }

  /**
   * `visit(n)` on a `StringWalker`. An f-string visits its parts, records itself and then
   * visits its parts again through `generic_visit`; a formatted value visits its value twice.
   */
  ghost function Walk(w: Walker, n: Node): (w': Walker)
    requires WF(w)
    ensures WF(w')
    decreases n, 1
  {
    match n
    case Constant(lit, p) =>
      WalkAll(if lit.Str? then Track(w, p, lit.s) else w, Children(n), n)
    case JoinedStr(values, p) =>
      WalkAll(Track(WalkAll(w, values, n), p, JoinedStrLabel(|values|)), Children(n), n)
    case FormattedValue(value, _, _) =>
      WalkAll(Walk(w, value), Children(n), n)
    case Expr(value, _) =>
      WalkAll(w.(insideExpr := IsLiteralValue(value)), Children(n), n).(insideExpr := false)
    case _ =>
      WalkAll(w, Children(n), n)
  }

  /** Visiting the nodes `ns`, children of `parent`, from left to right. */
  ghost function WalkAll(w: Walker, ns: seq<Node>, parent: Node): (w': Walker)
    requires WF(w)
    requires forall c :: c in ns ==> c < parent
    ensures WF(w')
    decreases parent, 0, |ns|
  {
    if ns == [] then w
    else
      var front := ns[..|ns| - 1];
      assert forall c :: c in front ==> c in ns;
      assert ns[|ns| - 1] in ns;
      Walk(WalkAll(w, front, parent), ns[|ns| - 1])
  }

  lemma WalkAllSnoc(w: Walker, front: seq<Node>, c: Node, parent: Node)
    requires WF(w) && c < parent
    requires forall x :: x in front ==> x < parent
    ensures forall x :: x in front + [c] ==> x < parent
    ensures WalkAll(w, front + [c], parent) == Walk(WalkAll(w, front, parent), c)
  {
    assert (front + [c])[..|front|] == front;
  }

  /** Every recorded literal sits in the list its own `is_expr` flag names. */
  ghost predicate Classified(w: Walker) {
    forall b :: b in w.strings ==> forall j :: 0 <= j < |w.strings[b]| ==> w.strings[b][j].isExpr == b
  }

  /** `track_node` files the new record under the walker's current flag, which is the record's own. */
  lemma TrackClassified(w: Walker, p: Pos, value: string)
    requires WF(w) && Classified(w)
    ensures Classified(Track(w, p, value))
  {
    var w' := Track(w, p, value);
    forall b, j | b in w'.strings && 0 <= j < |w'.strings[b]| ensures w'.strings[b][j].isExpr == b {
      if b == w.insideExpr && j == |w.strings[b]| {
        assert w'.strings[b][j] == Location(p, w.insideExpr, value);
      } else {
        assert w'.strings[b][j] == w.strings[b][j];
      }
    }
  }

  lemma {:induction false} WalkClassified(w: Walker, n: Node)
    requires WF(w) && Classified(w)
    ensures Classified(Walk(w, n))
    decreases n, 1
  {
    match n
    case Constant(lit, p) =>
      var w1 := if lit.Str? then Track(w, p, lit.s) else w;
      if lit.Str? { TrackClassified(w, p, lit.s); }
      WalkAllClassified(w1, Children(n), n);
    case JoinedStr(values, p) =>
      WalkAllClassified(w, values, n);
      var w0 := WalkAll(w, values, n);
      TrackClassified(w0, p, JoinedStrLabel(|values|));
      WalkAllClassified(Track(w0, p, JoinedStrLabel(|values|)), Children(n), n);
    case FormattedValue(value, _, _) =>
      WalkClassified(w, value);
      WalkAllClassified(Walk(w, value), Children(n), n);
    case Expr(value, _) =>
      WalkAllClassified(w.(insideExpr := IsLiteralValue(value)), Children(n), n);
    case _ =>
      WalkAllClassified(w, Children(n), n);
  }

  lemma {:induction false} WalkAllClassified(w: Walker, ns: seq<Node>, parent: Node)
    requires WF(w) && Classified(w)
    requires forall c :: c in ns ==> c < parent
    ensures Classified(WalkAll(w, ns, parent))
    decreases parent, 0, |ns|
  {
    if ns != [] {
      var front := ns[..|ns| - 1];
      assert forall c :: c in front ==> c in ns;
      assert ns[|ns| - 1] in ns;
      WalkAllClassified(w, front, parent);
      WalkClassified(WalkAll(w, front, parent), ns[|ns| - 1]);
    }
  }

  /** The subtree holds no expression statement (every expression, for instance). */
  ghost predicate NoExprStmt(n: Node)
    decreases n
  {
    !n.Expr? && forall c :: c in Children(n) ==> NoExprStmt(c)
  }

  /**
   * Walking a subtree without expression statements keeps the classification, and files
   * every literal under it: the other list is left exactly as it was.
   */
  lemma {:induction false} WalkKeepsClass(w: Walker, n: Node)
    requires WF(w) && NoExprStmt(n)
    ensures Walk(w, n).insideExpr == w.insideExpr
    ensures Walk(w, n).strings[!w.insideExpr] == w.strings[!w.insideExpr]
    decreases n, 1
  {
    match n
    case Constant(lit, p) =>
      var w1 := if lit.Str? then Track(w, p, lit.s) else w;
      WalkAllKeepsClass(w1, Children(n), n);
    case JoinedStr(values, p) =>
      WalkAllKeepsClass(w, values, n);
      var w1 := Track(WalkAll(w, values, n), p, JoinedStrLabel(|values|));
      WalkAllKeepsClass(w1, Children(n), n);
    case FormattedValue(value, _, _) =>
      assert value in Children(n);
      WalkKeepsClass(w, value);
      WalkAllKeepsClass(Walk(w, value), Children(n), n);
    case Expr(_, _) =>
      assert false;
    case _ =>
      WalkAllKeepsClass(w, Children(n), n);
  }

  lemma {:induction false} WalkAllKeepsClass(w: Walker, ns: seq<Node>, parent: Node)
    requires WF(w)
    requires forall c :: c in ns ==> c < parent && NoExprStmt(c)
    ensures WalkAll(w, ns, parent).insideExpr == w.insideExpr
    ensures WalkAll(w, ns, parent).strings[!w.insideExpr] == w.strings[!w.insideExpr]
    decreases parent, 0, |ns|
  {
    if ns != [] {
      var front := ns[..|ns| - 1];
      assert forall c :: c in front ==> c in ns;
      assert ns[|ns| - 1] in ns;
      WalkAllKeepsClass(w, front, parent);
      WalkKeepsClass(WalkAll(w, front, parent), ns[|ns| - 1]);
    }
  }

  /**
   * An expression statement whose value is a literal (a docstring, say) adds its literals
   * to the removal list only; any other expression statement adds them to the keep list
   * only. Either way the flag is off afterwards.
   */
  lemma ExprStatementClass(w: Walker, value: Node, p: Pos)
    requires WF(w) && NoExprStmt(value)
    ensures Walk(w, Expr(value, p)).insideExpr == false
    ensures IsLiteralValue(value) ==> Walk(w, Expr(value, p)).strings[false] == w.strings[false]
    ensures !IsLiteralValue(value) ==> Walk(w, Expr(value, p)).strings[true] == w.strings[true]
  {
    var n := Expr(value, p);
    var w1 := w.(insideExpr := IsLiteralValue(value));
    assert Children(n) == [value];
    WalkAllKeepsClass(w1, Children(n), n);
  }

  /** A string constant outside any expression statement is recorded as a literal to keep. */
  lemma StringConstantKept(w: Walker, s: string, p: Pos)
    requires WF(w) && !w.insideExpr
    ensures Walk(w, Constant(Str(s), p)).strings[false] == w.strings[false] + [Location(p, false, s)]
    ensures Walk(w, Constant(Str(s), p)).strings[true] == w.strings[true]
  {
  }

  /** `StringWalker`: a visitor that records every string literal with its position. */
  class StringWalker {
    var strings: map<bool, seq<StringLiteralLocation>>
    var insideExpr: bool

    ghost function State(): Walker
      reads this
    {
      Walker(strings, insideExpr)
    }

    ghost predicate Valid()
      reads this
    {
      WF(State())
    }

    constructor()
      ensures Valid() && State() == InitialWalker()
    {
      strings := map[true := [], false := []];
      insideExpr := false;
    }

    /** `track_node`. */
    method TrackNode(p: Pos, value: string)
      requires Valid()
      modifies this
      ensures Valid() && State() == Track(old(State()), p, value)
    {
      var loc := StringLiteralLocation(p.line - 1, p.endLine - 1, p.col, p.endCol, insideExpr, value);
      strings := strings[insideExpr := strings[insideExpr] + [loc]];
    }

    method Visit(n: Node)
      requires Valid()
      modifies this
      ensures Valid() && State() == Walk(old(State()), n)
      decreases n, 3
    {
      match n
      case Constant(_, _) => VisitConstant(n);
      case JoinedStr(_, _) => VisitJoinedStr(n);
      case FormattedValue(_, _, _) => VisitFormattedValue(n);
      case Expr(_, _) => VisitExpr(n);
      case _ => GenericVisit(n);
    }

    /** `generic_visit`: every child in field order. */
    method GenericVisit(n: Node)
      requires Valid()
      modifies this
      ensures Valid() && State() == WalkAll(old(State()), Children(n), n)
      decreases n, 1
    {
      VisitEach(Children(n), n);
    }

    /** Visits the nodes `ns`, children of `parent`, from left to right. */
    method VisitEach(ns: seq<Node>, ghost parent: Node)
      requires Valid() && forall x :: x in ns ==> x < parent
      modifies this
      ensures Valid() && State() == WalkAll(old(State()), ns, parent)
      decreases parent, 0
    {
      ghost var w0 := State();
      var i := 0;
      while i < |ns|
        invariant 0 <= i <= |ns|
        invariant Valid()
        invariant forall x :: x in ns[..i] ==> x < parent
        invariant State() == WalkAll(w0, ns[..i], parent)
      {
        TakeSnoc(ns, i, i + 1);
        WalkAllSnoc(w0, ns[..i], ns[i], parent);
        Visit(ns[i]);
        i := i + 1;
      }
      assert ns[..i] == ns;
    }

    /** `visit_Constant`: only `str` values are recorded. */
    method VisitConstant(n: Node)
      requires Valid() && n.Constant?
      modifies this
      ensures Valid() && State() == Walk(old(State()), n)
      decreases n, 2
    {
      if n.literal.Str? {
        TrackNode(n.pos, n.literal.s);
      }
      GenericVisit(n);
    }

    /** `visit_JoinedStr`. */
    method VisitJoinedStr(n: Node)
      requires Valid() && n.JoinedStr?
      modifies this
      ensures Valid() && State() == Walk(old(State()), n)
      decreases n, 2
    {
      VisitEach(n.values, n);
      TrackNode(n.pos, "JoinedStr(" + NatToString(|n.values|) + ")");
      GenericVisit(n);
    }

    /** `visit_FormattedValue`. */
    method VisitFormattedValue(n: Node)
      requires Valid() && n.FormattedValue?
      modifies this
      ensures Valid() && State() == Walk(old(State()), n)
      decreases n, 2
    {
      Visit(n.value);
      GenericVisit(n);
    }

    /** `visit_Expr`. */
    method VisitExpr(n: Node)
      requires Valid() && n.Expr?
      modifies this
      ensures Valid() && State() == Walk(old(State()), n)
      decreases n, 2
    {
      insideExpr := n.value.Constant? || n.value.JoinedStr? || n.value.FormattedValue?;
      GenericVisit(n);
      insideExpr := false;
    }
  }

  // ---------------------------------------------------------------------------------------
  // remove_user_text

  /** `any(keep.has_position(i, col) for keep in keeps)`. */
  function AnyCovers(keeps: seq<StringLiteralLocation>, i: int, col: int): (r: bool)
    ensures r <==> exists k :: 0 <= k < |keeps| && HasPosition(keeps[k], i, col)
  {
    if keeps == [] then false
    else if HasPosition(keeps[0], i, col) then true
    else
      var r := AnyCovers(keeps[1..], i, col);
      assert r ==> exists k :: 0 <= k < |keeps| && HasPosition(keeps[k], i, col) by {
        if r {
          var k :| 0 <= k < |keeps[1..]| && HasPosition(keeps[1..][k], i, col);
          assert keeps[k + 1] == keeps[1..][k];
        }
      }
      assert (exists k :: 0 <= k < |keeps| && HasPosition(keeps[k], i, col)) ==> r by {
        if exists k :: 0 <= k < |keeps| && HasPosition(keeps[k], i, col) {
          var k :| 0 <= k < |keeps| && HasPosition(keeps[k], i, col);
          assert k > 0 && keeps[1..][k - 1] == keeps[k];
        }
      }
      r
  }

  /** The comment spans `hashes` holds after its loop has seen the first `n` lines. */
  function HashSpansUpTo(lines: seq<string>, n: nat): map<int, seq<(int, int)>>
  {
    map i | 0 <= i < n && i < |lines| && '#' in lines[i] :: [(FirstIndex(lines[i], '#'), |lines[i]|)]
  }

  lemma HashSpansUpToNext(lines: seq<string>, i: nat)
    requires i < |lines|
    ensures i !in HashSpansUpTo(lines, i)
    ensures HashSpansUpTo(lines, i + 1) ==
      if '#' in lines[i] then HashSpansUpTo(lines, i)[i := [(FirstIndex(lines[i], '#'), |lines[i]|)]]
      else HashSpansUpTo(lines, i)
  {
  }

  /** `hashes`: for each line with a `#`, the one span from its first `#` to the end of the line. */
  function HashSpans(lines: seq<string>): map<int, seq<(int, int)>>
  {
    HashSpansUpTo(lines, |lines|)
  }

  /** The removal literals on line i blanked out, in the order they were recorded. */
  function BlankStrings(removes: seq<StringLiteralLocation>, i: int, line: string): string
  {
    if removes == [] then line
    else
      var l := BlankStrings(removes[..|removes| - 1], i, line);
      var r := removes[|removes| - 1];
      if IsOnLine(r, i) then ExtractOutside(r, i, l) else l
  }

  /** `line[:start] + REMOVE_CHAR * (end - start) + line[end:]`. */
  function BlankSpan(line: string, start: int, end: int): string
  {
    Slice(line, 0, start) + Spaces(end - start) + Slice(line, end, |line|)
  }

  /** Blanking from `start` to the end of the line keeps its length and turns exactly that tail into spaces. */
  lemma BlankSpanTail(line: string, start: int)
    requires 0 <= start <= |line|
    ensures |BlankSpan(line, start, |line|)| == |line|
    ensures forall k :: 0 <= k < |line| ==> BlankSpan(line, start, |line|)[k] == if k < start then line[k] else REMOVE_CHAR
  {
    var r := BlankSpan(line, start, |line|);
    assert r == line[..start] + Spaces(|line| - start) + [];
    forall k | 0 <= k < |line| ensures r[k] == if k < start then line[k] else REMOVE_CHAR {
      if k >= start {
        assert r[k] == Spaces(|line| - start)[k - start];
      }
    }
  }

  /** The comment spans of line i blanked out, except those starting inside a kept literal. */
  function BlankComments(keeps: seq<StringLiteralLocation>, spans: seq<(int, int)>, i: int, line: string): string
  {
    if spans == [] then line
    else
      var l := BlankComments(keeps, spans[..|spans| - 1], i, line);
      var (start, end) := spans[|spans| - 1];
      if AnyCovers(keeps, i, start) then l else BlankSpan(l, start, end)
  }

  /** One line of the result of `remove_user_text`. */
  function CleanLine(removes: seq<StringLiteralLocation>, keeps: seq<StringLiteralLocation>,
                     hashes: map<int, seq<(int, int)>>, i: int, line: string): string
  {
    BlankComments(keeps, if i in hashes then hashes[i] else [], i, BlankStrings(removes, i, line))
  }

  function CleanLines(lines: seq<string>, removes: seq<StringLiteralLocation>, keeps: seq<StringLiteralLocation>): (kept: seq<string>)
    ensures |kept| == |lines|
  {
    seq(|lines|, i requires 0 <= i < |lines| => CleanLine(removes, keeps, HashSpans(lines), i, lines[i]))
  }

  /** The text the line loop of `remove_user_text` builds from the records of a finished walk. */
  function CleanedText(w: Walker, code: string): string
    requires WF(w)
  {
    Join("\n", CleanLines(SplitLines(code), w.strings[true], w.strings[false]))
  }

  /** The text `remove_user_text` returns for a tree and the source code it was parsed from. */
  ghost function RemoveUserTextSpec(tree: Node, code: string): string
  {
    CleanedText(Walk(InitialWalker(), tree), code)
  }

  /** Every character of a cleaned line is the line's own character or a space. */
  ghost predicate Blanked(line: string, r: string) {
    |r| == |line| && forall k :: 0 <= k < |line| ==> r[k] == line[k] || r[k] == REMOVE_CHAR
  }

  /** Every removal literal on line i fits the line. */
  ghost predicate RemovalsFit(removes: seq<StringLiteralLocation>, i: int, line: string) {
    forall j :: 0 <= j < |removes| && IsOnLine(removes[j], i) ==> FitsLine(removes[j], i, line)
  }

  /** Blanking the removal literals keeps the line length and only turns characters into spaces. */
  lemma {:induction false} BlankStringsBlanks(removes: seq<StringLiteralLocation>, i: int, line: string)
    requires RemovalsFit(removes, i, line)
    ensures Blanked(line, BlankStrings(removes, i, line))
  {
    if removes != [] {
      var front := removes[..|removes| - 1];
      assert RemovalsFit(front, i, line) by {
        forall j | 0 <= j < |front| && IsOnLine(front[j], i) ensures FitsLine(front[j], i, line) {
          assert front[j] == removes[j];
        }
      }
      BlankStringsBlanks(front, i, line);
      var l := BlankStrings(front, i, line);
      var r := removes[|removes| - 1];
      if IsOnLine(r, i) {
        assert FitsLine(r, i, line);
        assert ColumnBounds(r, i, l) == ColumnBounds(r, i, line);
      }
    }
  }

  /** Whatever the literals, blanking them never puts a character into a line that was not there or a space. */
  lemma {:induction false} BlankStringsChars(removes: seq<StringLiteralLocation>, i: int, line: string)
    ensures forall k :: 0 <= k < |BlankStrings(removes, i, line)| ==>
      BlankStrings(removes, i, line)[k] == REMOVE_CHAR || BlankStrings(removes, i, line)[k] in line
  {
    if removes != [] {
      BlankStringsChars(removes[..|removes| - 1], i, line);
    }
  }

  lemma BlankSpanChars(line: string, start: int, end: int)
    ensures forall k :: 0 <= k < |BlankSpan(line, start, end)| ==>
      BlankSpan(line, start, end)[k] == REMOVE_CHAR || BlankSpan(line, start, end)[k] in line
  {
    var a, sp, b := Slice(line, 0, start), Spaces(end - start), Slice(line, end, |line|);
    var r := BlankSpan(line, start, end);
    forall k | 0 <= k < |r| ensures r[k] == REMOVE_CHAR || r[k] in line {
      if k < |a| {
        assert r[k] == a[k] && a[k] in line;
      } else if k < |a| + |sp| {
        assert r[k] == sp[k - |a|];
      } else {
        assert r[k] == b[k - |a| - |sp|] && b[k - |a| - |sp|] in line;
      }
    }
  }

  lemma {:induction false} BlankCommentsChars(keeps: seq<StringLiteralLocation>, spans: seq<(int, int)>, i: int, line: string)
    ensures forall k :: 0 <= k < |BlankComments(keeps, spans, i, line)| ==>
      BlankComments(keeps, spans, i, line)[k] == REMOVE_CHAR || BlankComments(keeps, spans, i, line)[k] in line
  {
    if spans != [] {
      BlankCommentsChars(keeps, spans[..|spans| - 1], i, line);
      var l := BlankComments(keeps, spans[..|spans| - 1], i, line);
      var (start, end) := spans[|spans| - 1];
      BlankSpanChars(l, start, end);
    }
  }

  /** A cleaned line holds only characters of the original line and spaces. */
  lemma CleanLineChars(removes: seq<StringLiteralLocation>, keeps: seq<StringLiteralLocation>,
                       hashes: map<int, seq<(int, int)>>, i: int, line: string)
    ensures forall k :: 0 <= k < |CleanLine(removes, keeps, hashes, i, line)| ==>
      CleanLine(removes, keeps, hashes, i, line)[k] == REMOVE_CHAR || CleanLine(removes, keeps, hashes, i, line)[k] in line
  {
    var l := BlankStrings(removes, i, line);
    BlankStringsChars(removes, i, line);
    BlankCommentsChars(keeps, if i in hashes then hashes[i] else [], i, l);
  }

  /**
   * `remove_user_text` keeps the line structure: the result has one line per line of the
   * code, in order, and reads back as exactly those lines (unless the last one is empty,
   * which `splitlines` drops).
   */
  lemma RemoveUserTextLines(tree: Node, code: string)
    ensures var w := Walk(InitialWalker(), tree);
      var kept := CleanLines(SplitLines(code), w.strings[true], w.strings[false]);
      |kept| == |SplitLines(code)| &&
      RemoveUserTextSpec(tree, code) == Join("\n", kept) &&
      (kept == [] || kept[|kept| - 1] != "" ==> SplitLines(RemoveUserTextSpec(tree, code)) == kept)
  {
    var w := Walk(InitialWalker(), tree);
    CleanedTextLines(w, code);
  }

  /** The same for the records of any walk. */
  lemma CleanedTextLines(w: Walker, code: string)
    requires WF(w)
    ensures var kept := CleanLines(SplitLines(code), w.strings[true], w.strings[false]);
      kept == [] || kept[|kept| - 1] != "" ==> SplitLines(CleanedText(w, code)) == kept
  {
    CleanLinesReadBack(SplitLines(code), w.strings[true], w.strings[false]);
  }

  /**
   * Cleaning only ever puts spaces into lines, so lines without breaks stay without breaks,
   * and joining the cleaned lines reads back as the same lines unless the last one is empty.
   */
  lemma CleanLinesReadBack(lines: seq<string>, removes: seq<StringLiteralLocation>, keeps: seq<StringLiteralLocation>)
    requires forall i, k :: 0 <= i < |lines| && 0 <= k < |lines[i]| ==> !IsLineBreak(lines[i][k])
    ensures var kept := CleanLines(lines, removes, keeps);
      kept == [] || kept[|kept| - 1] != "" ==> SplitLines(Join("\n", kept)) == kept
  {
    var kept := CleanLines(lines, removes, keeps);
    forall i, k | 0 <= i < |kept| && 0 <= k < |kept[i]| ensures !IsLineBreak(kept[i][k]) {
      CleanLineChars(removes, keeps, HashSpans(lines), i, lines[i]);
      assert kept[i][k] == REMOVE_CHAR || kept[i][k] in lines[i];
      if kept[i][k] != REMOVE_CHAR {
        var j :| 0 <= j < |lines[i]| && lines[i][j] == kept[i][k];
        assert !IsLineBreak(lines[i][j]);
      }
    }
    if kept == [] || kept[|kept| - 1] != "" {
      SplitLinesJoin(kept);
    }
  }

  lemma HashSpansAt(lines: seq<string>, i: int)
    ensures i in HashSpans(lines) <==> 0 <= i < |lines| && '#' in lines[i]
    ensures i in HashSpans(lines) ==> HashSpans(lines)[i] == [(FirstIndex(lines[i], '#'), |lines[i]|)]
  {
  }

  /** With the removal literals fitting the line, a cleaned line has the original length and differs only by spaces. */
  lemma CleanLineBlanks(removes: seq<StringLiteralLocation>, keeps: seq<StringLiteralLocation>, lines: seq<string>, i: nat)
    requires i < |lines| && RemovalsFit(removes, i, lines[i])
    ensures Blanked(lines[i], CleanLine(removes, keeps, HashSpans(lines), i, lines[i]))
  {
    var line := lines[i];
    var l := BlankStrings(removes, i, line);
    BlankStringsBlanks(removes, i, line);
    HashSpansAt(lines, i);
    if '#' in line {
      var start := FirstIndex(line, '#');
      var spans := [(start, |line|)];
      assert spans[..0] == [];
      assert CleanLine(removes, keeps, HashSpans(lines), i, line) == BlankComments(keeps, spans, i, l);
      if !AnyCovers(keeps, i, start) {
        assert BlankComments(keeps, spans, i, l) == BlankSpan(l, start, |line|);
        BlankSpanTail(l, start);
      }
    }
  }

  /**
   * The first `#` of a line starts a comment that is blanked to the end of the line,
   * unless a kept literal covers its position; then the line keeps its comment text.
   */
  lemma CommentBlanked(removes: seq<StringLiteralLocation>, keeps: seq<StringLiteralLocation>, lines: seq<string>, i: nat)
    requires i < |lines| && '#' in lines[i]
    ensures var start := FirstIndex(lines[i], '#');
      var r := CleanLine(removes, keeps, HashSpans(lines), i, lines[i]);
      (AnyCovers(keeps, i, start) ==> r == BlankStrings(removes, i, lines[i])) &&
      (!AnyCovers(keeps, i, start) && RemovalsFit(removes, i, lines[i]) ==>
        |r| == |lines[i]| && forall k :: start <= k < |r| ==> r[k] == REMOVE_CHAR)
  {
    var line := lines[i];
    var start := FirstIndex(line, '#');
    var l := BlankStrings(removes, i, line);
    var spans := [(start, |line|)];
    HashSpansAt(lines, i);
    assert spans[..0] == [];
    assert CleanLine(removes, keeps, HashSpans(lines), i, line) == BlankComments(keeps, spans, i, l);
    if AnyCovers(keeps, i, start) {
      assert BlankComments(keeps, spans, i, l) == l;
    }
    if !AnyCovers(keeps, i, start) && RemovalsFit(removes, i, line) {
      BlankStringsBlanks(removes, i, line);
      assert BlankComments(keeps, spans, i, l) == BlankSpan(l, start, |line|);
      BlankSpanTail(l, start);
    }
  }

  /** A line with no `#` and no removal literal on it comes through unchanged. */
  lemma UntouchedLine(removes: seq<StringLiteralLocation>, keeps: seq<StringLiteralLocation>, lines: seq<string>, i: nat)
    requires i < |lines| && '#' !in lines[i]
    requires forall j :: 0 <= j < |removes| ==> !IsOnLine(removes[j], i)
    ensures CleanLine(removes, keeps, HashSpans(lines), i, lines[i]) == lines[i]
  {
    HashSpansAt(lines, i);
    BlankStringsOff(removes, i, lines[i]);
  }

  lemma {:induction false} BlankStringsOff(removes: seq<StringLiteralLocation>, i: int, line: string)
    requires forall j :: 0 <= j < |removes| ==> !IsOnLine(removes[j], i)
    ensures BlankStrings(removes, i, line) == line
  {
    if removes != [] {
      var front := removes[..|removes| - 1];
      assert forall j :: 0 <= j < |front| ==> front[j] == removes[j];
      BlankStringsOff(front, i, line);
    }
  }

  // ---------------------------------------------------------------------------------------
  // The loops of remove_user_text

  /** The first loop: the span from the first `#` to the end of the line, for each line that has one. */
  method CollectHashes(lines: seq<string>) returns (hashes: map<int, seq<(int, int)>>)
    ensures hashes == HashSpans(lines)
  {
    hashes := map[];
    var i := 0;
    while i < |lines|
      invariant 0 <= i <= |lines|
      invariant hashes == HashSpansUpTo(lines, i)
    {
      var line := lines[i];
      HashSpansUpToNext(lines, i);
      if '#' in line {
        var start := FirstIndex(line, '#');
        var end := |line|;
        if i !in hashes {
          hashes := hashes[i := []];
        }
        assert hashes[i] + [(start, end)] == [(FirstIndex(lines[i], '#'), |lines[i]|)];
        hashes := hashes[i := hashes[i] + [(start, end)]];
      }
      i := i + 1;
    }
  }

  /** The inner loop over the removal literals for line i. */
  method BlankStringsText(removes: seq<StringLiteralLocation>, i: int, line0: string) returns (line: string)
    ensures line == BlankStrings(removes, i, line0)
  {
    line := line0;
    var j := 0;
    while j < |removes|
      invariant 0 <= j <= |removes|
      invariant line == BlankStrings(removes[..j], i, line0)
    {
      var removeString := removes[j];
      assert removes[..j + 1][..j] == removes[..j];
      if IsOnLine(removeString, i) {
        line := ExtractOutside(removeString, i, line);
      }
      j := j + 1;
    }
    assert removes[..j] == removes;
  }

  /** The inner loop over the comment spans of line i. */
  method BlankCommentsText(keeps: seq<StringLiteralLocation>, spans: seq<(int, int)>, i: int, line0: string) returns (line: string)
    ensures line == BlankComments(keeps, spans, i, line0)
  {
    line := line0;
    var j := 0;
    while j < |spans|
      invariant 0 <= j <= |spans|
      invariant line == BlankComments(keeps, spans[..j], i, line0)
    {
      var (start, end) := spans[j];
      assert spans[..j + 1][..j] == spans[..j];
      if !AnyCovers(keeps, i, start) {
        line := Slice(line, 0, start) + Spaces(end - start) + Slice(line, end, |line|);
      }
      j := j + 1;
    }
    assert spans[..j] == spans;
  }

  /** The body of the line loop of `remove_user_text`: one line cleaned. */
  method CleanLineText(removes: seq<StringLiteralLocation>, keeps: seq<StringLiteralLocation>,
                       hashes: map<int, seq<(int, int)>>, i: int, line: string) returns (r: string)
    ensures r == CleanLine(removes, keeps, hashes, i, line)
  {
    r := BlankStringsText(removes, i, line);
    if i in hashes {
      r := BlankCommentsText(keeps, hashes[i], i, r);
    } else {
      assert BlankComments(keeps, [], i, r) == r;
    }
  }

  /** `remove_user_text`: literal expression statements and comments blanked, line by line. */
  method RemoveUserText(tree: Node, code: string) returns (text: string)
    ensures text == RemoveUserTextSpec(tree, code)
  {
    var walker := new StringWalker();
    walker.Visit(tree);
    var keepStrings := walker.strings[false];
    var removeStrings := walker.strings[true];

    var lines := SplitLines(code);
    var hashes := CollectHashes(lines);
    var kept := CleanLinesText(lines, removeStrings, keepStrings, hashes);
    text := Join("\n", kept);
  }

  /** The line loop of `remove_user_text`, given the comment spans of the lines. */
  method CleanLinesText(lines: seq<string>, removes: seq<StringLiteralLocation>, keeps: seq<StringLiteralLocation>,
                        hashes: map<int, seq<(int, int)>>) returns (kept: seq<string>)
    requires hashes == HashSpans(lines)
    ensures kept == CleanLines(lines, removes, keeps)
  {
    kept := [];
    var i := 0;
    while i < |lines|
      invariant 0 <= i <= |lines|
      invariant kept == CleanLines(lines, removes, keeps)[..i]
    {
      var line := CleanLineText(removes, keeps, hashes, i, lines[i]);
      kept := kept + [line];
      i := i + 1;
    }
  }
}
